=== FILE: README.md ===
# oneApplyHub: a Dafny model of its forms, filters and routes

oneApplyHub is a student-accommodation site for the University of the
Witwatersrand (Wits) and the University of Johannesburg (UJ). It has a React
frontend and a Flask backend. This project models, in Dafny, the parts of it
that decide things. It proves what each of them guarantees.

**The frontend**

- The seven-step accommodation-application wizard. It has a form record, a
  residence selection capped at three, seven document slots, per-step gates,
  and Next and Previous.
- The sign-up form's ordered checks.
- The "write a review" form. This covers its validation, the payload it posts,
  and the star row.
- The reviews page: its filters, query string, badges, recommendation count,
  and marking a review helpful.
- The bursary directory's filter.
- Two generations of the property listing page. These cover their filter
  reducers, pagers and amenity chips.

**The backend**

- The university-email rule.
- `register` and `login`.
- `create_review`, `mark_helpful`, the review listing's author block, and a
  user's review statistics.
- The property search chain and the single-property lookup.
- The admin routes. These are an admin gate, admin login, the status filter,
  create (with its required fields), partial update, cascade delete, approve
  and verify.

**How things are modelled**

- Database tables are sequences of records, and queries are filters over them.
- JSON bodies are maps from keys to a `Json` value with Python's truthiness and
  `int()`.
- A React component whose handlers change its state is a class whose methods
  change its fields.
- Pure helpers are functions, and what they guarantee is stated as lemmas.
- Where the frontend and backend meet, lemmas relate the two sides. Examples
  are the email rule, review validation, and the listing's price parameters.

**Modules**

| module | models |
|---|---|
| `Wrappers`, `Text`, `Seqs`, `Records` | shared values: `Option`; ASCII trimming, case and substring search; UTF-16 length; `filter`; JSON values, Python truthiness and `int()`; the user, property, review and image rows |
| `ApplicationWizard` | `frontend/src/pages/StudentApplicationPage.jsx` |
| `RegisterForm` | `frontend/src/pages/RegisterPage.jsx` |
| `Auth` | `backend/app/routes/auth.py` |
| `EmailAgreement` | the sign-up page's email checks against the route's email rule |
| `ReviewForm` | `frontend/src/pages/CreateReviewPage.js` |
| `ReviewApi` | `backend/app/routes/reviews.py` |
| `ReviewAgreement` | the review form's validation against `create_review` |
| `ReviewsPage` | `frontend/src/pages/ReviewsPage.jsx` |
| `BursaryPage` | `frontend/src/pages/BursaryPage.jsx` |
| `PropertyListing` | what both property listing pages share: filters, sent parameters, amenity chips |
| `PropertiesPage` | `frontend/src/pages/PropertiesPage.jsx` |
| `LegacyPropertiesPage` | `frontend/src/pages/PropertiesPage.js` |
| `PropertySearch` | `backend/properties.py` |
| `Admin` | `backend/app/routes/admin.py` |

## Model

| member | source | states |
|---|---|---|
| `ApplicationWizard.ApplyInput` | frontend/src/pages/StudentApplicationPage.jsx:88-93 | the named text field (or the NSFAS checkbox) takes the new value; every other field, the residence list and every document slot are unchanged |
| `ApplicationWizard.AttachDocument` | frontend/src/pages/StudentApplicationPage.jsx:95-103 | exactly one document slot takes the chosen file; every other slot and every field keep their values |
| `ApplicationWizard.Toggle` | frontend/src/pages/StudentApplicationPage.jsx:105-123 | after a click the id is selected iff it was unselected and fewer than three were selected; no other id's membership changes |
| `ApplicationWizard.ToggleBounded` | frontend/src/pages/StudentApplicationPage.jsx:114-121 | a selection of at most three never grows past three |
| `ApplicationWizard.ToggleFullIgnored` | frontend/src/pages/StudentApplicationPage.jsx:114-121 | clicking a fourth distinct residence leaves the selection exactly as it was |
| `ApplicationWizard.ToggleRemovesAt` | frontend/src/pages/StudentApplicationPage.jsx:108-113 | clicking a selected residence removes exactly its position and keeps the order of the rest |
| `ApplicationWizard.ToggleAppends` | frontend/src/pages/StudentApplicationPage.jsx:114-119 | clicking an unselected residence while there is room appends it at the end |
| `ApplicationWizard.ToggleKeepsDistinct` | frontend/src/pages/StudentApplicationPage.jsx:105-123 | the selection never holds a residence twice |
| `ApplicationWizard.ToggleTwiceRestores` | frontend/src/pages/StudentApplicationPage.jsx:105-123 | clicking a newly added residence again restores the earlier selection |
| `ApplicationWizard.ToggleTwiceMovesLast` | frontend/src/pages/StudentApplicationPage.jsx:105-123 | deselecting and reselecting a residence moves it to the end |
| `ApplicationWizard.Gate` | frontend/src/pages/StudentApplicationPage.jsx:125-141 | `validateStep`: the truthiness checks of steps 1 to 6 (step 3 waives the guardian income for an NSFAS applicant, step 4 needs a residence, step 6 three document slots); any other step passes |
| `ApplicationWizard.TextGates` | frontend/src/pages/StudentApplicationPage.jsx:127-136 | the gates of steps 1, 2 and 5 hold iff each of their listed text fields is non-empty |
| `ApplicationWizard.FinancialGate` | frontend/src/pages/StudentApplicationPage.jsx:131-132 | step 3 needs the financial-aid field, plus the guardian income only when the NSFAS box is unchecked |
| `ApplicationWizard.AccommodationGate` | frontend/src/pages/StudentApplicationPage.jsx:133-134 | step 4 passes iff a residence is selected and a room type is chosen |
| `ApplicationWizard.DocumentGate` | frontend/src/pages/StudentApplicationPage.jsx:137-138 | step 6 passes iff the student card, student ID and proof-of-registration slots are filled |
| `ApplicationWizard.DocumentGateIgnoresGuardianAndNsfas` | frontend/src/pages/StudentApplicationPage.jsx:137-138 | the guardian-ID and NSFAS-letter slots never change the step-6 gate |
| `ApplicationWizard.LabelledRequiredNotEnforced` | frontend/src/pages/StudentApplicationPage.jsx:639-643 | the guardian ID is labelled required but not gated: some form passes step 6 with that slot empty |
| `ApplicationWizard.ReviewStepOpen` | frontend/src/pages/StudentApplicationPage.jsx:139-140 | step 7, and any number outside 1..6, always passes; no terms acknowledgement is checked |
| `ApplicationWizard.BlankTextPasses` | frontend/src/pages/StudentApplicationPage.jsx:127-128 | only emptiness is checked: a step-1 form of single spaces passes |
| `ApplicationWizard.NextStepOf` | frontend/src/pages/StudentApplicationPage.jsx:144-150 | Next moves only when the gate holds, then exactly one step below 7, and never leaves 1..7 |
| `ApplicationWizard.PrevStepOf` | frontend/src/pages/StudentApplicationPage.jsx:152-154 | Previous goes one step back without any check, never below step 1 |
| `ApplicationWizard.Navigate` | frontend/src/pages/StudentApplicationPage.jsx:144-154 | any sequence of Next and Previous presses keeps the step within 1..7 |
| `ApplicationWizard.Frontier` | frontend/src/pages/StudentApplicationPage.jsx:125-142 | the first step whose gate fails: every earlier gate holds |
| `ApplicationWizard.NeverPassesFrontier` | frontend/src/pages/StudentApplicationPage.jsx:144-154 | no sequence of presses carries the user past the first failing gate |
| `ApplicationWizard.AdvanceOverPassingGates` | frontend/src/pages/StudentApplicationPage.jsx:144-150 | over passing gates each Next advances exactly one step |
| `ApplicationWizard.ReachReview` | frontend/src/pages/StudentApplicationPage.jsx:125-150 | six presses of Next from step 1 reach the review step iff every gate of steps 1..6 holds |
| `ApplicationWizard.BackThenForward` | frontend/src/pages/StudentApplicationPage.jsx:144-154 | Previous then Next returns to the same step when the earlier step's gate holds |
| `ApplicationWizard.Wizard.constructor` | frontend/src/pages/StudentApplicationPage.jsx:5-62 | starts at step 1 with the empty form, no selection, empty slots, not loading, no status |
| `ApplicationWizard.Wizard.LoadCatalog` | frontend/src/pages/StudentApplicationPage.jsx:78-86 | a fetched residence list replaces the catalog; a failed fetch changes nothing |
| `ApplicationWizard.Wizard.HandleInputChange` | frontend/src/pages/StudentApplicationPage.jsx:88-93 | the form becomes `ApplyInput` of the old form; step and flags unchanged |
| `ApplicationWizard.Wizard.HandleFileUpload` | frontend/src/pages/StudentApplicationPage.jsx:95-103 | the form becomes `AttachDocument` of the old form; step and flags unchanged |
| `ApplicationWizard.Wizard.HandleResidenceSelection` | frontend/src/pages/StudentApplicationPage.jsx:105-123 | only the selection changes, by `Toggle`, and it stays at most three and duplicate-free |
| `ApplicationWizard.Wizard.NextStep` | frontend/src/pages/StudentApplicationPage.jsx:144-150 | reports whether the current gate held (no alert); when it held the step goes up by one, capped at 7, so step 7 stays 7; otherwise the step stays; the form never changes |
| `ApplicationWizard.Wizard.PrevStep` | frontend/src/pages/StudentApplicationPage.jsx:152-154 | goes back one step (not below 1) without validating and without touching the form |
| `ApplicationWizard.Wizard.BeginSubmit` | frontend/src/pages/StudentApplicationPage.jsx:156-157 | pressing Submit, only possible on step 7 while not loading, raises the loading flag and changes nothing else |
| `ApplicationWizard.Wizard.SettleSubmit` | frontend/src/pages/StudentApplicationPage.jsx:158-166 | the status becomes success or error and the loading flag comes down |
| `RegisterForm.WithField` | frontend/src/pages/RegisterPage.jsx:35-39 | typing changes exactly the named input |
| `RegisterForm.FirstError` | frontend/src/pages/RegisterPage.jsx:44-81 | `validateForm`'s checks in page order; the first that fails is the error, none when all pass |
| `RegisterForm.FirstErrorIsEarliestFailure` | frontend/src/pages/RegisterPage.jsx:44-81 | the reported error is a failing check and every check before it in page order passes, and conversely |
| `RegisterForm.ReportedIsEarliest` | frontend/src/pages/RegisterPage.jsx:44-81 | the reported error's own check fails and every check the page runs before it passes |
| `RegisterForm.EarliestFailureReported` | frontend/src/pages/RegisterPage.jsx:44-81 | a failing check with every earlier check passing is the one reported |
| `RegisterForm.EarlierChecksPass` | frontend/src/pages/RegisterPage.jsx:44-81 | every check ranked before the reported one passes |
| `RegisterForm.AcceptedIffAllPass` | frontend/src/pages/RegisterPage.jsx:44-81 | the form is accepted iff the name is not blank, the email passes its three checks, the password has at least 6 UTF-16 units and equals the confirmation |
| `RegisterForm.BlankNameReportedFirst` | frontend/src/pages/RegisterPage.jsx:45-48 | a name that trims to nothing is reported before any other check |
| `RegisterForm.SubmittedPayload` | frontend/src/pages/RegisterPage.jsx:94-100 | the request carries the typed email, password and name as strings and never the confirmation |
| `RegisterForm.RegisterPage.constructor` | frontend/src/pages/RegisterPage.jsx:7-17 | every input starts empty with no error |
| `RegisterForm.RegisterPage.HandleChange` | frontend/src/pages/RegisterPage.jsx:35-42 | the named input changes and a pending error is cleared |
| `RegisterForm.RegisterPage.ValidateForm` | frontend/src/pages/RegisterPage.jsx:44-81 | returns true iff no check fails; otherwise the first failure's exact message becomes the error |
| `RegisterForm.RegisterPage.HandleSubmit` | frontend/src/pages/RegisterPage.jsx:83-100 | the payload is sent iff validation passes; otherwise the first failure's message is shown |
| `RegisterForm.RegisterPage.SettleSubmit` | frontend/src/pages/RegisterPage.jsx:102-113 | the register call's answer: success raises the success banner; a refusal shows the server's message; a thrown call shows the generic message; the form is kept |
| `Auth.LocalPart` | backend/app/routes/auth.py:16 | the text before the first `@`, holding no `@` |
| `Auth.DomainPart` | backend/app/routes/auth.py:16 | the text after the first `@`; local part, `@` and domain give back the address |
| `Auth.IsValidUniversityEmailAsWritten` | backend/app/routes/auth.py:9-25 | the rule as written: an `@`, a university domain after the first one, and a local part of 6 to 10 digits optionally followed by one newline (the as-written half of the auth.py:22 finding) |
| `Auth.IsValidUniversityEmail` | backend/app/routes/auth.py:9-25 | the rule as intended: an `@`, a university domain after the first one, and a local part of 6 to 10 digits and nothing else (the corrected half of the auth.py:22 finding) |
| `Auth.ValidEmailShape` | backend/app/routes/auth.py:9-25 | an address is valid iff it is a 6-10 digit student number, one `@` and exactly one of the two university domains |
| `Auth.SplitAtFirstAt` | backend/app/routes/auth.py:16 | splitting `local@domain` with an `@`-free local part gives back both parts |
| `Auth.TrailingNewlineAccepted` | backend/app/routes/auth.py:22 | the pattern as written accepts a student number followed by a newline, which the intended rule refuses |
| `Auth.AsWrittenDiffersOnlyByNewline` | backend/app/routes/auth.py:21-23 | the rule as written and the intended rule differ only on a local part ending in one newline |
| `Auth.UniversityOf` | backend/app/routes/auth.py:82 | the derived university is always `'wits'` or `'uj'` |
| `Auth.UniversityFollowsDomain` | backend/app/routes/auth.py:81-82 | for an address the rule as written accepts, newline or not, the university is `'wits'` exactly for the Wits domain |
| `Auth.FindByEmail` | backend/app/routes/auth.py:39 | finds a stored user with exactly this address, or reports that none has it |
| `Auth.RegisterSpec` | backend/app/routes/auth.py:59-104 | `register` in order: a null body 500; a falsy email, password or name 400; a non-string email 500; the email rule as written 400; a known address 400; a non-string password 500; otherwise the new row, verified and not admin, with the normalised address and its university |
| `Auth.RegisterMissingFirst` | backend/app/routes/auth.py:68-69 | a missing or falsy email, password or name is refused with 400 before anything else |
| `Auth.RegisterStringFields` | backend/app/routes/auth.py:68-79 | with non-empty string fields the only refusals are the email rule and a duplicate address, and an address the rule as written accepts leaves only the duplicate check |
| `Auth.RegisterCreates` | backend/app/routes/auth.py:71-92 | a created account holds the stripped lower-cased unused address the rule as written accepts (one the intended rule refuses has a student number followed by a newline), is verified and not an admin, and its university follows its domain |
| `Auth.RegisterRefusesDuplicate` | backend/app/routes/auth.py:78-79 | an address already on file that passes the rule as written, however it was cased or padded, is refused |
| `Auth.IntendedRegisterSpec` | backend/app/routes/auth.py:59-104 | `register` with the intended email rule (the corrected half of the auth.py:22 finding at the route): a created account's address is valid, and any address the intended rule refuses is answered 400 |
| `Auth.RegistersDiffer` | backend/app/routes/auth.py:21-23 | the registration as written and as intended answer differently exactly on a request whose address has a student number followed by a newline |
| `Auth.LoginSpec` | backend/app/routes/auth.py:28-57 | `login` in order: an empty body or falsy fields 400; a non-string email 500; an unknown normalised address 401; a non-string password 500; the stored password logs the user in, any other 401 |
| `Auth.LoginSucceedsOnlyWithCredentials` | backend/app/routes/auth.py:35-52 | login succeeds iff the normalised address belongs to a stored user and the password matches |
| `Auth.RegisterThenLogin` | backend/app/routes/auth.py:71-93 | registering as written (newline address included) and then logging in with the same address and password signs in as the new account |
| `Auth.LoginWith` | backend/app/routes/auth.py:35-41 | a stored user's address and password log that user in |
| `Auth.LoginFound` | backend/app/routes/auth.py:35-41 | a non-empty body with truthy string address and password that match a stored row logs that row's user in |
| `Auth.UserTable.Register` | backend/app/routes/auth.py:58-102 | status, message and new table follow the ordered checks, with the email rule as written; only a request passing all of them appends a row, and addresses stay unique |
| `Auth.UserTable.RegisterAddress` | backend/app/routes/auth.py:71-98 | past the field checks: the email rule as written, then the duplicate check, then the insert, each answering as the registration rules say |
| `Auth.UserTable.AddUser` | backend/app/routes/auth.py:95-96 | the new row goes at the end under the next id, which moves on, and addresses stay unique |
| `Auth.AppendKeepsWellFormed` | backend/app/routes/auth.py:78-96 | appending a user with an unused address under the next id keeps addresses unique and ids below the next one |
| `Auth.UserTable.Login` | backend/app/routes/auth.py:28-56 | the answer of the login rules; a signed-in user is a stored one; the table is not changed |
| `EmailAgreement.RouteValidPassesPage` | frontend/src/pages/RegisterPage.jsx:50-68 | every address the intended email rule accepts after normalising also passes the page's email checks |
| `EmailAgreement.RouteAcceptedPassesPage` | frontend/src/pages/RegisterPage.jsx:50-68 | of the addresses the route's rule as written accepts, the page refuses only those whose student number is followed by a newline |
| `EmailAgreement.PageValidSingleAtIsRouteValid` | frontend/src/pages/RegisterPage.jsx:55-68 | for a normalised address with a single `@`, the page's checks and the route's rule agree |
| `EmailAgreement.TwoAtSignsDiverge` | frontend/src/pages/RegisterPage.jsx:58-64 | an address with two `@`s passes the page and is refused by the route |
| `EmailAgreement.NewlineRefusedByPage` | frontend/src/pages/RegisterPage.jsx:65 | the page refuses the newline-terminated student number that the route's pattern accepts |
| `EmailAgreement.AcceptedFormPassesRouteChecks` | frontend/src/pages/RegisterPage.jsx:94-100 | a form the page accepts always gets past the route's missing-field checks, and a single-`@` address past its email rule as written too |
| `ReviewForm.WithRating` | frontend/src/pages/CreateReviewPage.js:55-60 | clicking a star sets that rating only |
| `ReviewForm.ApplyInput` | frontend/src/pages/CreateReviewPage.js:62-68 | a checkbox writes its checked state, a text area its value, into the named field only |
| `ReviewForm.FirstError` | frontend/src/pages/CreateReviewPage.js:70-84 | `validateForm`'s three checks in page order: overall rating, 50 trimmed UTF-16 units, a recommendation |
| `ReviewForm.FirstErrorOrder` | frontend/src/pages/CreateReviewPage.js:70-84 | accepted iff the overall rating is given, the trimmed text has 50 UTF-16 units and a recommendation is chosen; each error only when the earlier checks pass |
| `ReviewForm.Subject` | frontend/src/pages/CreateReviewPage.js:97 | "Review for " and the property name when there is a name, else "Property Review" |
| `ReviewForm.SubmitData` | frontend/src/pages/CreateReviewPage.js:95-98 | the submitted data is the form with only the subject replaced, and it validates the same way |
| `ReviewForm.ToPayload` | frontend/src/pages/CreateReviewPage.js:109 | the JSON body carries every rating, the texts, the recommendation (or null), anonymity and subject under the route's keys |
| `ReviewForm.LitStarsArePrefix` | frontend/src/pages/CreateReviewPage.js:132-141 | the lit stars of a row are exactly the first `rating` of the five |
| `ReviewForm.CreateReviewPage.constructor` | frontend/src/pages/CreateReviewPage.js:14-32 | every rating 0, empty texts, no recommendation, not anonymous, no error |
| `ReviewForm.CreateReviewPage.HandleRatingChange` | frontend/src/pages/CreateReviewPage.js:55-60 | the form becomes `WithRating` of the old one; flags unchanged |
| `ReviewForm.CreateReviewPage.HandleInputChange` | frontend/src/pages/CreateReviewPage.js:62-68 | the form becomes `ApplyInput` of the old one; flags unchanged |
| `ReviewForm.CreateReviewPage.ChooseRecommend` | frontend/src/pages/CreateReviewPage.js:336-358 | choosing a recommendation sets it and nothing else |
| `ReviewForm.CreateReviewPage.ValidateForm` | frontend/src/pages/CreateReviewPage.js:70-84 | returns true iff no check fails; otherwise the first failure's exact message becomes the error |
| `ReviewForm.FailedCheck` | frontend/src/pages/CreateReviewPage.js:70-84 | the three checks run in page order and the first failure, if any, is the one `FirstError` names |
| `ReviewForm.CreateReviewPage.HandleSubmit` | frontend/src/pages/CreateReviewPage.js:86-109 | the form is sent iff validation passes, as the form with only the subject added (posted as its `ToPayload`); otherwise the first failure's message is shown |
| `ReviewForm.CreateReviewPage.SettleSubmit` | frontend/src/pages/CreateReviewPage.js:109-122 | success, or "Backend error: " and the answer; `submitting` comes down either way |
| `Records.PyInt` | backend/app/routes/reviews.py:224 | Python's `int()` on a JSON value: integers convert to themselves, null and lists raise |
| `ReviewApi.CheckFields` | backend/app/routes/reviews.py:224-231 | a refusal when a check fails; on passing, the rating converts to at least 1, the stripped text has 50 characters and `recommend` is not null |
| `ReviewApi.CheckFieldsPassIff` | backend/app/routes/reviews.py:224-231 | the field checks pass iff rating ≥ 1 (no upper bound), stripped text ≥ 50 and `recommend` is present and not null |
| `ReviewApi.OptionalRating` | backend/app/routes/reviews.py:238-243 | a missing or 0 sub-rating is stored as `None`, any other converts with `int()` |
| `ReviewApi.OptionalText` | backend/app/routes/reviews.py:245-246 | pros and cons are stored stripped, a blank one as `None` |
| `ReviewApi.BuildReview` | backend/app/routes/reviews.py:234-249 | the inserted row: ids, converted rating, stripped text, boolean recommend and anonymity, no empty pros or cons |
| `ReviewApi.CreateReviewSpec` | backend/app/routes/reviews.py:198-274 | a missing or empty body is refused 400 with "No data provided"; past it, a missing property 500; past the duplicate check, a failing field check answers with that check's refusal; every refusal is 400 or 500; a stored review belongs to an existing property, is the first by this user there, rates at least 1 and has 50 characters |
| `ReviewApi.HasReviewed` | backend/app/routes/reviews.py:215-221 | the duplicate check: some stored review has this user and this property |
| `ReviewApi.DuplicateRefusedFirst` | backend/app/routes/reviews.py:214-221 | a second review by the same user of the same property is refused before any field check |
| `ReviewApi.StoredThenDuplicate` | backend/app/routes/reviews.py:214-252 | once a review is stored any later attempt by that user on that property is refused |
| `ReviewApi.ZeroRatingsStoredAsNone` | backend/app/routes/reviews.py:238 | a sub-rating sent as 0 is stored as `None` |
| `ReviewApi.Bumped` | backend/app/routes/reviews.py:281 | the helpful count goes up by exactly one, a missing count counting as 0; nothing else changes |
| `ReviewApi.BumpHelpful` | backend/app/routes/reviews.py:280-282 | only the row with the id is bumped; every other row is unchanged |
| `ReviewApi.AuthorViewAsWritten` | backend/app/routes/reviews.py:87-95 | the author block as written: a named author's name, university and year; for an anonymous review "Anonymous", no year, and the university when it is set (the as-written half of the reviews.py:94 finding) |
| `ReviewApi.AuthorView` | backend/app/routes/reviews.py:87-95 | the intended author block, the corrected half of the reviews.py:94 finding (the route as written builds `AuthorViewAsWritten`): an anonymous review shows only "Anonymous" with no university or year; otherwise the author's name, university and year |
| `ReviewApi.AnonymousUniversityExposed` | backend/app/routes/reviews.py:94 | the listing as written still shows an anonymous author's university |
| `ReviewApi.AuthorViewsAgreeElsewhere` | backend/app/routes/reviews.py:87-95 | the written and the corrected author block differ only in that university |
| `ReviewApi.Listed` | backend/app/routes/reviews.py:28-45 | the listing's `WHERE` clause: an approved property, the university filter unless absent, empty or `'all'`, the minimum rating unless absent or 0, and the search in the property name or the review text |
| `ReviewApi.Joined` | backend/app/routes/reviews.py:22-45 | every listed row joins a review to its own approved property and author and passes the filters |
| `ReviewApi.JoinedIff` | backend/app/routes/reviews.py:22-45 | a row is listed if and only if its review is in the table, its property and author are the ones found by id, and it passes the filters |
| `ReviewApi.JoinedAppend` | backend/app/routes/reviews.py:22-45 | the listing follows table order: two stretches of the table are listed one after the other |
| `ReviewApi.FormatEntry` | backend/app/routes/reviews.py:62-95 | an entry carries its review, the helpful count with `None` as 0 and the property name; a named author shows name, university and year; an anonymous one shows "Anonymous" and no year, but keeps the university whenever the author has one |
| `ReviewApi.FormatReviews` | backend/app/routes/reviews.py:58-97 | one entry per joined row, in order, each the entry as written; every anonymous entry shows "Anonymous" and no year |
| `ReviewApi.IntendedEntry` | backend/app/routes/reviews.py:87-95 | the corrected half of the reviews.py:94 finding for one entry: the written entry with `AuthorView`, so an anonymous entry carries no name, university or year; a named entry is unchanged |
| `ReviewApi.IntendedListing` | backend/app/routes/reviews.py:58-97 | the corrected listing: one entry per row; no anonymous entry identifies its author; named entries are the entries as written |
| `ReviewApi.ListingsDiffer` | backend/app/routes/reviews.py:94 | the written and the intended listing differ exactly at anonymous reviews whose author has a university |
| `ReviewApi.BumpAbsent` | backend/app/routes/reviews.py:280-282 | bumping an id no row has changes nothing |
| `ReviewApi.MarkHelpfulAddsOneVote` | backend/app/routes/reviews.py:313 | marking a review helpful raises its author's helpful votes by exactly one and nobody else's |
| `ReviewApi.Truncate` | backend/app/routes/reviews.py:324 | a text over 100 characters becomes its first 100 and "..."; a shorter one is kept |
| `ReviewApi.TruncateIdempotent` | backend/app/routes/reviews.py:324 | cutting an already cut text changes nothing |
| `ReviewApi.RecentOf` | backend/app/routes/reviews.py:318-327 | a recent entry carries the review's id, rating, cut text, helpful count and its property's name or 'Unknown Property' |
| `ReviewApi.LastN` | backend/app/routes/reviews.py:317 | the last three reviews, or all of fewer |
| `ReviewApi.SumHelpful` | backend/app/routes/reviews.py:313 | the sum of the helpful counts, a `None` count adding 0 |
| `ReviewApi.UserReviewStats` | backend/app/routes/reviews.py:295-336 | the count of the user's reviews, the sum of their helpful counts, and their last three reviews as recent entries |
| `ReviewApi.RecentEntries` | backend/app/routes/reviews.py:316-328 | one recent entry per review, in the order of the reviews |
| `ReviewApi.ReviewTable.CreateReview` | backend/app/routes/reviews.py:198-274 | answers as `CreateReviewSpec`; a stored review is appended under the next id with 201, a refusal changes nothing |
| `ReviewApi.AppendKeepsIds` | backend/app/routes/reviews.py:251-252 | a review stored under the next identifier keeps identifiers unique and below the new bound |
| `ReviewApi.ReviewTable.MarkHelpful` | backend/app/routes/reviews.py:278-291 | a missing review answers 500; otherwise 200, the count plus one, and only that row changes |
| `ReviewApi.BumpKeepsIds` | backend/app/routes/reviews.py:281-282 | bumping a helpful count keeps review ids unique and below the next id |
| `ReviewAgreement.PayloadFields` | frontend/src/pages/CreateReviewPage.js:95-109 | the page's body carries the form's values under the keys the route reads |
| `ReviewAgreement.PayloadConverts` | backend/app/routes/reviews.py:238-246 | every optional value the page sends converts on the route without raising |
| `ReviewAgreement.AcceptedPassesChecks` | backend/app/routes/reviews.py:224-231 | a review the page accepts, with an overall rating of at least 1 and BMP-only text, passes the route's field checks |
| `ReviewAgreement.AcceptedBuilds` | backend/app/routes/reviews.py:234-249 | with a recommendation chosen, the route builds a row from the page's body, carrying the form's overall rating, stripped review text, recommendation and anonymity |
| `ReviewAgreement.AcceptedReviewPassesRoute` | backend/app/routes/reviews.py:224-249 | a review the page accepts with an overall rating of at least 1 and BMP-only text passes the route's field checks and is stored with the form's values |
| `ReviewAgreement.AcceptedReviewStored` | backend/app/routes/reviews.py:207-252 | under the same conditions the route stores it unless the property is unknown or already reviewed by that user |
| `ReviewAgreement.EmojiTextDiverges` | frontend/src/pages/CreateReviewPage.js:75 | 25 emoji count 50 on the page and 25 on the route: the page accepts what the route refuses |
| `ReviewsPage.ApplyFilterChange` | frontend/src/pages/ReviewsPage.jsx:113-119 | the key takes its value and the page is forced to 1, also when the key is `page` |
| `ReviewsPage.PageStaysFirst` | frontend/src/pages/ReviewsPage.jsx:426-436 | whatever the user clicks, Previous and Next included, the page requested stays 1 |
| `ReviewsPage.NextDoesNotMove` | frontend/src/pages/ReviewsPage.jsx:436 | Next on page 1 of several leaves the filters exactly as they were |
| `ReviewsPage.QueryParams` | frontend/src/pages/ReviewsPage.jsx:39-44 | university and min_rating are sent only when not `'all'`, search only when non-empty, and page and `per_page=12` always, last |
| `ReviewsPage.DefaultQuery` | frontend/src/pages/ReviewsPage.jsx:9-14 | with the default filters only the page and the page size are sent |
| `ReviewsPage.RatingColor` | frontend/src/pages/ReviewsPage.jsx:121-125 | green iff the rating is at least 4, yellow iff 3 to below 4, red iff below 3 |
| `ReviewsPage.RatingColorMonotone` | frontend/src/pages/ReviewsPage.jsx:121-125 | a higher rating never gets a worse badge |
| `ReviewsPage.UniversityDisplay` | frontend/src/pages/ReviewsPage.jsx:135-136 | a missing or empty university shows as `''` |
| `ReviewsPage.UniversityDisplayIsUpper` | frontend/src/pages/ReviewsPage.jsx:135-140 | the badge is always the upper-cased name: the WITS and UJ cases agree with upper-casing |
| `Records.TruthinessDiffersOnEmptyList` | frontend/src/pages/ReviewsPage.jsx:199 | JavaScript's truthiness, used for the card's recommend-or-would-recommend test, differs from Python's exactly on the empty list |
| `ReviewsPage.RecommendationCount` | frontend/src/pages/ReviewsPage.jsx:199 | counts the cards with `recommend` or `would_recommend` set; never more than the number of cards |
| `ReviewsPage.RecommendationPartition` | frontend/src/pages/ReviewsPage.jsx:199 | recommending and not recommending cards together are all the cards |
| `ReviewsPage.WithHelpfulCount` | frontend/src/pages/ReviewsPage.jsx:175-181 | only the card with the id takes the new count |
| `ReviewsPage.HelpfulKeepsRecommendations` | frontend/src/pages/ReviewsPage.jsx:175-199 | updating a card's count leaves the recommendation count unchanged |
| `ReviewsPage.ReviewsView.constructor` | frontend/src/pages/ReviewsPage.jsx:6-30 | the default filters, the given cards and the marked set read from storage (it is never written back) |
| `ReviewsPage.ReviewsView.ReceiveReviews` | frontend/src/pages/ReviewsPage.jsx:33-85 | the cards become the fetched ones, or none when the request failed or the answer had neither known shape; filters and marks are kept |
| `ReviewsPage.ReviewsView.ReceiveHelpfulStatus` | frontend/src/pages/ReviewsPage.jsx:87-107 | with a token and at least one card, a successful answer replaces the marked set with the server's list; otherwise the set is kept |
| `ReviewsPage.ReviewsView.HandleFilterChange` | frontend/src/pages/ReviewsPage.jsx:113-119 | the filters become `ApplyFilterChange` of the old ones; cards and marked set unchanged |
| `ReviewsPage.ReviewsView.ClearFilters` | frontend/src/pages/ReviewsPage.jsx:412 | restores the default filters |
| `ReviewsPage.ReviewsView.RequestMarkHelpful` | frontend/src/pages/ReviewsPage.jsx:143-157 | a request is sent iff there is a token and the review is not marked yet; otherwise the right alert, and no state changes |
| `ReviewsPage.ReviewsView.SettleMarkHelpful` | frontend/src/pages/ReviewsPage.jsx:159-191 | on success only the target card's count changes and its id joins the marked set; on failure nothing changes and an alert is shown |
| `BursaryPage.WithFilter` | frontend/src/pages/BursaryPage.jsx:151-153 | the key takes the value and the other filters keep theirs |
| `BursaryPage.Matches` | frontend/src/pages/BursaryPage.jsx:186-193 | the `filteredBursaries` callback: four early rejections, then true |
| `BursaryPage.MatchesIff` | frontend/src/pages/BursaryPage.jsx:186-193 | shown iff category, university (`'all'` on either side), study level and a case-insensitive search in title or provider each pass |
| `BursaryPage.Filtered` | frontend/src/pages/BursaryPage.jsx:186-193 | exactly the matching bursaries |
| `BursaryPage.FilteredKeepsOrder` | frontend/src/pages/BursaryPage.jsx:186 | the shown bursaries are an order-preserving subsequence of the directory |
| `BursaryPage.DefaultsShowAll` | frontend/src/pages/BursaryPage.jsx:133-139 | with every filter at its default, which "Clear all filters" restores, the whole directory is shown |
| `BursaryPage.DeadlineIgnored` | frontend/src/pages/BursaryPage.jsx:186-193 | the deadline filter is never consulted |
| `BursaryPage.AllUniversitiesAlwaysPass` | frontend/src/pages/BursaryPage.jsx:188 | a bursary open to every university passes any university filter |
| `BursaryPage.StatusColor` | frontend/src/pages/BursaryPage.jsx:155-162 | green, yellow and red iff the lower-cased status is open, closing soon and closed; grey otherwise |
| `BursaryPage.StatusColorIgnoresCase` | frontend/src/pages/BursaryPage.jsx:156 | a status and its lower-case form get the same colour |
| `PropertyListing.Assign` | frontend/src/pages/PropertiesPage.jsx:37-39 | `{...prev, [key]: value}`: the key takes the value and nothing else changes |
| `PropertyListing.SentParams` | frontend/src/services/api.js:82 | the listing request sends the filter record under its own keys `minPrice` and `maxPrice` |
| `PropertyListing.ParseAmenities` | frontend/src/pages/PropertiesPage.jsx:61-67 | a missing or empty value and unparseable text give no amenities; otherwise the parsed list |
| `PropertyListing.AmenityChips` | frontend/src/pages/PropertiesPage.jsx:267-277 | at most the first three amenities as chips, and "+N more" with N = count − 3 iff there are more than three |
| `PropertyListing.AmenityChipsAccountForAll` | frontend/src/pages/PropertiesPage.js:216-226 | chips and badge account for every amenity, and the chips followed by the hidden ones give back the list |
| `PropertiesPage.ApplyChange` | frontend/src/pages/PropertiesPage.jsx:36-43 | the page key sets the page; any other key takes its value and resets the page to 1 |
| `PropertiesPage.StepsStayInRange` | frontend/src/pages/PropertiesPage.jsx:314-339 | Previous gives max(1, page − 1) and Next min(totalPages, page + 1); both stay in range and move only when they can |
| `PropertiesPage.PageButtons` | frontend/src/pages/PropertiesPage.jsx:309-336 | no buttons for one page; otherwise min(5, totalPages) buttons labelled 1..n |
| `PropertiesPage.NoButtonPastFive` | frontend/src/pages/PropertiesPage.jsx:321 | pages past the fifth have no button |
| `PropertiesPage.PropertiesView.constructor` | frontend/src/pages/PropertiesPage.jsx:9-17 | the default filters and one page |
| `PropertiesPage.PropertiesView.HandleFilterChange` | frontend/src/pages/PropertiesPage.jsx:36-43 | the filters become `ApplyChange` of the old ones |
| `PropertiesPage.PropertiesView.ClickPageButton` | frontend/src/pages/PropertiesPage.jsx:326 | clicking button i moves to page i + 1 and keeps every filter |
| `PropertiesPage.PropertiesView.ClickPrevious` | frontend/src/pages/PropertiesPage.jsx:314 | moves to the clamped previous page, filters kept |
| `PropertiesPage.PropertiesView.ClickNext` | frontend/src/pages/PropertiesPage.jsx:339 | moves to the clamped next page, filters kept |
| `PropertiesPage.PropertiesView.ClearFilters` | frontend/src/pages/PropertiesPage.jsx:362-369 | restores the default filters |
| `PropertiesPage.PropertiesView.ReceivePages` | frontend/src/pages/PropertiesPage.jsx:28 | a response sets the page count |
| `LegacyPropertiesPage.ApplyChange` | frontend/src/pages/PropertiesPage.js:36-42 | every change, the page key included, leaves the page at 1 |
| `LegacyPropertiesPage.PageButtons` | frontend/src/pages/PropertiesPage.js:261-276 | one button per page labelled 1..totalPages, none for a single page |
| `LegacyPropertiesPage.NeverLeavesFirstPage` | frontend/src/pages/PropertiesPage.js:36-42 | any sequence of changes from page 1 keeps the page at 1 |
| `LegacyPropertiesPage.LegacyPropertiesView.constructor` | frontend/src/pages/PropertiesPage.js:9-17 | the default filters and one page |
| `LegacyPropertiesPage.LegacyPropertiesView.HandleFilterChange` | frontend/src/pages/PropertiesPage.js:36-42 | the filters become `ApplyChange` of the old ones |
| `LegacyPropertiesPage.LegacyPropertiesView.ClickPageButton` | frontend/src/pages/PropertiesPage.js:267 | whichever numbered button is clicked, the page becomes 1 |
| `LegacyPropertiesPage.LegacyPropertiesView.ClearFilters` | frontend/src/pages/PropertiesPage.js:292-299 | restores the default filters |
| `LegacyPropertiesPage.LegacyPropertiesView.ReceivePages` | frontend/src/pages/PropertiesPage.js:23-33 | a response sets the page count and keeps the filters |
| `PropertySearch.Arg` | backend/properties.py:15-19 | a query argument is present iff its key was sent |
| `PropertySearch.IntArg` | backend/properties.py:17-18 | an absent integer argument reads as absent |
| `PropertySearch.StageApplied` | backend/properties.py:29-48 | applying a present filter to the earlier stages' result gives the next stage |
| `PropertySearch.StageSkipped` | backend/properties.py:29-48 | skipping an absent filter changes nothing |
| `PropertySearch.GetProperties` | backend/properties.py:10-48 | the result is exactly the properties passing every stage, in table order |
| `PropertySearch.Narrow` | backend/properties.py:29-48 | one stage: when its argument is present the query is narrowed by its condition, and either way the result is the properties passing stages 0 to k |
| `PropertySearch.Condition` | backend/properties.py:29-48 | the `WHERE` condition each stage adds: a `NULL` column fails its comparison, and a property marked `'both'` passes any university filter |
| `PropertySearch.Listed` | backend/properties.py:23-48 | a property passes the approval stage and every active stage |
| `PropertySearch.ListedIff` | backend/properties.py:24-48 | listed iff approved and, for each argument present and not disabled, its condition: university equal or `'both'`, exact type, price bounds, search in name or address ignoring case |
| `PropertySearch.OnlyApprovedListed` | backend/properties.py:24 | only approved properties are returned, in table order |
| `PropertySearch.JointUniversityMatchesNeither` | backend/add_sample_properties.py:134 | a property whose university is `'uj & wits'` matches neither university's filter |
| `PropertySearch.BothMatchesEither` | backend/properties.py:29-30 | a `'both'` property passes either university's filter |
| `PropertySearch.PagePricesIgnored` | backend/properties.py:17-18 | the page sends `minPrice`/`maxPrice`, which the route never reads: prices typed on the page filter nothing |
| `PropertySearch.GetProperty` | backend/properties.py:247-259 | found iff the property exists and is approved; a missing and an unapproved property get the same 404 |
| `PropertySearch.FoundIsListed` | backend/properties.py:247-255 | a property shown on its own is also in the unfiltered listing |
| `Admin.IsAdmin` | backend/app/routes/admin.py:10-22 | `admin_required`: the caller's user row exists and carries the admin flag |
| `Admin.AdminLoginSpec` | backend/app/routes/admin.py:25-46 | admin login signs in only an admin that ordinary login would sign in; any 401 says "Invalid admin credentials" |
| `Admin.AdminLoginIff` | backend/app/routes/admin.py:35-42 | admin login succeeds iff the user exists, the password checks out and the user is an admin |
| `Admin.StatusFilter` | backend/app/routes/admin.py:82-89 | `approved` keeps only approved, `pending` only unapproved properties, anything else keeps all |
| `Admin.StatusPartition` | backend/app/routes/admin.py:86-89 | approved and pending together are every property |
| `Admin.FirstMissing` | backend/app/routes/admin.py:116-119 | a named field is required and falsy in the body |
| `Admin.FirstMissingIsFirst` | backend/app/routes/admin.py:116-119 | nothing is named iff every field is truthy; a named field comes after only truthy ones |
| `Admin.FindMissingField` | backend/app/routes/admin.py:117-119 | the loop over the required fields stops at the first falsy one |
| `Admin.ZeroPriceRejected` | backend/app/routes/admin.py:116-119 | a price of 0 is reported as missing |
| `Admin.TextColumn` | backend/app/routes/admin.py:128-130 | a string is stored as given and null as `NULL` |
| `Admin.CreatePropertySpec` | backend/app/routes/admin.py:110-146 | created iff the body is non-empty, every required field is truthy and every value converts (`CreateConverts`); an empty body and a missing field answer 400 with their messages, a failed conversion 500; a created property has the next id, is approved, stores name, address, type and university as sent, description and contact as sent (default `''`), `json.dumps` of the amenities and both prices' `int()` |
| `Admin.ApplyUpdate` | backend/app/routes/admin.py:158-178 | every column whose key is absent keeps its value; every sent column takes its value: the text columns as sent, both prices their `int()`, amenities `json.dumps` of it, `approved` the truthiness of the sent value |
| `Admin.UpdateFailsIff` | backend/app/routes/admin.py:158-189 | an update fails, and the route answers 500, exactly when a sent value cannot be stored (`UpdateConverts`) |
| `Admin.EmptyUpdateChangesNothing` | backend/app/routes/admin.py:158-178 | a body naming no column leaves the property as it was |
| `Admin.ReplaceProperty` | backend/app/routes/admin.py:180 | only the row with the id is replaced |
| `Admin.Approved` | backend/app/routes/admin.py:218 | the approved flag is set and nothing else changes |
| `Admin.ApproveAll` | backend/app/routes/admin.py:217-218 | only the row with the id is approved |
| `Admin.ApproveIdempotent` | backend/app/routes/admin.py:217-218 | approving twice is approving once |
| `Admin.VerifyAll` | backend/app/routes/admin.py:258-259 | only the user with the id is verified |
| `Admin.VerifyIdempotent` | backend/app/routes/admin.py:258-259 | verifying twice is verifying once |
| `Admin.DeleteRemovesExactly` | backend/app/routes/admin.py:198-203 | after deleting a property exactly the reviews and images not carrying its id remain, in order |
| `Admin.FilterKeepsUniqueIds` | backend/app/routes/admin.py:203 | deleting rows keeps property ids unique |
| `Admin.AdminDb.ListProperties` | backend/app/routes/admin.py:76-100 | a non-admin gets 403 and nothing; an admin gets 200 and the status filter's result |
| `Admin.AdminDb.CreateProperty` | backend/app/routes/admin.py:106-146 | a non-admin gets 403; a created property is appended under the next id with 201; any refusal changes nothing |
| `Admin.AdminDb.UpdateProperty` | backend/app/routes/admin.py:148-190 | 403 for a non-admin; 500 for a missing property or failed conversion; 400 for an empty body; otherwise 200 and only that row is replaced by `ApplyUpdate` |
| `Admin.AdminDb.DeleteProperty` | backend/app/routes/admin.py:192-211 | 403 or 500 change nothing; otherwise the property and exactly its reviews and images are removed |
| `Admin.AdminDb.ApproveProperty` | backend/app/routes/admin.py:213-229 | 403 or 500 change nothing; otherwise only that property is approved |
| `Admin.AdminDb.VerifyUser` | backend/app/routes/admin.py:254-270 | 403 or 500 change nothing; otherwise only that user is verified |

## Left out

- Text is handled as ASCII only. This covers trimming, case folding, digits, and
  the `\d` of the regular expressions. Python's and JavaScript's Unicode
  whitespace, case mappings and digit classes are not modelled. The ASCII
  separators `\x1c`-`\x1f`, which Python's `strip` removes and JavaScript's
  `trim` keeps, are not treated as space either.
- UTF-16 length is modelled where the frontend uses `.length`. Python's `len`
  is the character count.
- Python's `int()` on strings with underscores is not modelled, and neither are
  floats or non-object JSON bodies. JSON values are null, booleans, integers,
  strings and lists.
- `Admin.CreatePropertySpec`: a non-string, non-null value for a text column is
  treated as a failure (500). The source would store it as whatever the
  database accepts. `Admin.ApplyUpdate` and `Admin.TextColumn` do the same.
- The `ilike` patterns are modelled as case-insensitive substring search. A `%`
  or `_` typed into a search box is treated as a literal character.
- Pagination and ordering are not modelled: `paginate`, `per_page`,
  `order_by(created_at)` and the page totals. Listings are modelled as filters
  in table order.
- `Auth.RegisterSpec`: `year_of_study` and `faculty` are stored as sent, even
  when they are not strings; the database's refusal of, for instance, a list
  there is not modelled.
- Password hashing is modelled as equality with the stored secret.
- JWT issuing and decoding is not modelled; the caller's id is a parameter.
- Network, timers and storage become parameters of the methods that receive
  their results:
  - the calls whose answers are received: the properties fetch
    (`PropertiesPage.PropertiesView.ReceivePages`,
    `LegacyPropertiesPage.LegacyPropertiesView.ReceivePages`), the reviews
    fetch and the helpful-status check (`ReviewsPage.ReviewsView.ReceiveReviews`,
    `ReceiveHelpfulStatus`), marking helpful (`SettleMarkHelpful`), the review
    post (`ReviewForm.CreateReviewPage.SettleSubmit`), the register call
    (`RegisterForm.RegisterPage.SettleSubmit`) and the wizard's catalog and
    submit (`ApplicationWizard.Wizard.LoadCatalog`, `SettleSubmit`);
  - the review page's property fetch, whose name reaches
    `ReviewForm.CreateReviewPage.HandleSubmit` as its `propertyName`
    parameter, and the bursary page's timed load of its sample list, which
    the bursary functions take as their directory argument;
  - the `setTimeout` delays and redirects;
  - `localStorage`;
  - the wizard's simulated 2-second submit;
  - the residence catalog fetch.
- The ReviewsPage per-card `helpfulLoading` flag is not modelled (it only
  disables a button).
- Loading flags, the reviews page's error line and its `totalPages` and
  `totalReviews` counters, and the register page's `loading` flag are not
  modelled; they only drive what is displayed.
- The properties listings' card data (`setProperties`) is not held by the
  page models; the listing itself is `PropertySearch.GetProperties`.
- Floating point is not modelled: average ratings, `toFixed`, `round`, and the
  wizard's progress percentage.
- These admin routes are not modelled:
  - the dashboard counts (admin.py:48-73);
  - the user and review listings (admin.py:232-252, 273-308);
  - `delete_review` (admin.py:310-323).
- `get_property_reviews` (reviews.py:118-194) repeats the author block of the
  general listing, including the anonymous author's university at
  reviews.py:172. It behaves as `ReviewApi.AuthorViewAsWritten` and is not
  modelled separately.
- `PropertyListing.ParseAmenities`: JSON text that parses to something other
  than a list is outside the model, because the parser parameter returns a
  list.
- The admin blueprint is never registered in `backend/app/__init__.py:35-41`.
  The admin routes are modelled as written, although the app as assembled does
  not serve them.
- `backend/app/__init__.py` imports `app.routes.properties`, which is not part of
  this model. `backend/properties.py` stands in for it.
- Rendering, styling and routing are not modelled: markup, icons, class names
  and navigation.
- `ApplicationWizard.Wizard.SettleSubmit`: the simulated submit never fails in
  the source. The model admits either outcome.

## Findings

| source | as written | input that shows it | evidently intended | confidence | as-written member | corrected member |
|---|---|---|---|---|---|---|
| backend/app/routes/auth.py:22 | `re.match(r'^\d{6,10}$', local_part)`: `$` also matches before a final newline | `"1234567\n@students.wits.ac.za"` is accepted (`Auth.TrailingNewlineAccepted`); at the route, `Auth.RegisterSpec` creates an account that `Auth.IntendedRegisterSpec` refuses (`Auth.RegistersDiffer`) | the local part is 6-10 digits and nothing else | not executed | `Auth.IsValidUniversityEmailAsWritten` | `Auth.IsValidUniversityEmail` |
| backend/app/routes/reviews.py:94 | an anonymous review's entry still carries `author_university` (repeated at reviews.py:172 in the per-property listing) | any anonymous review by a user whose university is set (`ReviewApi.AnonymousUniversityExposed`; over a whole listing, `ReviewApi.FormatReviews` against `ReviewApi.IntendedListing` in `ReviewApi.ListingsDiffer`) | an anonymous review reveals nothing about its author, as the "respecting anonymity" comment and the `None` year say | not executed | `ReviewApi.AuthorViewAsWritten` | `ReviewApi.AuthorView` |

=== FILE: admin.dfy ===
/** The admin routes: an admin-only gate, admin login, and the property and
    user management handlers that change the tables. In every handler a
    missing row raises a 404 inside the handler's `try`, which answers 500. */
module Admin {
  import opened Wrappers
  import opened Text
  import opened Records
  import opened Seqs
  import Auth

  const AdminAccessRequired := "Admin access required"
  const InvalidAdminCredentials := "Invalid admin credentials"
  const NoData := "No data provided"

  /** `admin_required`: the caller's user exists and is an admin. */
  predicate IsAdmin(users: seq<User>, actor: int) {
    FindUser(users, actor).Some? && FindUser(users, actor).value.isAdmin
  }

  // ---------------------------------------------------------------------
  // Admin login

  datatype AdminLoginResult = AdminLoggedIn(user: User) | AdminRejected(status: int, error: string)

  /** `admin_login`: the same steps as the ordinary login, with the admin
      flag required as well, and its own message for a 401. */
  function AdminLoginSpec(users: seq<User>, body: Option<Payload>): (r: AdminLoginResult)
    ensures r.AdminLoggedIn? ==> r.user.isAdmin && Auth.LoginSpec(users, body) == Auth.LoggedIn(r.user)
    ensures r.AdminRejected? && r.status == 401 ==> r.error == InvalidAdminCredentials
  {
    match Auth.LoginSpec(users, body)
    case LoggedIn(u) => if u.isAdmin then AdminLoggedIn(u) else AdminRejected(401, InvalidAdminCredentials)
    case LoginRejected(status, error) =>
      if status == 401 then AdminRejected(401, InvalidAdminCredentials) else AdminRejected(status, error)
  }

  /** Admin login succeeds exactly when the ordinary login would and the
      account is an admin. */
  lemma AdminLoginIff(users: seq<User>, body: Option<Payload>)
    ensures AdminLoginSpec(users, body).AdminLoggedIn? <==>
      Auth.LoginSpec(users, body).LoggedIn? && Auth.LoginSpec(users, body).user.isAdmin
  {
  }

  // ---------------------------------------------------------------------
  // Listing by status

  function ApprovedOnly(p: Property): bool { p.approved }

  function PendingOnly(p: Property): bool { !p.approved }

  /** The `status` argument of the admin property list. */
  function StatusFilter(properties: seq<Property>, status: string): (r: seq<Property>)
    ensures status == "approved" ==> forall i :: 0 <= i < |r| ==> r[i].approved
    ensures status == "pending" ==> forall i :: 0 <= i < |r| ==> !r[i].approved
    ensures status != "approved" && status != "pending" ==> r == properties
  {
    if status == "approved" then Filter(properties, ApprovedOnly)
    else if status == "pending" then Filter(properties, PendingOnly)
    else properties
  }

  /** Approved and pending together are every property. */
  lemma StatusPartition(properties: seq<Property>)
    ensures |StatusFilter(properties, "approved")| + |StatusFilter(properties, "pending")| == |StatusFilter(properties, "all")|
  {
    FilterSplit(properties, ApprovedOnly, PendingOnly);
  }

  // ---------------------------------------------------------------------
  // Creating a property

  const RequiredFields: seq<string> := ["name", "address", "property_type", "price_min", "price_max", "university"]

  /** The first field of `fields` whose value is missing or falsy. */
  function FirstMissing(data: Payload, fields: seq<string>): (r: Option<string>)
    ensures r.Some? ==> r.value in fields && !Truthy(Get(data, r.value))
  {
    if fields == [] then None
    else if !Truthy(Get(data, fields[0])) then Some(fields[0])
    else FirstMissing(data, fields[1..])
  }

  /** The named field is the first falsy one: every field before it is
      present and truthy, and none is missing when nothing is named. */
  lemma {:induction false} FirstMissingIsFirst(data: Payload, fields: seq<string>)
    ensures FirstMissing(data, fields).None? <==> forall i :: 0 <= i < |fields| ==> Truthy(Get(data, fields[i]))
    ensures FirstMissing(data, fields).Some? ==>
      exists k :: 0 <= k < |fields| && fields[k] == FirstMissing(data, fields).value
        && forall j :: 0 <= j < k ==> Truthy(Get(data, fields[j]))
    decreases |fields|
  {
    if fields != [] {
      FirstMissingIsFirst(data, fields[1..]);
      if Truthy(Get(data, fields[0])) && FirstMissing(data, fields).Some? {
        var k :| 0 <= k < |fields[1..]| && fields[1..][k] == FirstMissing(data, fields[1..]).value
          && forall j :: 0 <= j < k ==> Truthy(Get(data, fields[1..][j]));
        assert fields[k + 1] == FirstMissing(data, fields).value;
        assert forall j :: 0 <= j < k + 1 ==> Truthy(Get(data, fields[j])) by {
          forall j | 0 <= j < k + 1 ensures Truthy(Get(data, fields[j])) {
            if j > 0 {
              assert fields[j] == fields[1..][j - 1];
            }
          }
        }
      }
    }
  }

  /** The validation loop of `create_property`. */
  method FindMissingField(data: Payload) returns (missing: Option<string>)
    ensures missing == FirstMissing(data, RequiredFields)
  {
    var i := 0;
    while i < |RequiredFields|
      invariant 0 <= i <= |RequiredFields|
      invariant FirstMissing(data, RequiredFields) == FirstMissing(data, RequiredFields[i..])
    {
      var field := RequiredFields[i];
      assert RequiredFields[i..][1..] == RequiredFields[i + 1..];
      if !Truthy(Get(data, field)) {
        return Some(field);
      }
      i := i + 1;
    }
    return None;
  }

  /** A price of 0 counts as missing. */
  lemma ZeroPriceRejected(data: Payload)
    requires Truthy(Get(data, "name")) && Truthy(Get(data, "address")) && Truthy(Get(data, "property_type"))
    requires Get(data, "price_min") == JInt(0)
    ensures FirstMissing(data, RequiredFields) == Some("price_min")
  {
    var f := RequiredFields;
    assert FirstMissing(data, f) == FirstMissing(data, f[1..]);
    assert FirstMissing(data, f[1..]) == FirstMissing(data, f[2..]);
    assert FirstMissing(data, f[2..]) == FirstMissing(data, f[3..]);
  }

  /** A text column written from JSON: `null` stores `NULL`; the outer
      `None` is a value that is not text. */
  function TextColumn(v: Json): (r: Option<Option<string>>)
    ensures v.JStr? ==> r == Some(Some(v.s))
    ensures v.JNull? ==> r == Some(None)
  {
    match v
    case JStr(s) => Some(Some(s))
    case JNull => Some(None)
    case _ => None
  }

  datatype CreateResult = CreateRefused(status: int, error: string) | Created(property: Property)

  const CreateFailed := "Failed to create property"

  /** The constructor call of `create_property` goes through: the
      non-null text columns are strings, both prices convert with `int()`,
      and the optional text columns are strings or `null`. */
  predicate CreateConverts(data: Payload) {
    Get(data, "name").JStr? && Get(data, "address").JStr? && Get(data, "property_type").JStr?
    && Get(data, "university").JStr?
    && PyInt(Get(data, "price_min")).Some? && PyInt(Get(data, "price_max")).Some?
    && TextColumn(GetOr(data, "description", JStr(""))).Some?
    && TextColumn(GetOr(data, "contact_info", JStr(""))).Some?
  }

  /** `create_property` after the gate. `dumps` is `json.dumps`. */
  function CreatePropertySpec(id: int, body: Option<Payload>, dumps: Json -> string): (r: CreateResult)
    ensures r.Created? <==>
      body.Some? && body.value != map[] && FirstMissing(body.value, RequiredFields).None? && CreateConverts(body.value)
    ensures body.None? || body.value == map[] ==> r == CreateRefused(400, NoData)
    ensures body.Some? && body.value != map[] && FirstMissing(body.value, RequiredFields).Some? ==>
      r == CreateRefused(400, FirstMissing(body.value, RequiredFields).value + " is required")
    ensures r.CreateRefused? ==> r.status == 400 || r == CreateRefused(500, CreateFailed)
    ensures r.Created? ==> r.property.id == id && r.property.approved && !r.property.nsfasAccredited
    ensures r.Created? ==>
      Get(body.value, "name") == JStr(r.property.name) && Get(body.value, "address") == JStr(r.property.address)
      && Get(body.value, "property_type") == JStr(r.property.propertyType)
      && r.property.university.Some? && Get(body.value, "university") == JStr(r.property.university.value)
    ensures r.Created? ==>
      TextColumn(GetOr(body.value, "description", JStr(""))) == Some(r.property.description)
      && TextColumn(GetOr(body.value, "contact_info", JStr(""))) == Some(r.property.contactInfo)
    ensures r.Created? ==> r.property.amenities == Some(dumps(GetOr(body.value, "amenities", JList([]))))
    ensures r.Created? ==> r.property.priceMin == PyInt(Get(body.value, "price_min")) && r.property.priceMin.Some?
    ensures r.Created? ==> r.property.priceMax == PyInt(Get(body.value, "price_max")) && r.property.priceMax.Some?
  {
    if body.None? || body.value == map[] then CreateRefused(400, NoData)
    else
      var data := body.value;
      match FirstMissing(data, RequiredFields)
      case Some(field) => CreateRefused(400, field + " is required")
      case None =>
        if !CreateConverts(data) then CreateRefused(500, CreateFailed)
        else Created(Property(id, Get(data, "name").s, Get(data, "address").s, Get(data, "property_type").s,
          PyInt(Get(data, "price_min")), PyInt(Get(data, "price_max")),
          TextColumn(GetOr(data, "description", JStr(""))).value, Some(dumps(GetOr(data, "amenities", JList([])))),
          TextColumn(GetOr(data, "contact_info", JStr(""))).value,
          Some(Get(data, "university").s), true, false))
  }

  // ---------------------------------------------------------------------
  // Updating a property

  /** Every assignment `update_property` makes goes through: the non-null
      text columns get strings, the prices values `int()` converts, and
      the optional text columns strings or `null`. */
  predicate UpdateConverts(data: Payload) {
    ("name" in data ==> data["name"].JStr?) && ("address" in data ==> data["address"].JStr?)
    && ("property_type" in data ==> data["property_type"].JStr?)
    && ("price_min" in data ==> PyInt(data["price_min"]).Some?)
    && ("price_max" in data ==> PyInt(data["price_max"]).Some?)
    && ("description" in data ==> TextColumn(data["description"]).Some?)
    && ("contact_info" in data ==> TextColumn(data["contact_info"]).Some?)
    && ("university" in data ==> TextColumn(data["university"]).Some?)
  }

  /** `update_property`'s assignments: each key present in the payload
      sets its column, every other column keeps its value; `None` where a
      conversion raises. */
  function ApplyUpdate(p: Property, data: Payload, dumps: Json -> string): (r: Option<Property>)
    ensures r.Some? ==> r.value.id == p.id && r.value.nsfasAccredited == p.nsfasAccredited
    ensures r.Some? ==> ("name" !in data ==> r.value.name == p.name) && ("address" !in data ==> r.value.address == p.address)
    ensures r.Some? ==> ("property_type" !in data ==> r.value.propertyType == p.propertyType)
    ensures r.Some? ==> ("price_min" !in data ==> r.value.priceMin == p.priceMin) && ("price_max" !in data ==> r.value.priceMax == p.priceMax)
    ensures r.Some? ==> ("description" !in data ==> r.value.description == p.description)
    ensures r.Some? ==> ("amenities" !in data ==> r.value.amenities == p.amenities)
    ensures r.Some? ==> ("contact_info" !in data ==> r.value.contactInfo == p.contactInfo)
    ensures r.Some? ==> ("university" !in data ==> r.value.university == p.university)
    ensures r.Some? ==> ("approved" !in data ==> r.value.approved == p.approved)
    ensures r.Some? && "name" in data ==> data["name"] == JStr(r.value.name)
    ensures r.Some? && "address" in data ==> data["address"] == JStr(r.value.address)
    ensures r.Some? && "property_type" in data ==> data["property_type"] == JStr(r.value.propertyType)
    ensures r.Some? && "price_min" in data ==> r.value.priceMin == PyInt(data["price_min"])
    ensures r.Some? && "price_max" in data ==> r.value.priceMax == PyInt(data["price_max"])
    ensures r.Some? && "description" in data ==> TextColumn(data["description"]) == Some(r.value.description)
    ensures r.Some? && "amenities" in data ==> r.value.amenities == Some(dumps(data["amenities"]))
    ensures r.Some? && "contact_info" in data ==> TextColumn(data["contact_info"]) == Some(r.value.contactInfo)
    ensures r.Some? && "university" in data ==> TextColumn(data["university"]) == Some(r.value.university)
    ensures r.Some? && "approved" in data ==> r.value.approved == Truthy(data["approved"])
  {
    if !UpdateConverts(data) then None
    else Some(Property(p.id,
      if "name" in data then data["name"].s else p.name,
      if "address" in data then data["address"].s else p.address,
      if "property_type" in data then data["property_type"].s else p.propertyType,
      if "price_min" in data then PyInt(data["price_min"]) else p.priceMin,
      if "price_max" in data then PyInt(data["price_max"]) else p.priceMax,
      if "description" in data then TextColumn(data["description"]).value else p.description,
      if "amenities" in data then Some(dumps(data["amenities"])) else p.amenities,
      if "contact_info" in data then TextColumn(data["contact_info"]).value else p.contactInfo,
      if "university" in data then TextColumn(data["university"]).value else p.university,
      if "approved" in data then Truthy(data["approved"]) else p.approved,
      p.nsfasAccredited))
  }

  /** An update fails, answering 500 and leaving the row alone, exactly
      when one of the values it assigns cannot be stored. */
  lemma UpdateFailsIff(p: Property, data: Payload, dumps: Json -> string)
    ensures ApplyUpdate(p, data, dumps).None? <==> !UpdateConverts(data)
  {
  }

  /** An update that names no column leaves the property as it was. */
  lemma EmptyUpdateChangesNothing(p: Property, data: Payload, dumps: Json -> string)
    requires forall k :: k in data ==> k !in {"name", "address", "property_type", "price_min", "price_max",
      "description", "amenities", "contact_info", "university", "approved"}
    ensures ApplyUpdate(p, data, dumps) == Some(p)
  {
  }

  /** The table with every row carrying `id` replaced by `q`. */
  function ReplaceProperty(properties: seq<Property>, id: int, q: Property): (r: seq<Property>)
    ensures |r| == |properties|
    ensures forall i :: 0 <= i < |r| ==> r[i] == if properties[i].id == id then q else properties[i]
  {
    seq(|properties|, i requires 0 <= i < |properties| => if properties[i].id == id then q else properties[i])
  }

  // ---------------------------------------------------------------------
  // Approval, verification, deletion

  function Approved(p: Property): (q: Property)
    ensures q.approved && q.(approved := p.approved) == p
  {
    p.(approved := true)
  }

  /** `approve_property` on the table: the row with `id` is approved. */
  function ApproveAll(properties: seq<Property>, id: int): (r: seq<Property>)
    ensures |r| == |properties|
    ensures forall i :: 0 <= i < |r| ==> r[i] == if properties[i].id == id then Approved(properties[i]) else properties[i]
  {
    seq(|properties|, i requires 0 <= i < |properties| => if properties[i].id == id then Approved(properties[i]) else properties[i])
  }

  /** Approving twice is approving once. */
  lemma ApproveIdempotent(properties: seq<Property>, id: int)
    ensures ApproveAll(ApproveAll(properties, id), id) == ApproveAll(properties, id)
  {
  }

  /** `verify_user` on the table: the user with `id` is verified. */
  function VerifyAll(users: seq<User>, id: int): (r: seq<User>)
    ensures |r| == |users|
    ensures forall i :: 0 <= i < |r| ==> r[i] == if users[i].id == id then users[i].(verified := true) else users[i]
  {
    seq(|users|, i requires 0 <= i < |users| => if users[i].id == id then users[i].(verified := true) else users[i])
  }

  lemma VerifyIdempotent(users: seq<User>, id: int)
    ensures VerifyAll(VerifyAll(users, id), id) == VerifyAll(users, id)
  {
  }

  function PropertyNot(id: int): Property -> bool { (p: Property) => p.id != id }
  function ReviewNotOf(id: int): Review -> bool { (r: Review) => r.propertyId != id }
  function ImageNotOf(id: int): PropertyImage -> bool { (m: PropertyImage) => m.propertyId != id }

  /** After deleting property `id`: exactly the reviews and images that do
      not carry its id remain, in order. */
  lemma DeleteRemovesExactly(reviews: seq<Review>, images: seq<PropertyImage>, id: int)
    ensures forall r :: r in Filter(reviews, ReviewNotOf(id)) <==> r in reviews && r.propertyId != id
    ensures forall m :: m in Filter(images, ImageNotOf(id)) <==> m in images && m.propertyId != id
    ensures IsSubsequence(Filter(reviews, ReviewNotOf(id)), reviews)
  {
    FilterIsSubsequence(reviews, ReviewNotOf(id));
    forall r | r in reviews && r.propertyId != id ensures r in Filter(reviews, ReviewNotOf(id)) {
      var i :| 0 <= i < |reviews| && reviews[i] == r;
    }
    forall m | m in images && m.propertyId != id ensures m in Filter(images, ImageNotOf(id)) {
      var i :| 0 <= i < |images| && images[i] == m;
    }
    forall r | r in Filter(reviews, ReviewNotOf(id)) ensures r in reviews && r.propertyId != id {
      var i :| 0 <= i < |Filter(reviews, ReviewNotOf(id))| && Filter(reviews, ReviewNotOf(id))[i] == r;
    }
    forall m | m in Filter(images, ImageNotOf(id)) ensures m in images && m.propertyId != id {
      var i :| 0 <= i < |Filter(images, ImageNotOf(id))| && Filter(images, ImageNotOf(id))[i] == m;
    }
  }

  predicate UniquePropertyIds(properties: seq<Property>) {
    forall i, j :: 0 <= i < j < |properties| ==> properties[i].id != properties[j].id
  }

  /** Deleting rows keeps the ids unique. */
  lemma {:induction false} FilterKeepsUniqueIds(properties: seq<Property>, keep: Property -> bool)
    requires UniquePropertyIds(properties)
    ensures UniquePropertyIds(Filter(properties, keep))
    decreases |properties|
  {
    if properties != [] {
      var rest := properties[1..];
      FilterKeepsUniqueIds(rest, keep);
      var r := Filter(rest, keep);
      forall j | 0 <= j < |r| ensures r[j].id != properties[0].id {
        var k :| 0 <= k < |rest| && rest[k] == r[j];
        assert properties[k + 1] == r[j];
      }
    }
  }

  // ---------------------------------------------------------------------
  // The tables behind the admin routes

  class AdminDb {
    var users: seq<User>
    var properties: seq<Property>
    var reviews: seq<Review>
    var images: seq<PropertyImage>
    var nextPropertyId: int

    ghost predicate Valid()
      reads this
    {
      UniquePropertyIds(properties)
      && (forall i :: 0 <= i < |properties| ==> properties[i].id < nextPropertyId)
    }

    constructor (users: seq<User>)
      ensures Valid() && this.users == users && properties == [] && reviews == [] && images == []
    {
      this.users := users;
      properties, reviews, images := [], [], [];
      nextPropertyId := 1;
    }

    /** The admin property list, after the gate. */
    method ListProperties(actor: int, status: string) returns (code: int, listed: seq<Property>)
      ensures !IsAdmin(users, actor) ==> code == 403 && listed == []
      ensures IsAdmin(users, actor) ==> code == 200 && listed == StatusFilter(properties, status)
    {
      if !IsAdmin(users, actor) {
        return 403, [];
      }
      return 200, StatusFilter(properties, status);
    }

    /** `create_property`: behind the gate, a created property is appended
        under the next id; anything else leaves the tables alone. */
    method CreateProperty(actor: int, body: Option<Payload>, dumps: Json -> string) returns (code: int, error: string)
      requires Valid()
      modifies this
      ensures Valid() && users == old(users) && reviews == old(reviews) && images == old(images)
      ensures !IsAdmin(old(users), actor) ==>
        code == 403 && error == AdminAccessRequired && properties == old(properties) && nextPropertyId == old(nextPropertyId)
      ensures IsAdmin(old(users), actor) ==>
        var r := CreatePropertySpec(old(nextPropertyId), body, dumps);
        (r.Created? ==> code == 201 && properties == old(properties) + [r.property] && nextPropertyId == old(nextPropertyId) + 1)
        && (r.CreateRefused? ==> code == r.status && error == r.error && properties == old(properties) && nextPropertyId == old(nextPropertyId))
    {
      if !IsAdmin(users, actor) {
        return 403, AdminAccessRequired;
      }
      if body.Some? && body.value != map[] {
        var missing := FindMissingField(body.value);
        if missing.Some? {
          return 400, missing.value + " is required";
        }
      }
      var r := CreatePropertySpec(nextPropertyId, body, dumps);
      if r.Created? {
        properties := properties + [r.property];
        nextPropertyId := nextPropertyId + 1;
        code, error := 201, "";
      } else {
        code, error := r.status, r.error;
      }
    }

    /** `update_property`: behind the gate; a missing property or a failed
        conversion answers 500 and changes nothing, an empty body 400. */
    method UpdateProperty(actor: int, id: int, body: Option<Payload>, dumps: Json -> string) returns (code: int)
      requires Valid()
      modifies this
      ensures Valid() && users == old(users) && reviews == old(reviews) && images == old(images)
      ensures nextPropertyId == old(nextPropertyId)
      ensures !IsAdmin(old(users), actor) ==> code == 403 && properties == old(properties)
      ensures IsAdmin(old(users), actor) && FindProperty(old(properties), id).None? ==> code == 500 && properties == old(properties)
      ensures IsAdmin(old(users), actor) && FindProperty(old(properties), id).Some? && (body.None? || body.value == map[]) ==>
        code == 400 && properties == old(properties)
      ensures IsAdmin(old(users), actor) && FindProperty(old(properties), id).Some? && body.Some? && body.value != map[] ==>
        var r := ApplyUpdate(FindProperty(old(properties), id).value, body.value, dumps);
        (r.None? ==> code == 500 && properties == old(properties))
        && (r.Some? ==> code == 200 && properties == ReplaceProperty(old(properties), id, r.value))
    {
      if !IsAdmin(users, actor) {
        return 403;
      }
      var found := FindProperty(properties, id);
      if found.None? {
        return 500;
      }
      if body.None? || body.value == map[] {
        return 400;
      }
      var updated := ApplyUpdate(found.value, body.value, dumps);
      if updated.None? {
        return 500;
      }
      properties := ReplaceProperty(properties, id, updated.value);
      code := 200;
    }

    /** `delete_property`: the property's reviews, then its images, then
        the property itself. */
    method DeleteProperty(actor: int, id: int) returns (code: int)
      requires Valid()
      modifies this
      ensures Valid() && users == old(users) && nextPropertyId == old(nextPropertyId)
      ensures !IsAdmin(old(users), actor) || FindProperty(old(properties), id).None? ==>
        code == (if IsAdmin(old(users), actor) then 500 else 403)
        && properties == old(properties) && reviews == old(reviews) && images == old(images)
      ensures IsAdmin(old(users), actor) && FindProperty(old(properties), id).Some? ==>
        code == 200 && properties == Filter(old(properties), PropertyNot(id))
        && reviews == Filter(old(reviews), ReviewNotOf(id)) && images == Filter(old(images), ImageNotOf(id))
    {
      if !IsAdmin(users, actor) {
        return 403;
      }
      if FindProperty(properties, id).None? {
        return 500;
      }
      FilterKeepsUniqueIds(properties, PropertyNot(id));
      reviews := Filter(reviews, ReviewNotOf(id));
      images := Filter(images, ImageNotOf(id));
      properties := Filter(properties, PropertyNot(id));
      code := 200;
    }

    method ApproveProperty(actor: int, id: int) returns (code: int)
      requires Valid()
      modifies this
      ensures Valid() && users == old(users) && reviews == old(reviews) && images == old(images)
      ensures nextPropertyId == old(nextPropertyId)
      ensures !IsAdmin(old(users), actor) ==> code == 403 && properties == old(properties)
      ensures IsAdmin(old(users), actor) && FindProperty(old(properties), id).None? ==> code == 500 && properties == old(properties)
      ensures IsAdmin(old(users), actor) && FindProperty(old(properties), id).Some? ==>
        code == 200 && properties == ApproveAll(old(properties), id)
    {
      if !IsAdmin(users, actor) {
        return 403;
      }
      if FindProperty(properties, id).None? {
        return 500;
      }
      properties := ApproveAll(properties, id);
      code := 200;
    }

    method VerifyUser(actor: int, userId: int) returns (code: int)
      requires Valid()
      modifies this
      ensures Valid() && properties == old(properties) && reviews == old(reviews) && images == old(images)
      ensures nextPropertyId == old(nextPropertyId)
      ensures !IsAdmin(old(users), actor) ==> code == 403 && users == old(users)
      ensures IsAdmin(old(users), actor) && FindUser(old(users), userId).None? ==> code == 500 && users == old(users)
      ensures IsAdmin(old(users), actor) && FindUser(old(users), userId).Some? ==>
        code == 200 && users == VerifyAll(old(users), userId)
    {
      if !IsAdmin(users, actor) {
        return 403;
      }
      if FindUser(users, userId).None? {
        return 500;
      }
      users := VerifyAll(users, userId);
      code := 200;
    }
  }
}

=== FILE: application_wizard.dfy ===
/** The seven-step accommodation-application wizard: a current step in 1..7,
    a form record with text fields, a capped list of preferred residences and
    seven document slots, driven one user action at a time. */
module ApplicationWizard {
  import opened Wrappers
  import opened Seqs

  /** The free-text inputs of the form, each initially the empty string. */
  datatype TextField =
    // personal information
    | FirstName | LastName | IdNumber | DateOfBirth | Gender | Nationality
    | PhoneNumber | Email | EmergencyContactName | EmergencyContactPhone
    | EmergencyContactRelation
    // academic information
    | University | StudentNumber | Faculty | YearOfStudy | DegreeProgram
    | ExpectedGraduation
    // financial information
    | FinancialAid | ParentGuardianIncome | BankName | AccountNumber
    // accommodation preferences
    | RoomType | SpecialRequirements | DietaryRequirements
    // parent or guardian
    | ParentGuardianName | ParentGuardianIdNumber | ParentGuardianPhone
    | ParentGuardianEmail | ParentGuardianAddress

  /** The seven upload slots, each initially empty. */
  datatype DocumentKind =
    | StudentCard | StudentId | ParentGuardianId | ProofOfRegistration
    | BankStatement | NsfasLetter | MedicalCertificate

  /** A file chosen in a file input; only its name is modelled. */
  datatype Upload = Upload(fileName: string)

  /** The form record. A text field absent from `text` holds "", a slot
      absent from `documents` holds nothing. */
  datatype FormData = FormData(
    text: map<TextField, string>,
    nsfasApplicant: bool,
    selectedResidences: seq<int>,
    documents: map<DocumentKind, Option<Upload>>)

  const InitialForm := FormData(map[], false, [], map[])

  function Text(f: FormData, field: TextField): string {
    if field in f.text then f.text[field] else ""
  }

  function Attached(f: FormData, kind: DocumentKind): Option<Upload> {
    if kind in f.documents then f.documents[kind] else None
  }

  /** JavaScript truthiness of a text field: only "" is falsy. */
  predicate Filled(f: FormData, field: TextField) {
    Text(f, field) != ""
  }

  predicate HasDocument(f: FormData, kind: DocumentKind) {
    Attached(f, kind).Some?
  }

  predicate Distinct(s: seq<int>) {
    forall i, j :: 0 <= i < j < |s| ==> s[i] != s[j]
  }

  const MaxResidences := 3
  const FirstStep := 1
  const LastStep := 7

  // ---------------------------------------------------------------------
  // Field updates

  /** One call of the generic input handler: a text input writes its value,
      the NSFAS checkbox writes its checked state. */
  datatype FieldUpdate =
    | SetText(field: TextField, value: string)
    | SetNsfasApplicant(checked: bool)

  /** The form after one input change: the named field holds the new value
      and everything else is as before. */
  function ApplyInput(f: FormData, u: FieldUpdate): (r: FormData)
    ensures u.SetText? ==> Text(r, u.field) == u.value
    ensures u.SetText? ==> forall g :: g != u.field ==> Text(r, g) == Text(f, g)
    ensures u.SetText? ==> r.nsfasApplicant == f.nsfasApplicant
    ensures u.SetNsfasApplicant? ==> r.nsfasApplicant == u.checked
    ensures u.SetNsfasApplicant? ==> forall g :: Text(r, g) == Text(f, g)
    ensures r.selectedResidences == f.selectedResidences
    ensures forall k :: Attached(r, k) == Attached(f, k)
  {
    match u
    case SetText(field, value) => f.(text := f.text[field := value])
    case SetNsfasApplicant(checked) => f.(nsfasApplicant := checked)
  }

  /** The form after a file input changes: one slot holds the chosen file
      (or nothing, when the dialog was dismissed) and every other slot and
      field is as before. */
  function AttachDocument(f: FormData, kind: DocumentKind, file: Option<Upload>): (r: FormData)
    ensures Attached(r, kind) == file
    ensures forall k :: k != kind ==> Attached(r, k) == Attached(f, k)
    ensures forall g :: Text(r, g) == Text(f, g)
    ensures r.nsfasApplicant == f.nsfasApplicant
    ensures r.selectedResidences == f.selectedResidences
  {
    f.(documents := f.documents[kind := file])
  }

  // ---------------------------------------------------------------------
  // Residence selection: a toggle with a cap of three

  function Differs(id: int): int -> bool {
    x => x != id
  }

  /** Clicking residence `id`: a selected residence is removed, an unselected
      one is appended while fewer than three are selected, and a fourth is
      silently ignored. */
  function Toggle(s: seq<int>, id: int): (r: seq<int>)
    ensures id in r <==> (id !in s && |s| < MaxResidences)
    ensures forall x :: x != id ==> (x in r <==> x in s)
  {
    if id in s then FilterKeepsMatches(s, Differs(id)); Filter(s, Differs(id))
    else if |s| < MaxResidences then s + [id]
    else s
  }

  /** The cap is never exceeded. */
  lemma ToggleBounded(s: seq<int>, id: int)
    requires |s| <= MaxResidences
    ensures |Toggle(s, id)| <= MaxResidences
  {
  }

  /** A fourth distinct residence leaves the selection as it was. */
  lemma ToggleFullIgnored(s: seq<int>, id: int)
    requires |s| >= MaxResidences && id !in s
    ensures Toggle(s, id) == s
  {
  }

  /** Toggling a selected residence removes exactly its position and keeps
      the order of the rest. */
  lemma ToggleRemovesAt(s: seq<int>, id: int, i: int)
    requires Distinct(s) && 0 <= i < |s| && s[i] == id
    ensures Toggle(s, id) == s[..i] + s[i+1..]
  {
    FilterRemovesOne(s, Differs(id), i);
  }

  /** Toggling an unselected residence while there is room appends it. */
  lemma ToggleAppends(s: seq<int>, id: int)
    requires id !in s && |s| < MaxResidences
    ensures Toggle(s, id) == s + [id]
  {
  }

  /** Removing one position keeps the rest distinct. */
  lemma RemoveAtKeepsDistinct(s: seq<int>, i: int)
    requires Distinct(s) && 0 <= i < |s|
    ensures Distinct(s[..i] + s[i+1..])
  {
    var r := s[..i] + s[i+1..];
    forall a, b | 0 <= a < b < |r|
      ensures r[a] != r[b]
    {
      var a', b' := if a < i then a else a + 1, if b < i then b else b + 1;
      assert r[a] == s[a'] && r[b] == s[b'] && a' < b';
    }
  }

  /** Appending a residence not yet selected keeps the selection distinct. */
  lemma AppendKeepsDistinct(s: seq<int>, id: int)
    requires Distinct(s) && id !in s
    ensures Distinct(s + [id])
  {
    var r := s + [id];
    forall a, b | 0 <= a < b < |r|
      ensures r[a] != r[b]
    {
      assert r[a] == s[a];
    }
  }

  /** The selection never holds the same residence twice. */
  lemma ToggleKeepsDistinct(s: seq<int>, id: int)
    requires Distinct(s)
    ensures Distinct(Toggle(s, id))
  {
    if id in s {
      var i :| 0 <= i < |s| && s[i] == id;
      ToggleRemovesAt(s, id, i);
      RemoveAtKeepsDistinct(s, i);
    } else if |s| < MaxResidences {
      ToggleAppends(s, id);
      AppendKeepsDistinct(s, id);
    }
  }

  /** Toggling the same residence twice undoes an append. */
  lemma ToggleTwiceRestores(s: seq<int>, id: int)
    requires id !in s && |s| < MaxResidences
    ensures Toggle(Toggle(s, id), id) == s
  {
    ToggleAppends(s, id);
    assert (s + [id])[|s|] == id;
    FilterRemovesOne(s + [id], Differs(id), |s|);
    assert (s + [id])[..|s|] == s;
  }

  /** Deselecting and reselecting moves a residence to the end of the list. */
  lemma ToggleTwiceMovesLast(s: seq<int>, id: int, i: int)
    requires Distinct(s) && |s| <= MaxResidences && 0 <= i < |s| && s[i] == id
    ensures Toggle(Toggle(s, id), id) == s[..i] + s[i+1..] + [id]
  {
    ToggleRemovesAt(s, id, i);
    var r := s[..i] + s[i+1..];
    assert id !in r by {
      forall k | 0 <= k < |r|
        ensures r[k] != id
      {
        if k < i { assert r[k] == s[k]; } else { assert r[k] == s[k + 1]; }
      }
    }
    ToggleAppends(r, id);
  }

  // ---------------------------------------------------------------------
  // Step gates

  /** Whether the "Next" button may leave `step`. Steps 1-6 each check
      their own fields; step 7 and every other value pass. Only emptiness
      is checked: a field holding just spaces passes. */
  predicate Gate(step: int, f: FormData) {
    match step
    case 1 => Filled(f, FirstName) && Filled(f, LastName) && Filled(f, IdNumber)
              && Filled(f, Email) && Filled(f, PhoneNumber)
    case 2 => Filled(f, University) && Filled(f, StudentNumber) && Filled(f, Faculty)
              && Filled(f, YearOfStudy)
    case 3 => Filled(f, FinancialAid) && (f.nsfasApplicant || Filled(f, ParentGuardianIncome))
    case 4 => |f.selectedResidences| > 0 && Filled(f, RoomType)
    case 5 => Filled(f, ParentGuardianName) && Filled(f, ParentGuardianIdNumber)
              && Filled(f, ParentGuardianPhone)
    case 6 => HasDocument(f, StudentCard) && HasDocument(f, StudentId)
              && HasDocument(f, ProofOfRegistration)
    case _ => true
  }

  /** The text fields that the personal, academic and guardian steps require. */
  function RequiredText(step: int): seq<TextField> {
    if step == 1 then [FirstName, LastName, IdNumber, Email, PhoneNumber]
    else if step == 2 then [University, StudentNumber, Faculty, YearOfStudy]
    else if step == 5 then [ParentGuardianName, ParentGuardianIdNumber, ParentGuardianPhone]
    else []
  }

  /** The documents the upload step checks. */
  const GatedDocuments: seq<DocumentKind> := [StudentCard, StudentId, ProofOfRegistration]

  /** The documents the upload step labels as required. */
  const LabelledRequired: seq<DocumentKind> := [StudentCard, StudentId, ParentGuardianId, ProofOfRegistration]

  /** Steps 1, 2 and 5 pass exactly when all their listed fields are non-empty. */
  lemma TextGates(step: int, f: FormData)
    requires step == 1 || step == 2 || step == 5
    ensures Gate(step, f) <==> forall i :: 0 <= i < |RequiredText(step)| ==> Filled(f, RequiredText(step)[i])
  {
    if step == 1 {
      PersonalGate(f);
    } else if step == 2 {
      AcademicGate(f);
    } else {
      GuardianGate(f);
    }
  }

  lemma PersonalGate(f: FormData)
    ensures Gate(1, f) <==> forall i :: 0 <= i < |RequiredText(1)| ==> Filled(f, RequiredText(1)[i])
  {
    var req := RequiredText(1);
    assert req[0] == FirstName && req[1] == LastName && req[2] == IdNumber && req[3] == Email && req[4] == PhoneNumber;
  }

  lemma AcademicGate(f: FormData)
    ensures Gate(2, f) <==> forall i :: 0 <= i < |RequiredText(2)| ==> Filled(f, RequiredText(2)[i])
  {
    var req := RequiredText(2);
    assert req[0] == University && req[1] == StudentNumber && req[2] == Faculty && req[3] == YearOfStudy;
  }

  lemma GuardianGate(f: FormData)
    ensures Gate(5, f) <==> forall i :: 0 <= i < |RequiredText(5)| ==> Filled(f, RequiredText(5)[i])
  {
    var req := RequiredText(5);
    assert req[0] == ParentGuardianName && req[1] == ParentGuardianIdNumber && req[2] == ParentGuardianPhone;
  }

  /** The financial step: the aid field is always needed, and an income
      figure only when the NSFAS box is unchecked. */
  lemma FinancialGate(f: FormData)
    ensures f.nsfasApplicant ==> (Gate(3, f) <==> Filled(f, FinancialAid))
    ensures !f.nsfasApplicant ==> (Gate(3, f) <==> Filled(f, FinancialAid) && Filled(f, ParentGuardianIncome))
  {
  }

  /** The accommodation step needs a residence and a room type. */
  lemma AccommodationGate(f: FormData)
    ensures Gate(4, f) <==> f.selectedResidences != [] && Filled(f, RoomType)
  {
  }

  /** The upload step passes exactly when the three gated slots are filled. */
  lemma DocumentGate(f: FormData)
    ensures Gate(6, f) <==> forall i :: 0 <= i < |GatedDocuments| ==> HasDocument(f, GatedDocuments[i])
  {
    assert GatedDocuments[0] == StudentCard && GatedDocuments[1] == StudentId && GatedDocuments[2] == ProofOfRegistration;
  }

  /** The guardian-ID and NSFAS-letter slots never affect the upload gate,
      even though the guardian ID is labelled as required and the letter is
      offered to NSFAS applicants. */
  lemma DocumentGateIgnoresGuardianAndNsfas(f: FormData, guardian: Option<Upload>, letter: Option<Upload>)
    ensures Gate(6, AttachDocument(AttachDocument(f, ParentGuardianId, guardian), NsfasLetter, letter)) == Gate(6, f)
  {
  }

  /** A form can pass the upload step with a slot labelled required still empty. */
  lemma LabelledRequiredNotEnforced()
    ensures ParentGuardianId in LabelledRequired && ParentGuardianId !in GatedDocuments
    ensures exists f :: Gate(6, f) && !HasDocument(f, ParentGuardianId)
  {
    var u := Some(Upload("card.pdf"));
    var f := AttachDocument(AttachDocument(AttachDocument(InitialForm, StudentCard, u), StudentId, u), ProofOfRegistration, u);
    assert Gate(6, f) && !HasDocument(f, ParentGuardianId);
  }

  /** The review step, and any step number outside 1..6, always passes: no
      terms acknowledgement is checked. */
  lemma ReviewStepOpen(step: int, f: FormData)
    requires !(1 <= step <= 6)
    ensures Gate(step, f)
  {
  }

  /** Only emptiness is checked: a step-1 form of single spaces passes. */
  lemma BlankTextPasses()
    ensures Gate(1, FormData(map[FirstName := " ", LastName := " ", IdNumber := " ", Email := " ", PhoneNumber := " "], false, [], map[]))
  {
  }

  // ---------------------------------------------------------------------
  // Navigation

  /** "Next": one step forward, at most to the last, iff the gate holds. */
  function NextStepOf(step: int, f: FormData): (r: int)
    ensures r != step ==> Gate(step, f)
    ensures Gate(step, f) && step < LastStep ==> r == step + 1
    ensures FirstStep <= step <= LastStep ==> step <= r <= LastStep
  {
    if Gate(step, f) then (if step + 1 < LastStep then step + 1 else LastStep) else step
  }

  /** "Previous": one step back, at least to the first, with no check. */
  function PrevStepOf(step: int): (r: int)
    ensures step > FirstStep ==> r == step - 1
    ensures step <= FirstStep ==> r == FirstStep
  {
    if step - 1 > FirstStep then step - 1 else FirstStep
  }

  datatype Move = Next | Prev

  /** The step reached from `step` after pressing the buttons in `moves`. */
  function Navigate(step: int, f: FormData, moves: seq<Move>): (r: int)
    requires FirstStep <= step <= LastStep
    ensures FirstStep <= r <= LastStep
    decreases |moves|
  {
    if moves == [] then step
    else if moves[0] == Next then Navigate(NextStepOf(step, f), f, moves[1..])
    else Navigate(PrevStepOf(step), f, moves[1..])
  }

  /** The first step whose gate fails, or the last step when none fails. */
  function Frontier(f: FormData): (r: int)
    ensures FirstStep <= r <= LastStep
    ensures forall k :: FirstStep <= k < r ==> Gate(k, f)
    ensures r < LastStep ==> !Gate(r, f)
  {
    FrontierFrom(FirstStep, f)
  }

  function FrontierFrom(k: int, f: FormData): (r: int)
    requires FirstStep <= k <= LastStep
    requires forall j :: FirstStep <= j < k ==> Gate(j, f)
    ensures k <= r <= LastStep
    ensures forall j :: FirstStep <= j < r ==> Gate(j, f)
    ensures r < LastStep ==> !Gate(r, f)
    decreases LastStep - k
  {
    if k == LastStep || !Gate(k, f) then k else FrontierFrom(k + 1, f)
  }

  /** Neither button carries the user past the first failing gate. */
  lemma {:induction false} NeverPassesFrontier(step: int, f: FormData, moves: seq<Move>)
    requires FirstStep <= step <= Frontier(f)
    ensures Navigate(step, f, moves) <= Frontier(f)
    decreases |moves|
  {
    if moves != [] {
      var next := if moves[0] == Next then NextStepOf(step, f) else PrevStepOf(step);
      assert next <= Frontier(f);
      NeverPassesFrontier(next, f, moves[1..]);
    }
  }

  function Nexts(n: nat): (r: seq<Move>)
    ensures |r| == n
  {
    if n == 0 then [] else [Next] + Nexts(n - 1)
  }

  /** Pressing "Next" repeatedly over passing gates advances one step each time. */
  lemma {:induction false} AdvanceOverPassingGates(step: int, f: FormData, n: nat)
    requires FirstStep <= step && step + n <= LastStep
    requires forall k :: step <= k < step + n ==> Gate(k, f)
    ensures Navigate(step, f, Nexts(n)) == step + n
    decreases n
  {
    if n > 0 {
      assert Nexts(n)[1..] == Nexts(n - 1);
      AdvanceOverPassingGates(step + 1, f, n - 1);
    }
  }

  /** Six presses of "Next" from the first step reach the review step iff
      every gate of steps 1..6 holds. */
  lemma ReachReview(f: FormData)
    ensures Navigate(FirstStep, f, Nexts(6)) == LastStep <==> forall k :: 1 <= k <= 6 ==> Gate(k, f)
  {
    if forall k :: 1 <= k <= 6 ==> Gate(k, f) {
      AdvanceOverPassingGates(FirstStep, f, 6);
    } else {
      NeverPassesFrontier(FirstStep, f, Nexts(6));
    }
  }

  /** "Previous" then "Next" returns to a step whose predecessor's gate holds. */
  lemma BackThenForward(step: int, f: FormData)
    requires FirstStep < step <= LastStep && Gate(step - 1, f)
    ensures NextStepOf(PrevStepOf(step), f) == step
  {
  }

  // ---------------------------------------------------------------------
  // The component

  datatype SubmitStatus = NotSubmitted | Succeeded | Failed

  class Wizard {
    var currentStep: int
    var form: FormData
    var loading: bool
    var submitStatus: SubmitStatus
    /** The ids of the residences offered for selection. */
    var catalog: seq<int>

    predicate Valid()
      reads this
    {
      FirstStep <= currentStep <= LastStep
      && |form.selectedResidences| <= MaxResidences
      && Distinct(form.selectedResidences)
    }

    constructor ()
      ensures Valid()
      ensures currentStep == FirstStep && form == InitialForm
      ensures !loading && submitStatus == NotSubmitted && catalog == []
    {
      currentStep := FirstStep;
      form := InitialForm;
      loading := false;
      submitStatus := NotSubmitted;
      catalog := [];
    }

    /** The residence list arrives; a failed fetch leaves it as it was. */
    method LoadCatalog(fetched: Option<seq<int>>)
      modifies this
      ensures catalog == if fetched.Some? then fetched.value else old(catalog)
      ensures currentStep == old(currentStep) && form == old(form)
      ensures loading == old(loading) && submitStatus == old(submitStatus)
    {
      if fetched.Some? {
        catalog := fetched.value;
      }
    }

    method HandleInputChange(u: FieldUpdate)
      requires Valid()
      modifies this
      ensures Valid()
      ensures form == ApplyInput(old(form), u)
      ensures currentStep == old(currentStep) && catalog == old(catalog)
      ensures loading == old(loading) && submitStatus == old(submitStatus)
    {
      form := ApplyInput(form, u);
    }

    method HandleFileUpload(kind: DocumentKind, file: Option<Upload>)
      requires Valid()
      modifies this
      ensures Valid()
      ensures form == AttachDocument(old(form), kind, file)
      ensures currentStep == old(currentStep) && catalog == old(catalog)
      ensures loading == old(loading) && submitStatus == old(submitStatus)
    {
      form := AttachDocument(form, kind, file);
    }

    method HandleResidenceSelection(id: int)
      requires Valid()
      modifies this
      ensures Valid()
      ensures form == old(form).(selectedResidences := Toggle(old(form).selectedResidences, id))
      ensures currentStep == old(currentStep) && catalog == old(catalog)
      ensures loading == old(loading) && submitStatus == old(submitStatus)
    {
      ToggleBounded(form.selectedResidences, id);
      ToggleKeepsDistinct(form.selectedResidences, id);
      form := form.(selectedResidences := Toggle(form.selectedResidences, id));
    }

    /** Returns whether the current step's gate held; when it did not, the
        user is told to fill in the required fields. On step 7 the gate
        holds but the step stays where it is. */
    method NextStep() returns (advanced: bool)
      requires Valid()
      modifies this
      ensures Valid()
      ensures advanced == Gate(old(currentStep), form)
      ensures currentStep == NextStepOf(old(currentStep), form)
      ensures advanced ==> currentStep == if old(currentStep) < LastStep then old(currentStep) + 1 else LastStep
      ensures !advanced ==> currentStep == old(currentStep)
      ensures form == old(form) && catalog == old(catalog)
      ensures loading == old(loading) && submitStatus == old(submitStatus)
    {
      advanced := Gate(currentStep, form);
      if advanced {
        currentStep := if currentStep + 1 < LastStep then currentStep + 1 else LastStep;
      }
    }

    method PrevStep()
      requires Valid()
      modifies this
      ensures Valid()
      ensures currentStep == PrevStepOf(old(currentStep))
      ensures form == old(form) && catalog == old(catalog)
      ensures loading == old(loading) && submitStatus == old(submitStatus)
    {
      currentStep := if currentStep - 1 > FirstStep then currentStep - 1 else FirstStep;
    }

    /** Pressing "Submit", the button shown only on the last step and
        disabled while loading: the loading flag goes up. */
    method BeginSubmit()
      requires Valid() && currentStep == LastStep && !loading
      modifies this
      ensures Valid()
      ensures loading && submitStatus == old(submitStatus)
      ensures currentStep == old(currentStep) && form == old(form) && catalog == old(catalog)
    {
      loading := true;
    }

    /** The simulated submission settles: success unless it was rejected,
        and the loading flag comes down either way. */
    method SettleSubmit(rejected: bool)
      requires Valid()
      modifies this
      ensures Valid()
      ensures !loading
      ensures submitStatus == if rejected then Failed else Succeeded
      ensures currentStep == old(currentStep) && form == old(form) && catalog == old(catalog)
    {
      submitStatus := if rejected then Failed else Succeeded;
      loading := false;
    }
  }
}

=== FILE: auth.dfy ===
/** Registration and login on the backend: the university-email rule, the
    order of the registration checks, and the lookup by normalised email. */
module Auth {
  import opened Wrappers
  import opened Text
  import opened Records

  const WitsDomain := "students.wits.ac.za"
  const UjDomain := "student.uj.ac.za"

  predicate IsUniversityDomain(d: string) {
    d == WitsDomain || d == UjDomain
  }

  /** What `re.match(r'^\d{6,10}$', s)` accepts: `$` also matches just
      before a final newline, so one trailing "\n" slips through. */
  predicate IsStudentNumberAsWritten(s: string) {
    IsStudentNumber(s) || (s != [] && s[|s| - 1] == '\n' && IsStudentNumber(s[..|s| - 1]))
  }

  /** The text before the first `@` (requires an `@`). */
  function LocalPart(email: string): (r: string)
    requires '@' in email
    ensures '@' !in r && |r| < |email| && email[|r|] == '@' && r == email[..|r|]
  {
    email[..IndexOf(email, '@').value]
  }

  /** The text after the first `@`. */
  function DomainPart(email: string): (r: string)
    requires '@' in email
    ensures email == LocalPart(email) + "@" + r
  {
    var i := IndexOf(email, '@').value;
    assert email == email[..i] + "@" + email[i + 1..];
    email[i + 1..]
  }

  /** `is_valid_university_email` as written. */
  predicate IsValidUniversityEmailAsWritten(email: string) {
    '@' in email && IsUniversityDomain(DomainPart(email)) && IsStudentNumberAsWritten(LocalPart(email))
  }

  /** `is_valid_university_email` as intended: digits only, nothing after them. */
  predicate IsValidUniversityEmail(email: string) {
    '@' in email && IsUniversityDomain(DomainPart(email)) && IsStudentNumber(LocalPart(email))
  }

  /** A valid address is exactly a student number, one `@` and one of the
      two university domains. */
  lemma ValidEmailShape(email: string)
    ensures IsValidUniversityEmail(email) <==>
      exists local, domain :: IsStudentNumber(local) && IsUniversityDomain(domain) && email == local + "@" + domain
  {
    if IsValidUniversityEmail(email) {
      assert email == LocalPart(email) + "@" + DomainPart(email);
    }
    if exists local, domain :: IsStudentNumber(local) && IsUniversityDomain(domain) && email == local + "@" + domain {
      var local, domain :| IsStudentNumber(local) && IsUniversityDomain(domain) && email == local + "@" + domain;
      StudentNumberSplit(local, domain);
    }
  }

  /** Splitting an `@`-free local part and a domain at the first `@` gives
      back the two parts. */
  lemma SplitAtFirstAt(local: string, domain: string)
    requires '@' !in local
    ensures var email := local + "@" + domain;
      '@' in email && LocalPart(email) == local && DomainPart(email) == domain
  {
    var email := local + "@" + domain;
    IndexOfAfter(local, '@', domain);
    assert email[..|local|] == local;
  }

  lemma StudentNumberSplit(local: string, domain: string)
    requires AllDigits(local)
    ensures var email := local + "@" + domain;
      '@' in email && LocalPart(email) == local && DomainPart(email) == domain
  {
    assert '@' !in local by {
      forall k | 0 <= k < |local| ensures local[k] != '@' {
        assert IsDigit(local[k]);
      }
    }
    SplitAtFirstAt(local, domain);
  }

  /** An address whose student number is followed by a newline. */
  const NewlineEmail := "1234567\n" + "@" + WitsDomain

  /** The regular expression as written lets a newline-terminated student
      number through, which the intended rule refuses. */
  lemma TrailingNewlineAccepted()
    ensures IsValidUniversityEmailAsWritten(NewlineEmail)
    ensures !IsValidUniversityEmail(NewlineEmail)
  {
    var local := "1234567\n";
    assert '@' !in local;
    SplitAtFirstAt(local, WitsDomain);
    assert local[..|local| - 1] == "1234567";
    assert !IsDigit(local[7]);
  }

  /** The trailing newline is the only difference between the two rules. */
  lemma AsWrittenDiffersOnlyByNewline(email: string)
    ensures IsValidUniversityEmail(email) ==> IsValidUniversityEmailAsWritten(email)
    ensures IsValidUniversityEmailAsWritten(email) && !IsValidUniversityEmail(email) ==>
      var local := LocalPart(email); local[|local| - 1] == '\n' && IsStudentNumber(local[..|local| - 1])
  {
  }

  /** `'wits' in email`: no `w`, no occurrence. */
  lemma NoW(s: string)
    requires 'w' !in s
    ensures !Contains(s, "wits")
  {
    ContainsIffOccurs(s, "wits");
    forall i | 0 <= i && i + 4 <= |s|
      ensures !OccursAt(s, "wits", i)
    {
      assert s[i..i + 4][0] == s[i];
    }
  }

  /** The university a registration derives from the address. */
  function UniversityOf(email: string): (r: string)
    ensures r == "wits" || r == "uj"
  {
    if Contains(email, "wits") then "wits" else "uj"
  }

  /** For an address the route accepts, the derived university is "wits"
      exactly for the Wits domain (a trailing newline changes nothing). */
  lemma UniversityFollowsDomain(email: string)
    requires IsValidUniversityEmailAsWritten(email)
    ensures UniversityOf(email) == "wits" <==> DomainPart(email) == WitsDomain
  {
    var local, domain := LocalPart(email), DomainPart(email);
    assert 'w' !in local by {
      forall k | 0 <= k < |local| ensures local[k] != 'w' {
        if !IsStudentNumber(local) && k < |local| - 1 {
          assert local[k] == local[..|local| - 1][k];
        }
        assert IsDigit(local[k]) || local[k] == '\n';
      }
    }
    if domain == WitsDomain {
      WitsAddressContainsWits(local, email);
    } else {
      UjAddressLacksWits(local, email);
    }
  }

  lemma WitsAddressContainsWits(local: string, email: string)
    requires email == local + "@" + WitsDomain
    ensures Contains(email, "wits")
  {
    var at := |local| + 1 + 9;
    assert email[at..at + 4] == WitsDomain[9..13] == "wits";
    ContainsIffOccurs(email, "wits");
    assert OccursAt(email, "wits", at);
  }

  lemma UjAddressLacksWits(local: string, email: string)
    requires 'w' !in local && email == local + "@" + UjDomain
    ensures !Contains(email, "wits")
  {
    assert 'w' !in UjDomain;
    assert 'w' !in email by {
      forall k | 0 <= k < |email| ensures email[k] != 'w' {
        if k < |local| { assert email[k] == local[k]; }
        else if k > |local| { assert email[k] == UjDomain[k - |local| - 1]; }
      }
    }
    NoW(email);
  }

  // ---------------------------------------------------------------------
  // Routes

  /** The first stored user with this exact address. */
  function FindByEmail(users: seq<User>, email: string): (r: Option<User>)
    ensures r.Some? ==> r.value in users && r.value.email == email
    ensures r.None? ==> forall i :: 0 <= i < |users| ==> users[i].email != email
  {
    if users == [] then None
    else if users[0].email == email then Some(users[0])
    else FindByEmail(users[1..], email)
  }

  const MissingFields := "Missing required fields"
  const BadEmail := "Please use your university email with your student number (e.g., 2307134@students.wits.ac.za)"
  const AlreadyRegistered := "Email already registered"
  const RegistrationFailed := "Registration failed"
  const MissingCredentials := "Missing email or password"
  const InvalidCredentials := "Invalid credentials"
  const LoginFailedMessage := "Login failed"
  const Registered := "Registration successful."

  /** The route's registration refusals are told apart by their messages. */
  lemma RefusalsDistinct()
    ensures BadEmail != AlreadyRegistered && BadEmail != MissingFields && BadEmail != RegistrationFailed
  {
    assert |AlreadyRegistered| == 24 && |MissingFields| == 23 && |RegistrationFailed| == 19;
  }

  datatype RegisterResult = Rejected(status: int, error: string) | Created(user: User)

  /** The outcome of `POST /register` against the stored users, with `id`
      the identifier the next row receives, under the email rule as written.
      A `null` body and non-string email or password values end in the
      handler's catch-all 500. */
  function RegisterSpec(users: seq<User>, id: int, body: Option<Payload>): (r: RegisterResult)
  {
    if body.None? then Rejected(500, RegistrationFailed)
    else
      var data := body.value;
      if !Truthy(Get(data, "email")) || !Truthy(Get(data, "password")) || !Truthy(Get(data, "name")) then
        Rejected(400, MissingFields)
      else if !data["email"].JStr? then Rejected(500, RegistrationFailed)
      else
        var email := TrimLower(data["email"].s);
        if !IsValidUniversityEmailAsWritten(email) then Rejected(400, BadEmail)
        else if FindByEmail(users, email).Some? then Rejected(400, AlreadyRegistered)
        else if !data["password"].JStr? then Rejected(500, RegistrationFailed)
        else Created(User(id, email, data["password"].s, data["name"], UniversityOf(email),
                          Get(data, "year_of_study"), Get(data, "faculty"), true, false))
  }

  /** A missing email, password or name is reported before anything else
      about the body is looked at. */
  lemma RegisterMissingFirst(users: seq<User>, id: int, data: Payload)
    requires !Truthy(Get(data, "email")) || !Truthy(Get(data, "password")) || !Truthy(Get(data, "name"))
    ensures RegisterSpec(users, id, Some(data)) == Rejected(400, MissingFields)
  {
  }

  /** With non-empty strings for email, password and name, the only
      refusals left are the email rule and a duplicate address. */
  lemma RegisterStringFields(users: seq<User>, id: int, data: Payload)
    requires "email" in data && "password" in data && "name" in data
    requires data["email"].JStr? && data["password"].JStr? && data["name"].JStr?
    requires data["email"].s != "" && data["password"].s != "" && data["name"].s != ""
    ensures var r := RegisterSpec(users, id, Some(data));
      r.Created? || r == Rejected(400, BadEmail) || r == Rejected(400, AlreadyRegistered)
    ensures IsValidUniversityEmailAsWritten(TrimLower(data["email"].s)) ==>
      RegisterSpec(users, id, Some(data)).Created? || RegisterSpec(users, id, Some(data)) == Rejected(400, AlreadyRegistered)
  {
    assert Get(data, "email") == data["email"] && Get(data, "password") == data["password"] && Get(data, "name") == data["name"];
  }

  /** A created account holds the normalised, previously unused address the
      rule as written accepts, is verified, is not an admin, and belongs to
      the university its domain names; an address the intended rule would
      refuse has a student number followed by one newline before its `@`. */
  lemma RegisterCreates(users: seq<User>, id: int, data: Payload)
    requires RegisterSpec(users, id, Some(data)).Created?
    ensures var u := RegisterSpec(users, id, Some(data)).user;
      && data["email"].JStr? && u.email == TrimLower(data["email"].s)
      && IsValidUniversityEmailAsWritten(u.email)
      && (!IsValidUniversityEmail(u.email) ==>
            var local := LocalPart(u.email); local[|local| - 1] == '\n' && IsStudentNumber(local[..|local| - 1]))
      && (forall i :: 0 <= i < |users| ==> users[i].email != u.email)
      && (u.university == "wits" <==> DomainPart(u.email) == WitsDomain)
      && u.verified && !u.isAdmin && u.id == id
  {
    var email := RegisterSpec(users, id, Some(data)).user.email;
    UniversityFollowsDomain(email);
    AsWrittenDiffersOnlyByNewline(email);
  }

  /** An address already on file, however it is cased or padded, is refused. */
  lemma RegisterRefusesDuplicate(users: seq<User>, id: int, data: Payload, k: int)
    requires Truthy(Get(data, "email")) && Truthy(Get(data, "password")) && Truthy(Get(data, "name"))
    requires data["email"].JStr? && IsValidUniversityEmailAsWritten(TrimLower(data["email"].s))
    requires 0 <= k < |users| && users[k].email == TrimLower(data["email"].s)
    ensures RegisterSpec(users, id, Some(data)) == Rejected(400, AlreadyRegistered)
  {
  }

  /** A request whose address only the rule as written accepts: the fields
      are present, the email is a string, and its normalised local part is a
      student number followed by one newline. */
  predicate NewlineSlipsThrough(body: Option<Payload>) {
    && body.Some?
    && Truthy(Get(body.value, "email")) && Truthy(Get(body.value, "password")) && Truthy(Get(body.value, "name"))
    && body.value["email"].JStr?
    && IsValidUniversityEmailAsWritten(TrimLower(body.value["email"].s))
    && !IsValidUniversityEmail(TrimLower(body.value["email"].s))
  }

  /** `POST /register` with the intended email rule: the same checks in the
      same order, except that a newline after the student number is refused
      like any other bad address. */
  function IntendedRegisterSpec(users: seq<User>, id: int, body: Option<Payload>): (r: RegisterResult)
    ensures r.Created? ==> IsValidUniversityEmail(r.user.email)
    ensures (body.Some? && Truthy(Get(body.value, "email")) && Truthy(Get(body.value, "password"))
             && Truthy(Get(body.value, "name")) && body.value["email"].JStr?
             && !IsValidUniversityEmail(TrimLower(body.value["email"].s)))
            ==> r == Rejected(400, BadEmail)
  {
    if NewlineSlipsThrough(body) then Rejected(400, BadEmail) else RegisterSpec(users, id, body)
  }

  /** The registration as written and as intended answer alike on every
      request except one whose address ends its student number with a
      newline. */
  lemma RegistersDiffer(users: seq<User>, id: int, body: Option<Payload>)
    ensures IntendedRegisterSpec(users, id, body) != RegisterSpec(users, id, body) <==> NewlineSlipsThrough(body)
  {
    if NewlineSlipsThrough(body) {
      RefusalsDistinct();
    }
  }

  datatype LoginResult = LoggedIn(user: User) | LoginRejected(status: int, error: string)

  /** The outcome of `POST /login`. */
  function LoginSpec(users: seq<User>, body: Option<Payload>): (r: LoginResult)
  {
    if body.None? || body.value == map[] then LoginRejected(400, MissingCredentials)
    else
      var data := body.value;
      if !Truthy(Get(data, "email")) || !Truthy(Get(data, "password")) then LoginRejected(400, MissingCredentials)
      else if !data["email"].JStr? then LoginRejected(500, LoginFailedMessage)
      else match FindByEmail(users, TrimLower(data["email"].s))
        case None => LoginRejected(401, InvalidCredentials)
        case Some(u) =>
          if !data["password"].JStr? then LoginRejected(500, LoginFailedMessage)
          else if data["password"].s == u.password then LoggedIn(u)
          else LoginRejected(401, InvalidCredentials)
  }

  /** Login succeeds only for a stored user whose normalised address was
      typed (in any case, with any padding) together with its password. */
  lemma LoginSucceedsOnlyWithCredentials(users: seq<User>, body: Option<Payload>)
    ensures LoginSpec(users, body).LoggedIn? <==>
      body.Some? && Truthy(Get(body.value, "email")) && body.value["email"].JStr?
      && Get(body.value, "password").JStr?
      && var found := FindByEmail(users, TrimLower(body.value["email"].s));
         found.Some? && found.value.password == body.value["password"].s && found.value.password != ""
  {
  }

  /** Registering and then logging in with the same address and password
      signs in as the new account. */
  lemma RegisterThenLogin(users: seq<User>, id: int, data: Payload)
    requires RegisterSpec(users, id, Some(data)).Created?
    ensures var u := RegisterSpec(users, id, Some(data)).user;
      LoginSpec(users + [u], Some(map["email" := data["email"], "password" := data["password"]])) == LoggedIn(u)
  {
    var u := RegisterSpec(users, id, Some(data)).user;
    var email, password := data["email"].s, data["password"].s;
    assert u.email == TrimLower(email) && u.password == password && password != "";
    assert forall i :: 0 <= i < |users| ==> users[i].email != u.email;
    TrimLowerIdempotent(email);
    FindAppended(users, u);
    LoginWith(users + [u], u, email, password);
  }

  lemma LoginWith(users: seq<User>, u: User, email: string, password: string)
    requires email != "" && password != ""
    requires FindByEmail(users, TrimLower(email)) == Some(u) && u.password == password
    ensures LoginSpec(users, Some(map["email" := JStr(email), "password" := JStr(password)])) == LoggedIn(u)
  {
    var data := map["email" := JStr(email), "password" := JStr(password)];
    assert Get(data, "email") == JStr(email) && Get(data, "password") == JStr(password);
    assert data != map[] by { assert "email" in data; }
    LoginFound(users, data, u);
  }

  /** The path of `POST /login` that signs in: fields present, the address
      on file, the password equal to the stored one. */
  lemma LoginFound(users: seq<User>, data: Payload, u: User)
    requires data != map[] && Truthy(Get(data, "email")) && Truthy(Get(data, "password"))
    requires data["email"].JStr? && FindByEmail(users, TrimLower(data["email"].s)) == Some(u)
    requires data["password"].JStr? && data["password"].s == u.password
    ensures LoginSpec(users, Some(data)) == LoggedIn(u)
  {
  }

  lemma {:induction false} FindAppended(users: seq<User>, u: User)
    requires forall i :: 0 <= i < |users| ==> users[i].email != u.email
    ensures FindByEmail(users + [u], u.email) == Some(u)
    decreases |users|
  {
    if users == [] {
      assert users + [u] == [u];
    } else {
      assert (users + [u])[1..] == users[1..] + [u];
      FindAppended(users[1..], u);
    }
  }

  /** No two stored users share an address, and every id is below `bound`. */
  predicate WellFormed(users: seq<User>, bound: int) {
    (forall i, j :: 0 <= i < j < |users| ==> users[i].email != users[j].email)
    && (forall i :: 0 <= i < |users| ==> users[i].id < bound)
  }

  /** Appending a user with an unused address under the next id keeps the
      table well formed. */
  lemma AppendKeepsWellFormed(users: seq<User>, bound: int, u: User)
    requires WellFormed(users, bound) && u.id == bound
    requires forall i :: 0 <= i < |users| ==> users[i].email != u.email
    ensures WellFormed(users + [u], bound + 1)
  {
    var t := users + [u];
    forall i, j | 0 <= i < j < |t| ensures t[i].email != t[j].email {
      if j < |users| {
        assert t[i] == users[i] && t[j] == users[j];
      } else {
        assert t[i] == users[i] && t[j] == u;
      }
    }
  }

  /** The user table: addresses are unique and identifiers are below the next one. */
  class UserTable {
    var users: seq<User>
    var nextId: int

    predicate Valid()
      reads this
    {
      WellFormed(users, nextId)
    }

    constructor ()
      ensures Valid() && users == [] && nextId == 1
    {
      users := [];
      nextId := 1;
    }

    /** `POST /register`: the checks run in order and only a request passing
        all of them adds a row. */
    method Register(body: Option<Payload>) returns (status: int, message: string)
      requires Valid()
      modifies this
      ensures Valid()
      ensures var r := RegisterSpec(old(users), old(nextId), body);
        if r.Created? then
          users == old(users) + [r.user] && nextId == old(nextId) + 1
          && status == 201 && message == Registered
        else
          users == old(users) && nextId == old(nextId) && status == r.status && message == r.error
    {
      if body.None? {
        return 500, RegistrationFailed;
      }
      var data := body.value;
      if !Truthy(Get(data, "email")) || !Truthy(Get(data, "password")) || !Truthy(Get(data, "name")) {
        return 400, MissingFields;
      }
      if !data["email"].JStr? {
        return 500, RegistrationFailed;
      }
      status, message := RegisterAddress(data);
    }

    /** The rest of `POST /register` once the three fields are present and
        the email is a string: the address rule, the duplicate check, then
        the new row. */
    method RegisterAddress(data: Payload) returns (status: int, message: string)
      requires Valid()
      requires Truthy(Get(data, "email")) && Truthy(Get(data, "password")) && Truthy(Get(data, "name"))
      requires data["email"].JStr?
      modifies this
      ensures Valid()
      ensures var r := RegisterSpec(old(users), old(nextId), Some(data));
        if r.Created? then
          users == old(users) + [r.user] && nextId == old(nextId) + 1
          && status == 201 && message == Registered
        else
          users == old(users) && nextId == old(nextId) && status == r.status && message == r.error
    {
      var email := TrimLower(data["email"].s);
      if !IsValidUniversityEmailAsWritten(email) {
        return 400, BadEmail;
      }
      if FindByEmail(users, email).Some? {
        return 400, AlreadyRegistered;
      }
      if !data["password"].JStr? {
        return 500, RegistrationFailed;
      }
      var user := User(nextId, email, data["password"].s, data["name"], UniversityOf(email),
                       Get(data, "year_of_study"), Get(data, "faculty"), true, false);
      assert RegisterSpec(users, nextId, Some(data)) == Created(user);
      AddUser(user);
      status, message := 201, Registered;
    }

    /** The insert: the row takes the next identifier, which then moves on. */
    method AddUser(user: User)
      requires Valid() && user.id == nextId
      requires forall i :: 0 <= i < |users| ==> users[i].email != user.email
      modifies this
      ensures Valid()
      ensures users == old(users) + [user] && nextId == old(nextId) + 1
    {
      AppendKeepsWellFormed(users, nextId, user);
      users := users + [user];
      nextId := nextId + 1;
    }

    /** `POST /login`: reads the table and changes nothing. */
    method Login(body: Option<Payload>) returns (r: LoginResult)
      requires Valid()
      ensures r == LoginSpec(users, body)
      ensures r.LoggedIn? ==> r.user in users
    {
      if body.None? || body.value == map[] {
        return LoginRejected(400, MissingCredentials);
      }
      var data := body.value;
      if !Truthy(Get(data, "email")) || !Truthy(Get(data, "password")) {
        return LoginRejected(400, MissingCredentials);
      }
      if !data["email"].JStr? {
        return LoginRejected(500, LoginFailedMessage);
      }
      var found := FindByEmail(users, TrimLower(data["email"].s));
      if found.None? {
        return LoginRejected(401, InvalidCredentials);
      }
      if !data["password"].JStr? {
        return LoginRejected(500, LoginFailedMessage);
      }
      if data["password"].s == found.value.password {
        r := LoggedIn(found.value);
      } else {
        r := LoginRejected(401, InvalidCredentials);
      }
    }
  }
}

=== FILE: bursary_page.dfy ===
/** The bursary directory: a filter record over a fixed list of bursaries,
    and a colour for each bursary's status. */
module BursaryPage {
  import opened Text
  import opened Seqs

  datatype Bursary = Bursary(
    id: int,
    title: string,
    provider: string,
    studyLevel: string,
    university: string,
    status: string,
    category: string,
    deadline: string)

  datatype BursaryFilters = BursaryFilters(
    category: string,
    university: string,
    studyLevel: string,
    search: string,
    deadline: string)

  const DefaultFilters := BursaryFilters("all", "all", "all", "", "all")

  datatype FilterKey = Category | University | StudyLevel | Search | Deadline

  /** `handleFilterChange(key, value)`: that key takes the value, the others
      keep theirs. */
  function WithFilter(f: BursaryFilters, key: FilterKey, value: string): (r: BursaryFilters)
    ensures key == Category ==> r == f.(category := value)
    ensures key == University ==> r == f.(university := value)
    ensures key == StudyLevel ==> r == f.(studyLevel := value)
    ensures key == Search ==> r == f.(search := value)
    ensures key == Deadline ==> r == f.(deadline := value)
  {
    match key
    case Category => f.(category := value)
    case University => f.(university := value)
    case StudyLevel => f.(studyLevel := value)
    case Search => f.(search := value)
    case Deadline => f.(deadline := value)
  }

  /** The body of `filteredBursaries`' callback: four early rejections. */
  predicate Matches(f: BursaryFilters, b: Bursary) {
    if f.category != "all" && b.category != f.category then false
    else if f.university != "all" && b.university != "all" && b.university != f.university then false
    else if f.studyLevel != "all" && b.studyLevel != f.studyLevel then false
    else if f.search != "" && !Contains(ToLower(b.title), ToLower(f.search))
            && !Contains(ToLower(b.provider), ToLower(f.search)) then false
    else true
  }

  /** A bursary is shown exactly when each filter lets it through on its
      own: category `'all'` or equal; university `'all'` on either side or
      equal; study level `'all'` or equal; an empty search, or one found in
      the title or provider ignoring case. */
  lemma MatchesIff(f: BursaryFilters, b: Bursary)
    ensures Matches(f, b) <==>
      (f.category == "all" || b.category == f.category)
      && (f.university == "all" || b.university == "all" || b.university == f.university)
      && (f.studyLevel == "all" || b.studyLevel == f.studyLevel)
      && (f.search == "" || ContainsIgnoreCase(b.title, f.search) || ContainsIgnoreCase(b.provider, f.search))
  {
  }

  function MatchesUnder(f: BursaryFilters): Bursary -> bool {
    b => Matches(f, b)
  }

  /** `filteredBursaries`. */
  function Filtered(bursaries: seq<Bursary>, f: BursaryFilters): (r: seq<Bursary>)
    ensures |r| <= |bursaries|
    ensures forall i :: 0 <= i < |r| ==> Matches(f, r[i]) && r[i] in bursaries
    ensures forall i :: 0 <= i < |bursaries| && Matches(f, bursaries[i]) ==> bursaries[i] in r
  {
    FilterKeepsMatches(bursaries, MatchesUnder(f));
    Filter(bursaries, MatchesUnder(f))
  }

  /** The shown bursaries keep the directory's order. */
  lemma FilteredKeepsOrder(bursaries: seq<Bursary>, f: BursaryFilters)
    ensures IsSubsequence(Filtered(bursaries, f), bursaries)
  {
    FilterIsSubsequence(bursaries, MatchesUnder(f));
  }

  /** With every filter at its default, the whole directory is shown. */
  lemma DefaultsShowAll(bursaries: seq<Bursary>)
    ensures Filtered(bursaries, DefaultFilters) == bursaries
  {
    FilterKeepsAll(bursaries, MatchesUnder(DefaultFilters));
  }

  /** The deadline filter is a key of the filter state with no control of
      its own, and it is never consulted. */
  lemma DeadlineIgnored(bursaries: seq<Bursary>, f: BursaryFilters, deadline: string)
    ensures Filtered(bursaries, WithFilter(f, Deadline, deadline)) == Filtered(bursaries, f)
  {
    FilterAgree(bursaries, MatchesUnder(WithFilter(f, Deadline, deadline)), MatchesUnder(f));
  }

  /** A bursary open to every university passes any university filter. */
  lemma AllUniversitiesAlwaysPass(f: BursaryFilters, b: Bursary)
    requires b.university == "all"
    ensures Matches(f, b) == Matches(f.(university := "all"), b)
  {
  }

  datatype StatusBadge = Green | Yellow | Red | Grey

  /** `getStatusColor`: the status compared in lower case. */
  function StatusColor(status: string): (b: StatusBadge)
    ensures b == Green <==> ToLower(status) == "open"
    ensures b == Yellow <==> ToLower(status) == "closing soon"
    ensures b == Red <==> ToLower(status) == "closed"
  {
    var s := ToLower(status);
    if s == "open" then Green
    else if s == "closing soon" then Yellow
    else if s == "closed" then Red
    else Grey
  }

  /** The colour ignores case: a status and its lower-case form agree. */
  lemma StatusColorIgnoresCase(status: string)
    ensures StatusColor(status) == StatusColor(ToLower(status))
  {
    ToLowerIdempotent(status);
  }
}

=== FILE: email_agreement.dfy ===
/** How the sign-up page's email checks relate to the registration route's:
    every address the intended email rule accepts also passes the page, and
    the rule as written accepts only one more kind of address, a student
    number followed by a newline, which the page refuses; the page in turn
    lets through addresses with a second `@` that the route then refuses. */
module EmailAgreement {
  import opened Wrappers
  import opened Text
  import opened Records
  import Auth
  import RegisterForm

  /** In `local + "@" + rest` with neither part holding an `@`, the only `@`
      is the one between them. */
  lemma OnlyAt(local: string, rest: string, k: int)
    requires '@' !in local && '@' !in rest
    requires 0 <= k < |local| + 1 + |rest| && k != |local|
    ensures (local + "@" + rest)[k] != '@'
  {
    var t := local + "@" + rest;
    if k < |local| {
      assert t[k] == local[k];
    } else {
      assert t[k] == rest[k - |local| - 1];
    }
  }

  lemma DigitsHaveNoAt(s: string)
    requires AllDigits(s)
    ensures '@' !in s
  {
    forall k | 0 <= k < |s| ensures s[k] != '@' {
      assert IsDigit(s[k]);
    }
  }

  /** The page's suffixes are the route's domains behind an `@`. */
  lemma SuffixesAreDomains()
    ensures RegisterForm.WitsSuffix == "@" + Auth.WitsDomain
    ensures RegisterForm.UjSuffix == "@" + Auth.UjDomain
  {
  }

  lemma EndsWithDomain(local: string, domain: string)
    ensures EndsWith(local + "@" + domain, "@" + domain)
  {
    var t := local + "@" + domain;
    assert t[|t| - |"@" + domain|..] == "@" + domain;
  }

  /** Whatever address the intended email rule accepts after normalising,
      the page accepts too. */
  lemma RouteValidPassesPage(email: string)
    requires Auth.IsValidUniversityEmail(TrimLower(email))
    ensures RegisterForm.EmailChecksPass(email)
  {
    var t := TrimLower(email);
    var local, domain := Auth.LocalPart(t), Auth.DomainPart(t);
    assert !IsBlank(email) by {
      assert |Trim(email)| == |t| > 0;
    }
    EndsWithDomain(local, domain);
    SuffixesAreDomains();
    assert EndsWith(t, RegisterForm.WitsSuffix) || EndsWith(t, RegisterForm.UjSuffix);
    IndexOfAfter(local, '@', domain);
    assert BeforeFirst(t, '@') == local by {
      assert t[..|local|] == local;
    }
  }

  /** When the normalised address has a single `@`, the page's checks are
      exactly the route's rule. */
  lemma PageValidSingleAtIsRouteValid(email: string)
    requires RegisterForm.EmailChecksPass(email)
    requires var t := TrimLower(email); '@' in t && '@' !in Auth.DomainPart(t)
    ensures Auth.IsValidUniversityEmail(TrimLower(email))
  {
    var t := TrimLower(email);
    var local, rest := Auth.LocalPart(t), Auth.DomainPart(t);
    IndexOfAfter(local, '@', rest);
    assert t[..|local|] == local;
    assert BeforeFirst(t, '@') == local;
    var suffix := if EndsWith(t, RegisterForm.WitsSuffix) then RegisterForm.WitsSuffix else RegisterForm.UjSuffix;
    var domain := suffix[1..];
    var start := |t| - |suffix|;
    assert t[start] == '@' by {
      assert t[start..][0] == suffix[0];
    }
    if start != |local| {
      OnlyAt(local, rest, start);
    }
    assert rest == t[|local| + 1..] == domain;
  }

  /** Of the addresses the route as written accepts, the page refuses only
      ones whose student number is followed by a newline. */
  lemma RouteAcceptedPassesPage(email: string)
    ensures var t := TrimLower(email);
      Auth.IsValidUniversityEmailAsWritten(t) && !RegisterForm.EmailChecksPass(email) ==>
        var local := Auth.LocalPart(t); local[|local| - 1] == '\n' && IsStudentNumber(local[..|local| - 1])
  {
    var t := TrimLower(email);
    if Auth.IsValidUniversityEmail(t) {
      RouteValidPassesPage(email);
    }
    Auth.AsWrittenDiffersOnlyByNewline(t);
  }

  /** An address with a second `@`: the page accepts it, the route refuses it. */
  const TwoAtEmail := "1234567@x" + RegisterForm.WitsSuffix

  /** An address free of spaces at its ends and of capitals is already normal. */
  lemma NormalAlready(s: string)
    requires s == [] || (!IsSpace(s[0]) && !IsSpace(s[|s| - 1]))
    requires forall i :: 0 <= i < |s| ==> !('A' <= s[i] <= 'Z')
    ensures TrimLower(s) == s
  {
    TrimUnpadded(s);
  }

  lemma TwoAtSignsDiverge()
    ensures RegisterForm.EmailChecksPass(TwoAtEmail)
    ensures !Auth.IsValidUniversityEmail(TrimLower(TwoAtEmail))
  {
    var local, rest := "1234567", "x" + RegisterForm.WitsSuffix;
    TwoAtNormal();
    TwoAtParts();
    Auth.SplitAtFirstAt(local, rest);
    IndexOfAfter(local, '@', rest);
    TwoAtSuffix();
    assert BeforeFirst(TwoAtEmail, '@') == local by {
      assert TwoAtEmail[..|local|] == local;
    }
    TwoAtRestNotDomain();
  }

  lemma TwoAtNormal()
    ensures TrimLower(TwoAtEmail) == TwoAtEmail && !IsBlank(TwoAtEmail)
  {
    NormalAlready(TwoAtEmail);
  }

  lemma TwoAtParts()
    ensures TwoAtEmail == "1234567" + "@" + ("x" + RegisterForm.WitsSuffix)
    ensures '@' !in "1234567" && IsStudentNumber("1234567")
  {
  }

  lemma TwoAtSuffix()
    ensures EndsWith(TwoAtEmail, RegisterForm.WitsSuffix)
  {
  }

  lemma TwoAtRestNotDomain()
    ensures !Auth.IsUniversityDomain("x" + RegisterForm.WitsSuffix)
  {
    assert |"x" + RegisterForm.WitsSuffix| != |Auth.WitsDomain|;
  }

  /** The page refuses the newline-terminated student number that the
      route's pattern as written accepts. */
  lemma NewlineRefusedByPage()
    ensures Auth.IsValidUniversityEmailAsWritten(TrimLower(Auth.NewlineEmail))
    ensures !RegisterForm.EmailChecksPass(Auth.NewlineEmail)
  {
    NewlineNormal();
    Auth.TrailingNewlineAccepted();
    NewlineBeforeAt();
    assert !IsStudentNumber("1234567\n") by {
      assert !IsDigit("1234567\n"[7]);
    }
  }

  lemma NewlineNormal()
    ensures TrimLower(Auth.NewlineEmail) == Auth.NewlineEmail
  {
    NormalAlready(Auth.NewlineEmail);
  }

  lemma NewlineBeforeAt()
    ensures BeforeFirst(Auth.NewlineEmail, '@') == "1234567\n"
  {
    var local := "1234567\n";
    assert Auth.NewlineEmail == local + "@" + Auth.WitsDomain;
    assert '@' !in local;
    IndexOfAfter(local, '@', Auth.WitsDomain);
    assert Auth.NewlineEmail[..|local|] == local;
  }

  /** A form the page accepts always gets past the route's missing-field and
      type checks, and a single-`@` address also past its email rule. */
  lemma AcceptedFormPassesRouteChecks(users: seq<User>, id: int, d: RegisterForm.RegisterData)
    requires RegisterForm.FirstError(d) == None
    ensures var r := Auth.RegisterSpec(users, id, Some(RegisterForm.SubmittedPayload(d)));
      r != Auth.Rejected(400, Auth.MissingFields) && r != Auth.Rejected(500, Auth.RegistrationFailed)
    ensures var t := TrimLower(d.email);
      '@' in t && '@' !in Auth.DomainPart(t) ==>
        Auth.RegisterSpec(users, id, Some(RegisterForm.SubmittedPayload(d))) != Auth.Rejected(400, Auth.BadEmail)
  {
    RegisterForm.AcceptedIffAllPass(d);
    var p := RegisterForm.SubmittedPayload(d);
    assert d.name != "" && d.email != "";
    assert d.password != "" by {
      assert Utf16Length(d.password) >= 6;
    }
    Auth.RegisterStringFields(users, id, p);
    Auth.RefusalsDistinct();
    var t := TrimLower(d.email);
    if '@' in t && '@' !in Auth.DomainPart(t) {
      PageValidSingleAtIsRouteValid(d.email);
      Auth.AsWrittenDiffersOnlyByNewline(t);
    }
  }
}

=== FILE: legacy_properties_page.dfy ===
/** The earlier property listing page: every filter change, the page
    buttons included, resets the page to 1, and there is one button per
    page. */
module LegacyPropertiesPage {
  import opened PropertyListing

  /** `handleFilterChange`: the key takes its value, then the page is 1. */
  function ApplyChange(f: PropertyFilters, c: FilterChange): (r: PropertyFilters)
    ensures r.page == 1
    ensures !c.SetPage? ==> r == Assign(f, c).(page := 1)
    ensures c.SetPage? ==> r == f.(page := 1)
  {
    Assign(f, c).(page := 1)
  }

  /** One numbered button per page, when there are two pages or more. */
  function PageButtons(totalPages: int): (buttons: seq<int>)
    ensures totalPages <= 1 ==> buttons == []
    ensures totalPages > 1 ==> |buttons| == totalPages
    ensures forall i :: 0 <= i < |buttons| ==> buttons[i] == i + 1
  {
    if totalPages <= 1 then [] else seq(totalPages, i => i + 1)
  }

  class LegacyPropertiesView {
    var filters: PropertyFilters
    var totalPages: int

    constructor ()
      ensures filters == DefaultFilters && totalPages == 1
    {
      filters := DefaultFilters;
      totalPages := 1;
    }

    method HandleFilterChange(c: FilterChange)
      modifies this
      ensures filters == ApplyChange(old(filters), c)
      ensures totalPages == old(totalPages)
    {
      filters := ApplyChange(filters, c);
    }

    /** Clicking button `i`: whichever button it is, the page becomes 1, so
        the buttons never leave the first page. */
    method ClickPageButton(i: int)
      requires 0 <= i < |PageButtons(totalPages)|
      modifies this
      ensures filters.page == 1
      ensures filters == old(filters).(page := 1)
      ensures totalPages == old(totalPages)
    {
      HandleFilterChange(SetPage(PageButtons(totalPages)[i]));
    }

    /** "Clear all filters". */
    method ClearFilters()
      modifies this
      ensures filters == DefaultFilters
      ensures totalPages == old(totalPages)
    {
      filters := DefaultFilters;
    }

    /** The response of a fetch sets the page count. */
    method ReceivePages(pages: int)
      modifies this
      ensures totalPages == pages && filters == old(filters)
    {
      totalPages := pages;
    }
  }

  /** Any sequence of filter changes from the start keeps the page at 1. */
  function ApplyAll(f: PropertyFilters, changes: seq<FilterChange>): PropertyFilters
    decreases |changes|
  {
    if changes == [] then f else ApplyAll(ApplyChange(f, changes[0]), changes[1..])
  }

  lemma {:induction false} NeverLeavesFirstPage(changes: seq<FilterChange>, f: PropertyFilters)
    requires f.page == 1
    ensures ApplyAll(f, changes).page == 1
    decreases |changes|
  {
    if changes != [] {
      NeverLeavesFirstPage(changes[1..], ApplyChange(f, changes[0]));
    }
  }
}

=== FILE: properties_page.dfy ===
/** The property listing page: filters that return to page 1 whenever
    anything but the page changes, and a pager of at most five numbered
    buttons between Previous and Next. */
module PropertiesPage {
  import opened PropertyListing

  /** `handleFilterChange`: the key takes its value; any key but `page`
      also resets the page to 1. */
  function ApplyChange(f: PropertyFilters, c: FilterChange): (r: PropertyFilters)
    ensures c.SetPage? ==> r == f.(page := c.page)
    ensures !c.SetPage? ==> r == Assign(f, c).(page := 1)
  {
    if c.SetPage? then Assign(f, c) else Assign(f, c).(page := 1)
  }

  /** Previous and Next: one step, clamped to the pages that exist. */
  function PreviousPage(page: int): int {
    if page - 1 < 1 then 1 else page - 1
  }

  function NextPage(page: int, totalPages: int): int {
    if totalPages < page + 1 then totalPages else page + 1
  }

  /** From a page within range, Previous and Next stay within range and
      move by at most one. */
  lemma StepsStayInRange(page: int, totalPages: int)
    requires 1 <= page <= totalPages
    ensures 1 <= PreviousPage(page) <= page && page - PreviousPage(page) <= 1
    ensures page <= NextPage(page, totalPages) <= totalPages && NextPage(page, totalPages) - page <= 1
    ensures PreviousPage(page) == page <==> page == 1
    ensures NextPage(page, totalPages) == page <==> page == totalPages
  {
  }

  /** The numbered buttons: none unless there are two pages or more, then
      pages 1 to min(5, totalPages). */
  function PageButtons(totalPages: int): (buttons: seq<int>)
    ensures totalPages <= 1 ==> buttons == []
    ensures totalPages > 1 ==> |buttons| == if totalPages < 5 then totalPages else 5
    ensures forall i :: 0 <= i < |buttons| ==> buttons[i] == i + 1
  {
    if totalPages <= 1 then []
    else seq(if totalPages < 5 then totalPages else 5, i => i + 1)
  }

  /** Pages past the fifth have no button: only Next reaches them. */
  lemma NoButtonPastFive(totalPages: int, page: int)
    requires page > 5
    ensures page !in PageButtons(totalPages)
  {
  }

  class PropertiesView {
    var filters: PropertyFilters
    var totalPages: int

    constructor ()
      ensures filters == DefaultFilters && totalPages == 1
    {
      filters := DefaultFilters;
      totalPages := 1;
    }

    method HandleFilterChange(c: FilterChange)
      modifies this
      ensures filters == ApplyChange(old(filters), c)
      ensures totalPages == old(totalPages)
    {
      filters := ApplyChange(filters, c);
    }

    /** Clicking a numbered button moves to that page and keeps the filters. */
    method ClickPageButton(i: int)
      requires 0 <= i < |PageButtons(totalPages)|
      modifies this
      ensures filters == old(filters).(page := i + 1)
      ensures totalPages == old(totalPages)
    {
      HandleFilterChange(SetPage(PageButtons(totalPages)[i]));
    }

    method ClickPrevious()
      modifies this
      ensures filters == old(filters).(page := PreviousPage(old(filters).page))
      ensures totalPages == old(totalPages)
    {
      HandleFilterChange(SetPage(PreviousPage(filters.page)));
    }

    method ClickNext()
      modifies this
      ensures filters == old(filters).(page := NextPage(old(filters).page, old(totalPages)))
      ensures totalPages == old(totalPages)
    {
      HandleFilterChange(SetPage(NextPage(filters.page, totalPages)));
    }

    /** "Clear All Filters". */
    method ClearFilters()
      modifies this
      ensures filters == DefaultFilters
      ensures totalPages == old(totalPages)
    {
      filters := DefaultFilters;
    }

    /** The response of a fetch sets the page count. */
    method ReceivePages(pages: int)
      modifies this
      ensures totalPages == pages && filters == old(filters)
    {
      totalPages := pages;
    }
  }
}

=== FILE: property_listing.dfy ===
/** What the two property listing pages share: the filter record, the
    query parameters it becomes, and the amenity chips on each card. */
module PropertyListing {
  import opened Wrappers
  import opened Text
  import opened Records

  datatype PropertyFilters = PropertyFilters(
    search: string,
    university: string,
    propertyType: string,
    minPrice: string,
    maxPrice: string,
    page: int)

  const DefaultFilters := PropertyFilters("", "all", "all", "", "", 1)

  /** One call of `handleFilterChange(key, value)`. */
  datatype FilterChange =
    | SetSearch(search: string) | SetUniversity(university: string) | SetType(propertyType: string)
    | SetMinPrice(minPrice: string) | SetMaxPrice(maxPrice: string) | SetPage(page: int)

  /** `{ ...prev, [key]: value }`: the key takes the value, nothing else changes. */
  function Assign(f: PropertyFilters, c: FilterChange): (r: PropertyFilters)
    ensures c.SetPage? ==> r == f.(page := c.page)
    ensures !c.SetPage? ==> r.page == f.page
    ensures c.SetSearch? ==> r == f.(search := c.search)
    ensures c.SetUniversity? ==> r == f.(university := c.university)
    ensures c.SetType? ==> r == f.(propertyType := c.propertyType)
    ensures c.SetMinPrice? ==> r == f.(minPrice := c.minPrice)
    ensures c.SetMaxPrice? ==> r == f.(maxPrice := c.maxPrice)
  {
    match c
    case SetSearch(s) => f.(search := s)
    case SetUniversity(u) => f.(university := u)
    case SetType(t) => f.(propertyType := t)
    case SetMinPrice(m) => f.(minPrice := m)
    case SetMaxPrice(m) => f.(maxPrice := m)
    case SetPage(p) => f.(page := p)
  }

  /** The query parameters `propertiesAPI.getProperties(filters)` sends:
      the filter record under its own key names. */
  function SentParams(f: PropertyFilters): (params: map<string, string>)
    ensures params.Keys == {"search", "university", "type", "minPrice", "maxPrice", "page"}
    ensures params["minPrice"] == f.minPrice && params["maxPrice"] == f.maxPrice
    ensures params["search"] == f.search && params["university"] == f.university
    ensures params["type"] == f.propertyType && params["page"] == IntString(f.page)
  {
    map["search" := f.search, "university" := f.university, "type" := f.propertyType,
        "minPrice" := f.minPrice, "maxPrice" := f.maxPrice, "page" := IntString(f.page)]
  }

  /** `parseAmenities`: `JSON.parse(text || '[]')`, and `[]` when parsing
      throws. `parse` is the JSON parser, giving `None` where it throws. */
  function ParseAmenities(text: Option<string>, parse: string -> Option<seq<Json>>): (r: seq<Json>)
    ensures text.None? || text.value == "" ==> r == []
    ensures text.Some? && text.value != "" && parse(text.value).None? ==> r == []
    ensures text.Some? && text.value != "" && parse(text.value).Some? ==> r == parse(text.value).value
  {
    if text.None? || text.value == "" then []
    else match parse(text.value)
      case None => []
      case Some(items) => items
  }

  /** The amenity row of a card: the first three chips, and a "+N more"
      badge with the rest when there are more than three. */
  datatype AmenityRow = AmenityRow(chips: seq<Json>, more: Option<nat>)

  const MaxChips := 3

  function AmenityChips(amenities: seq<Json>): (row: AmenityRow)
    ensures |row.chips| == if |amenities| < MaxChips then |amenities| else MaxChips
    ensures row.chips == amenities[..|row.chips|]
    ensures row.more.Some? <==> |amenities| > MaxChips
    ensures row.more.Some? ==> row.more.value == |amenities| - MaxChips
  {
    var shown := if |amenities| < MaxChips then amenities else amenities[..MaxChips];
    AmenityRow(shown, if |amenities| > MaxChips then Some(|amenities| - MaxChips) else None)
  }

  /** Chips and badge together account for every amenity, and the chips
      followed by the hidden ones give back the list. */
  lemma AmenityChipsAccountForAll(amenities: seq<Json>)
    ensures var row := AmenityChips(amenities);
      |row.chips| + (if row.more.Some? then row.more.value else 0) == |amenities|
      && row.chips + amenities[|row.chips|..] == amenities
  {
    var row := AmenityChips(amenities);
    assert amenities[..|row.chips|] + amenities[|row.chips|..] == amenities;
  }
}

=== FILE: property_search.dfy ===
/** The public property routes: the listing query, built as a chain of
    filters over the approved properties, and the single-property lookup
    that hides unapproved listings. */
module PropertySearch {
  import opened Wrappers
  import opened Text
  import opened Records
  import opened Seqs
  import PropertyListing

  /** The listing's query-string arguments after Flask's conversion: an
      integer argument that does not parse reads as absent. */
  datatype SearchArgs = SearchArgs(
    university: Option<string>,
    propertyType: Option<string>,
    minPrice: Option<int>,
    maxPrice: Option<int>,
    search: Option<string>)

  function Arg(params: map<string, string>, key: string): (r: Option<string>)
    ensures r.Some? <==> key in params
  {
    if key in params then Some(params[key]) else None
  }

  /** `request.args.get(key, type=int)`. */
  function IntArg(params: map<string, string>, key: string): (r: Option<int>)
    ensures key !in params ==> r == None
  {
    if key in params then ParseInt(params[key]) else None
  }

  /** The arguments `get_properties` reads from the query string. */
  function ArgsOf(params: map<string, string>): SearchArgs {
    SearchArgs(Arg(params, "university"), Arg(params, "type"),
               IntArg(params, "min_price"), IntArg(params, "max_price"), Arg(params, "search"))
  }

  /** Whether stage `k` of the query is applied at all (stage 0, the
      approval filter, always is). */
  predicate Active(a: SearchArgs, k: int) {
    if k == 1 then a.university.Some? && a.university.value != "" && a.university.value != "all"
    else if k == 2 then a.propertyType.Some? && a.propertyType.value != "" && a.propertyType.value != "all"
    else if k == 3 then a.minPrice.Some? && a.minPrice.value != 0
    else if k == 4 then a.maxPrice.Some? && a.maxPrice.value != 0
    else if k == 5 then a.search.Some? && a.search.value != ""
    else true
  }

  /** The `WHERE` condition stage `k` adds. A `NULL` column fails every
      comparison. */
  predicate Condition(a: SearchArgs, k: int, p: Property) {
    if k == 1 then a.university.Some? && (p.university == Some(a.university.value) || p.university == Some("both"))
    else if k == 2 then a.propertyType.Some? && p.propertyType == a.propertyType.value
    else if k == 3 then a.minPrice.Some? && p.priceMin.Some? && p.priceMin.value >= a.minPrice.value
    else if k == 4 then a.maxPrice.Some? && p.priceMax.Some? && p.priceMax.value <= a.maxPrice.value
    else if k == 5 then a.search.Some? && (ContainsIgnoreCase(p.name, a.search.value) || ContainsIgnoreCase(p.address, a.search.value))
    else p.approved
  }

  /** Stages 0 to `k` all let `p` through. */
  predicate UpTo(a: SearchArgs, k: int, p: Property)
    decreases k
  {
    (Active(a, k) ==> Condition(a, k, p)) && (k <= 0 || UpTo(a, k - 1, p))
  }

  /** A property is listed when all six stages let it through. */
  predicate Listed(a: SearchArgs, p: Property) {
    UpTo(a, 5, p)
  }

  function ConditionUnder(a: SearchArgs, k: int): Property -> bool {
    p => Condition(a, k, p)
  }

  function UpToUnder(a: SearchArgs, k: int): Property -> bool {
    p => UpTo(a, k, p)
  }

  /** Applying stage `k` to the result of stages before it. */
  lemma StageApplied(db: seq<Property>, a: SearchArgs, k: int)
    requires 1 <= k && Active(a, k)
    ensures Filter(Filter(db, UpToUnder(a, k - 1)), ConditionUnder(a, k)) == Filter(db, UpToUnder(a, k))
  {
    FilterThen(db, UpToUnder(a, k - 1), ConditionUnder(a, k), UpToUnder(a, k));
  }

  /** Skipping an inactive stage changes nothing. */
  lemma StageSkipped(db: seq<Property>, a: SearchArgs, k: int)
    requires 1 <= k && !Active(a, k)
    ensures Filter(db, UpToUnder(a, k - 1)) == Filter(db, UpToUnder(a, k))
  {
    FilterAgree(db, UpToUnder(a, k - 1), UpToUnder(a, k));
  }

  /** One `if` of `get_properties`: when stage `k`'s argument is present,
      the query is narrowed by its condition, otherwise it is left alone. */
  method Narrow(db: seq<Property>, a: SearchArgs, k: int, query: seq<Property>) returns (next: seq<Property>)
    requires 1 <= k && query == Filter(db, UpToUnder(a, k - 1))
    ensures next == Filter(db, UpToUnder(a, k))
  {
    if Active(a, k) {
      next := Filter(query, ConditionUnder(a, k));
      StageApplied(db, a, k);
    } else {
      next := query;
      StageSkipped(db, a, k);
    }
  }

  /** `get_properties` without pagination: the query starts from the
      approved properties and each argument that is present narrows it, in
      the order university, type, minimum price, maximum price, search. */
  method GetProperties(db: seq<Property>, a: SearchArgs) returns (result: seq<Property>)
    ensures result == Filter(db, UpToUnder(a, 5))
  {
    var query := Filter(db, ConditionUnder(a, 0));
    FilterAgree(db, ConditionUnder(a, 0), UpToUnder(a, 0));
    query := Narrow(db, a, 1, query);
    query := Narrow(db, a, 2, query);
    query := Narrow(db, a, 3, query);
    query := Narrow(db, a, 4, query);
    result := Narrow(db, a, 5, query);
  }

  /** What the stages amount to: approved, and for each argument present,
      its condition — university equal or `'both'`, exact type, price
      bounds, and a case-insensitive match in the name or the address. */
  lemma ListedIff(a: SearchArgs, p: Property)
    ensures Listed(a, p) <==>
      p.approved
      && (a.university.Some? && a.university.value != "" && a.university.value != "all" ==>
            p.university == Some(a.university.value) || p.university == Some("both"))
      && (a.propertyType.Some? && a.propertyType.value != "" && a.propertyType.value != "all" ==>
            p.propertyType == a.propertyType.value)
      && (a.minPrice.Some? && a.minPrice.value != 0 ==> p.priceMin.Some? && p.priceMin.value >= a.minPrice.value)
      && (a.maxPrice.Some? && a.maxPrice.value != 0 ==> p.priceMax.Some? && p.priceMax.value <= a.maxPrice.value)
      && (a.search.Some? && a.search.value != "" ==>
            ContainsIgnoreCase(p.name, a.search.value) || ContainsIgnoreCase(p.address, a.search.value))
  {
  }

  /** Only approved properties are ever listed, in table order. */
  lemma OnlyApprovedListed(db: seq<Property>, a: SearchArgs)
    ensures forall i :: 0 <= i < |Filter(db, UpToUnder(a, 5))| ==> Filter(db, UpToUnder(a, 5))[i].approved
    ensures IsSubsequence(Filter(db, UpToUnder(a, 5)), db)
  {
    FilterIsSubsequence(db, UpToUnder(a, 5));
    forall i | 0 <= i < |Filter(db, UpToUnder(a, 5))|
      ensures Filter(db, UpToUnder(a, 5))[i].approved
    {
      ListedIff(a, Filter(db, UpToUnder(a, 5))[i]);
    }
  }

  /** A property whose university is a free-text pair such as
      `'uj & wits'` matches neither university's filter. */
  lemma JointUniversityMatchesNeither(a: SearchArgs, p: Property)
    requires p.university == Some("uj & wits")
    requires a.university == Some("uj") || a.university == Some("wits")
    ensures !Listed(a, p)
  {
    ListedIff(a, p);
  }

  /** With `both` a property passes either university's filter. */
  lemma BothMatchesEither(a: SearchArgs, p: Property)
    requires p.university == Some("both") && a.university.Some? && a.university.value != ""
    ensures Listed(a, p) == Listed(a.(university := None), p)
  {
    ListedIff(a, p);
    ListedIff(a.(university := None), p);
  }

  /** The listing page names its price bounds `minPrice` and `maxPrice`,
      which the route never reads: prices typed on the page filter nothing. */
  lemma PagePricesIgnored(f: PropertyListing.PropertyFilters, p: Property, low: Option<int>, high: Option<int>)
    ensures ArgsOf(PropertyListing.SentParams(f)).minPrice == None
    ensures ArgsOf(PropertyListing.SentParams(f)).maxPrice == None
    ensures Listed(ArgsOf(PropertyListing.SentParams(f)), p) == Listed(ArgsOf(PropertyListing.SentParams(f)), p.(priceMin := low, priceMax := high))
  {
    var params := PropertyListing.SentParams(f);
    assert "min_price" !in params && "max_price" !in params;
    ListedIff(ArgsOf(params), p);
    ListedIff(ArgsOf(params), p.(priceMin := low, priceMax := high));
  }

  const NotFound := "Property not found"

  datatype PropertyAnswer = Found(property: Property) | Missing(status: int, error: string)

  /** `get_property`: a missing property and an unapproved one get the same
      404. */
  function GetProperty(db: seq<Property>, id: int): (r: PropertyAnswer)
    ensures r.Found? <==> FindProperty(db, id).Some? && FindProperty(db, id).value.approved
    ensures r.Found? ==> r.property == FindProperty(db, id).value
    ensures r.Missing? ==> r == Missing(404, NotFound)
  {
    match FindProperty(db, id)
    case None => Missing(404, NotFound)
    case Some(p) => if p.approved then Found(p) else Missing(404, NotFound)
  }

  /** A property that is shown on its own is also listed with no filters. */
  lemma FoundIsListed(db: seq<Property>, id: int)
    requires GetProperty(db, id).Found?
    ensures Listed(SearchArgs(None, None, None, None, None), GetProperty(db, id).property)
  {
    ListedIff(SearchArgs(None, None, None, None, None), GetProperty(db, id).property);
  }
}

=== FILE: records.dfy ===
/** The values the Flask routes receive and the rows they store: decoded JSON
    with Python's truthiness and `int()`, and the user, property, review and
    image tables. */
module Records {
  import opened Wrappers
  import opened Text

  /** A decoded JSON value. Floating-point numbers and nested objects are not
      modelled. */
  datatype Json = JNull | JBool(b: bool) | JInt(i: int) | JStr(s: string) | JList(items: seq<Json>)

  /** Python truthiness: `None`, `False`, `0`, `""` and `[]` are falsy. */
  predicate Truthy(v: Json) {
    match v
    case JNull => false
    case JBool(b) => b
    case JInt(i) => i != 0
    case JStr(s) => s != ""
    case JList(items) => items != []
  }

  /** JavaScript truthiness: as Python's, except that every array, the
      empty one included, is truthy. */
  predicate JsTruthy(v: Json) {
    match v
    case JNull => false
    case JBool(b) => b
    case JInt(i) => i != 0
    case JStr(s) => s != ""
    case JList(_) => true
  }

  /** The two languages disagree on exactly one value, the empty list. */
  lemma TruthinessDiffersOnEmptyList(v: Json)
    ensures JsTruthy(v) != Truthy(v) <==> v == JList([])
  {
  }

  /** A JSON request body: `None` when the body is `null`, else an object. */
  type Payload = map<string, Json>

  /** `data.get(key)`: a missing key reads as `None`. */
  function Get(data: Payload, key: string): (r: Json)
    ensures key !in data ==> r == JNull
  {
    if key in data then data[key] else JNull
  }

  /** `data.get(key, default)`. */
  function GetOr(data: Payload, key: string, default: Json): (r: Json)
    ensures key !in data ==> r == default
  {
    if key in data then data[key] else default
  }

  predicate IsSign(c: char) {
    c == '+' || c == '-'
  }

  /** Python's `int(text)`: surrounding whitespace, an optional sign, then at
      least one decimal digit; `None` where Python raises `ValueError`. */
  function ParseInt(text: string): (r: Option<int>)
    ensures r.Some? ==> Trim(text) != []
  {
    var t := Trim(text);
    if t == [] then None
    else if IsSign(t[0]) then
      var digits := t[1..];
      if digits != [] && AllDigits(digits) then
        var magnitude: int := DigitsValue(digits);
        Some(if t[0] == '-' then -magnitude else magnitude)
      else None
    else if AllDigits(t) then Some(DigitsValue(t))
    else None
  }

  /** Python's `int(v)` on a decoded JSON value; `None` where it raises. */
  function PyInt(v: Json): (r: Option<int>)
    ensures v.JInt? ==> r == Some(v.i)
    ensures v.JNull? || v.JList? ==> r == None
  {
    match v
    case JInt(i) => Some(i)
    case JBool(b) => Some(if b then 1 else 0)
    case JStr(s) => ParseInt(s)
    case _ => None
  }

  /** Reading back a rendered integer gives the integer. */
  lemma ParseIntRoundTrip(n: int)
    ensures ParseInt(IntString(n)) == Some(n)
  {
    var digits := NatString(if n < 0 then -n else n);
    NatStringRoundTrip(if n < 0 then -n else n);
    assert !IsSpace(digits[0]) && !IsSpace(digits[|digits| - 1]) && !IsSign(digits[0]);
    if n < 0 {
      var text := "-" + digits;
      assert text[1..] == digits && text[0] == '-' && text[|text| - 1] == digits[|digits| - 1];
      TrimUnpadded(text);
      assert IntString(n) == text;
    } else {
      TrimUnpadded(digits);
      assert IntString(n) == digits;
    }
  }

  /** A registered account. The password is held as the secret the stored
      hash verifies against. `name`, `year_of_study` and `faculty` hold the
      JSON values the registration form sent. */
  datatype User = User(
    id: int,
    email: string,
    password: string,
    name: Json,
    university: string,
    yearOfStudy: Json,
    faculty: Json,
    verified: bool,
    isAdmin: bool)

  /** A listed residence, apartment or house. `amenities` holds JSON text. */
  datatype Property = Property(
    id: int,
    name: string,
    address: string,
    propertyType: string,
    priceMin: Option<int>,
    priceMax: Option<int>,
    description: Option<string>,
    amenities: Option<string>,
    contactInfo: Option<string>,
    university: Option<string>,
    approved: bool,
    nsfasAccredited: bool)

  /** A review row. Optional ratings are `None` when not given. */
  datatype Review = Review(
    id: int,
    userId: int,
    propertyId: int,
    overallRating: int,
    valueRating: Option<int>,
    locationRating: Option<int>,
    safetyRating: Option<int>,
    cleanlinessRating: Option<int>,
    managementRating: Option<int>,
    facilitiesRating: Option<int>,
    reviewText: string,
    pros: Option<string>,
    cons: Option<string>,
    recommend: bool,
    anonymous: bool,
    helpfulCount: Option<int>)

  datatype PropertyImage = PropertyImage(id: int, propertyId: int, imageUrl: string)

  /** The first row carrying `id`, as a primary-key lookup returns it. */
  function FindProperty(rows: seq<Property>, id: int): (r: Option<Property>)
    ensures r.Some? ==> r.value in rows && r.value.id == id
    ensures r.None? ==> forall i :: 0 <= i < |rows| ==> rows[i].id != id
  {
    if rows == [] then None
    else if rows[0].id == id then Some(rows[0])
    else FindProperty(rows[1..], id)
  }

  function FindUser(rows: seq<User>, id: int): (r: Option<User>)
    ensures r.Some? ==> r.value in rows && r.value.id == id
    ensures r.None? ==> forall i :: 0 <= i < |rows| ==> rows[i].id != id
  {
    if rows == [] then None
    else if rows[0].id == id then Some(rows[0])
    else FindUser(rows[1..], id)
  }

  function FindReview(rows: seq<Review>, id: int): (r: Option<Review>)
    ensures r.Some? ==> r.value in rows && r.value.id == id
    ensures r.None? ==> forall i :: 0 <= i < |rows| ==> rows[i].id != id
  {
    if rows == [] then None
    else if rows[0].id == id then Some(rows[0])
    else FindReview(rows[1..], id)
  }
}

=== FILE: register_form.dfy ===
/** The sign-up page: six text inputs, one error message, and a validation
    that runs its checks in a fixed order and reports only the first
    failure. */
module RegisterForm {
  import opened Wrappers
  import opened Text
  import opened Records

  datatype RegisterField = Name | Email | Password | ConfirmPassword | YearOfStudy | Faculty

  datatype RegisterData = RegisterData(
    name: string,
    email: string,
    password: string,
    confirmPassword: string,
    yearOfStudy: string,
    faculty: string)

  const EmptyRegisterData := RegisterData("", "", "", "", "", "")

  function Field(d: RegisterData, f: RegisterField): string {
    match f
    case Name => d.name
    case Email => d.email
    case Password => d.password
    case ConfirmPassword => d.confirmPassword
    case YearOfStudy => d.yearOfStudy
    case Faculty => d.faculty
  }

  /** The form after typing into one input: that input holds the new text
      and every other input keeps its text. */
  function WithField(d: RegisterData, f: RegisterField, value: string): (r: RegisterData)
    ensures Field(r, f) == value
    ensures forall g :: g != f ==> Field(r, g) == Field(d, g)
  {
    match f
    case Name => d.(name := value)
    case Email => d.(email := value)
    case Password => d.(password := value)
    case ConfirmPassword => d.(confirmPassword := value)
    case YearOfStudy => d.(yearOfStudy := value)
    case Faculty => d.(faculty := value)
  }

  const WitsSuffix := "@students.wits.ac.za"
  const UjSuffix := "@student.uj.ac.za"
  const MinPasswordLength := 6

  datatype RegisterError =
    | NameMissing | EmailMissing | NotUniversityDomain | NotStudentNumber
    | PasswordTooShort | PasswordMismatch

  function Message(e: RegisterError): string {
    match e
    case NameMissing => "Please enter your full name"
    case EmailMissing => "Please enter your email address"
    case NotUniversityDomain => "Please use your university email (@students.wits.ac.za or @student.uj.ac.za)"
    case NotStudentNumber => "Please use your student number as the email address (e.g., 2307134@students.wits.ac.za)"
    case PasswordTooShort => "Password must be at least 6 characters long"
    case PasswordMismatch => "Passwords do not match"
  }

  /** The position of each check in the order the page runs them. */
  function Rank(e: RegisterError): nat {
    match e
    case NameMissing => 0
    case EmailMissing => 1
    case NotUniversityDomain => 2
    case NotStudentNumber => 3
    case PasswordTooShort => 4
    case PasswordMismatch => 5
  }

  /** Each check on its own, regardless of the others. */
  predicate Fails(e: RegisterError, d: RegisterData) {
    match e
    case NameMissing => IsBlank(d.name)
    case EmailMissing => IsBlank(d.email)
    case NotUniversityDomain => !EndsWith(TrimLower(d.email), WitsSuffix) && !EndsWith(TrimLower(d.email), UjSuffix)
    case NotStudentNumber => !IsStudentNumber(BeforeFirst(TrimLower(d.email), '@'))
    case PasswordTooShort => Utf16Length(d.password) < MinPasswordLength
    case PasswordMismatch => d.password != d.confirmPassword
  }

  /** The email checks of the page: non-blank, a university suffix, and a
      student number before the first `@`. */
  predicate EmailChecksPass(email: string) {
    !IsBlank(email)
    && (EndsWith(TrimLower(email), WitsSuffix) || EndsWith(TrimLower(email), UjSuffix))
    && IsStudentNumber(BeforeFirst(TrimLower(email), '@'))
  }

  /** `validateForm`: the first failing check, in page order, if any. */
  function FirstError(d: RegisterData): (r: Option<RegisterError>)
  {
    if IsBlank(d.name) then Some(NameMissing)
    else if IsBlank(d.email) then Some(EmailMissing)
    else
      var email := TrimLower(d.email);
      if !EndsWith(email, WitsSuffix) && !EndsWith(email, UjSuffix) then Some(NotUniversityDomain)
      else if !IsStudentNumber(BeforeFirst(email, '@')) then Some(NotStudentNumber)
      else if Utf16Length(d.password) < MinPasswordLength then Some(PasswordTooShort)
      else if d.password != d.confirmPassword then Some(PasswordMismatch)
      else None
  }

  /** The reported error is the earliest failing check: it fails, and every
      check before it passes. */
  lemma FirstErrorIsEarliestFailure(d: RegisterData, e: RegisterError)
    ensures FirstError(d) == Some(e) <==> Fails(e, d) && forall e' :: Rank(e') < Rank(e) ==> !Fails(e', d)
  {
    if FirstError(d) == Some(e) {
      ReportedIsEarliest(d, e);
    }
    if Fails(e, d) && forall e' :: Rank(e') < Rank(e) ==> !Fails(e', d) {
      EarliestFailureReported(d, e);
    }
  }

  lemma ReportedIsEarliest(d: RegisterData, e: RegisterError)
    requires FirstError(d) == Some(e)
    ensures Fails(e, d) && forall e' :: Rank(e') < Rank(e) ==> !Fails(e', d)
  {
    ReportedFails(d, e);
    forall e' | Rank(e') < Rank(e)
      ensures !Fails(e', d)
    {
      EarlierChecksPass(d, e, e');
    }
  }

  lemma ReportedFails(d: RegisterData, e: RegisterError)
    requires FirstError(d) == Some(e)
    ensures Fails(e, d)
  {
    var email := TrimLower(d.email);
    if IsBlank(d.name) {
      assert e == NameMissing;
    } else if IsBlank(d.email) {
      assert e == EmailMissing;
    } else if !EndsWith(email, WitsSuffix) && !EndsWith(email, UjSuffix) {
      assert e == NotUniversityDomain;
    } else if !IsStudentNumber(BeforeFirst(email, '@')) {
      assert e == NotStudentNumber;
    } else if Utf16Length(d.password) < MinPasswordLength {
      assert e == PasswordTooShort;
    } else {
      assert e == PasswordMismatch;
    }
  }

  lemma EarliestFailureReported(d: RegisterData, e: RegisterError)
    requires Fails(e, d) && forall e' :: Rank(e') < Rank(e) ==> !Fails(e', d)
    ensures FirstError(d) == Some(e)
  {
    assert Rank(NameMissing) == 0 && Rank(EmailMissing) == 1 && Rank(NotUniversityDomain) == 2;
    assert Rank(NotStudentNumber) == 3 && Rank(PasswordTooShort) == 4;
    match e
    case NameMissing =>
    case EmailMissing =>
      assert !Fails(NameMissing, d);
    case NotUniversityDomain =>
      assert !Fails(NameMissing, d) && !Fails(EmailMissing, d);
    case NotStudentNumber =>
      assert !Fails(NameMissing, d) && !Fails(EmailMissing, d) && !Fails(NotUniversityDomain, d);
    case PasswordTooShort =>
      assert !Fails(NameMissing, d) && !Fails(EmailMissing, d) && !Fails(NotUniversityDomain, d);
      assert !Fails(NotStudentNumber, d);
    case PasswordMismatch =>
      assert !Fails(NameMissing, d) && !Fails(EmailMissing, d) && !Fails(NotUniversityDomain, d);
      assert !Fails(NotStudentNumber, d) && !Fails(PasswordTooShort, d);
  }

  lemma EarlierChecksPass(d: RegisterData, e: RegisterError, e': RegisterError)
    requires FirstError(d) == Some(e) && Rank(e') < Rank(e)
    ensures !Fails(e', d)
  {
    if Rank(e) >= 1 {
      assert !Fails(NameMissing, d);
    }
    if Rank(e) >= 2 {
      assert !Fails(EmailMissing, d);
    }
    if Rank(e) >= 3 {
      assert !Fails(NotUniversityDomain, d);
    }
    if Rank(e) >= 4 {
      assert !Fails(NotStudentNumber, d);
    }
    if Rank(e) >= 5 {
      assert !Fails(PasswordTooShort, d);
    }
  }

  /** The form is accepted exactly when no check fails. */
  lemma AcceptedIffAllPass(d: RegisterData)
    ensures FirstError(d) == None <==> forall e :: !Fails(e, d)
    ensures FirstError(d) == None <==>
      (!IsBlank(d.name) && EmailChecksPass(d.email) && Utf16Length(d.password) >= MinPasswordLength
       && d.password == d.confirmPassword)
  {
    if FirstError(d) != None {
      var e := FirstError(d).value;
      FirstErrorIsEarliestFailure(d, e);
    } else {
      forall e ensures !Fails(e, d) {
        match e
        case NameMissing =>
        case EmailMissing =>
        case NotUniversityDomain =>
        case NotStudentNumber =>
        case PasswordTooShort =>
        case PasswordMismatch =>
      }
    }
  }

  /** A name that trims to nothing is reported before anything else. */
  lemma BlankNameReportedFirst(d: RegisterData)
    requires IsBlank(d.name)
    ensures FirstError(d) == Some(NameMissing)
  {
  }

  /** The request the page sends once validation passes. The email is sent
      as typed; the backend normalises it. */
  function SubmittedPayload(d: RegisterData): (r: Payload)
    ensures forall k :: k in r ==> r[k].JStr?
    ensures "email" in r && "password" in r && "name" in r
    ensures r["email"] == JStr(d.email) && r["password"] == JStr(d.password) && r["name"] == JStr(d.name)
    ensures "confirmPassword" !in r
  {
    map["name" := JStr(d.name), "email" := JStr(d.email), "password" := JStr(d.password),
        "year_of_study" := JStr(d.yearOfStudy), "faculty" := JStr(d.faculty)]
  }

  const UnexpectedError := "An unexpected error occurred. Please try again."

  /** How the register call ended: the account was created, the server
      refused it with a message, or the call threw. */
  datatype RegisterReply = Registered | Refused(error: string) | Threw

  /** The page's state: the six inputs, the error line and the success banner. */
  class RegisterPage {
    var formData: RegisterData
    var error: string
    var success: bool

    constructor ()
      ensures formData == EmptyRegisterData && error == "" && !success
    {
      formData := EmptyRegisterData;
      error := "";
      success := false;
    }

    /** Typing into an input: that input changes and a pending error clears. */
    method HandleChange(f: RegisterField, value: string)
      modifies this
      ensures formData == WithField(old(formData), f, value)
      ensures error == "" && success == old(success)
    {
      formData := WithField(formData, f, value);
      if error != "" {
        error := "";
      }
    }

    /** `validateForm`: true when every check passes; otherwise the first
        failure's message becomes the error. */
    method ValidateForm() returns (ok: bool)
      modifies this
      ensures ok <==> FirstError(formData) == None
      ensures ok ==> error == old(error)
      ensures !ok ==> error == Message(FirstError(formData).value)
      ensures formData == old(formData) && success == old(success)
    {
      if IsBlank(formData.name) {
        assert FirstError(formData) == Some(NameMissing);
        error := Message(NameMissing);
        return false;
      }
      if IsBlank(formData.email) {
        assert FirstError(formData) == Some(EmailMissing);
        error := Message(EmailMissing);
        return false;
      }
      var email := TrimLower(formData.email);
      if !EndsWith(email, WitsSuffix) && !EndsWith(email, UjSuffix) {
        assert FirstError(formData) == Some(NotUniversityDomain);
        error := Message(NotUniversityDomain);
        return false;
      }
      var localPart := BeforeFirst(email, '@');
      if !IsStudentNumber(localPart) {
        assert FirstError(formData) == Some(NotStudentNumber);
        error := Message(NotStudentNumber);
        return false;
      }
      if Utf16Length(formData.password) < MinPasswordLength {
        assert FirstError(formData) == Some(PasswordTooShort);
        error := Message(PasswordTooShort);
        return false;
      }
      if formData.password != formData.confirmPassword {
        assert FirstError(formData) == Some(PasswordMismatch);
        error := Message(PasswordMismatch);
        return false;
      }
      assert FirstError(formData) == None;
      return true;
    }

    /** Pressing "Create account": the error clears, then validation runs;
        the payload is sent only when it passes. */
    method HandleSubmit() returns (sent: Option<Payload>)
      modifies this
      ensures sent.Some? <==> FirstError(formData) == None
      ensures sent.Some? ==> sent.value == SubmittedPayload(formData) && error == ""
      ensures sent.None? ==> error == Message(FirstError(formData).value)
      ensures formData == old(formData) && success == old(success)
    {
      error := "";
      var ok := ValidateForm();
      if ok {
        sent := Some(SubmittedPayload(formData));
      } else {
        sent := None;
      }
    }

    /** The answer to a sent form: success shows the banner; a refusal
        shows the server's message; a call that threw shows the generic
        one. The form is kept either way. */
    method SettleSubmit(reply: RegisterReply)
      modifies this
      ensures success == (old(success) || reply.Registered?)
      ensures reply.Registered? ==> error == old(error)
      ensures reply.Refused? ==> error == reply.error
      ensures reply.Threw? ==> error == UnexpectedError
      ensures formData == old(formData)
    {
      match reply
      case Registered => success := true;
      case Refused(e) => error := e;
      case Threw => error := UnexpectedError;
    }
  }
}

=== FILE: review_agreement.dfy ===
/** How the review page's checks relate to the review route's: a form the
    page accepts, with an overall rating of at least 1 and text inside the
    Basic Multilingual Plane, passes every field check of the route and is
    stored as typed (text trimmed). Outside that plane the page counts
    UTF-16 code units and the route counts characters, so they disagree. */
module ReviewAgreement {
  import opened Wrappers
  import opened Text
  import opened Records
  import ReviewForm
  import ReviewApi

  /** Each character outside the Basic Multilingual Plane is two UTF-16
      code units. */
  lemma {:induction false} Utf16LengthAstral(s: string)
    requires forall i :: 0 <= i < |s| ==> s[i] as int > 0xFFFF
    ensures Utf16Length(s) == 2 * |s|
    decreases |s|
  {
    if s != [] {
      Utf16LengthAstral(s[1..]);
    }
  }

  /** The payload the page sends carries the form's values under the keys
      the route reads. */
  lemma PayloadFields(d: ReviewForm.ReviewData)
    ensures var p := ReviewForm.ToPayload(d);
      Get(p, "overall_rating") == JInt(ReviewForm.Rating(d, ReviewForm.Overall))
      && Get(p, "review_text") == JStr(d.reviewText)
      && Get(p, "recommend") == (if d.recommend.Some? then JBool(d.recommend.value) else JNull)
      && GetOr(p, "anonymous", JBool(false)) == JBool(d.anonymous)
      && p != map[]
  {
    var p := ReviewForm.ToPayload(d);
    assert ReviewForm.RatingKey(ReviewForm.Overall) == "overall_rating";
    assert "overall_rating" in p;
  }

  /** Every optional field the page sends converts without raising. */
  lemma PayloadConverts(d: ReviewForm.ReviewData, key: string)
    requires key in {"value_rating", "location_rating", "safety_rating", "cleanliness_rating",
                     "management_rating", "facilities_rating"}
    ensures ReviewApi.OptionalRating(ReviewForm.ToPayload(d), key).Some?
  {
    var p := ReviewForm.ToPayload(d);
    var k := if key == "value_rating" then ReviewForm.ValueForMoney
      else if key == "location_rating" then ReviewForm.Location
      else if key == "safety_rating" then ReviewForm.Safety
      else if key == "cleanliness_rating" then ReviewForm.Cleanliness
      else if key == "management_rating" then ReviewForm.Management
      else ReviewForm.Facilities;
    assert ReviewForm.RatingKey(k) == key;
  }

  /** A review the page accepts passes the route's field checks, and the
      route stores the overall rating, the trimmed text, the recommendation
      and the anonymity flag the form held. */
  lemma AcceptedReviewPassesRoute(d: ReviewForm.ReviewData, id: int, userId: int, propertyId: int)
    requires ReviewForm.FirstError(d) == None
    requires ReviewForm.Rating(d, ReviewForm.Overall) >= 1
    requires InBmp(Trim(d.reviewText))
    ensures ReviewApi.CheckFields(ReviewForm.ToPayload(d)) == None
    ensures var r := ReviewApi.BuildReview(id, userId, propertyId, ReviewForm.ToPayload(d));
      r.Some? && r.value.overallRating == ReviewForm.Rating(d, ReviewForm.Overall)
      && r.value.reviewText == Trim(d.reviewText) && r.value.recommend == d.recommend.value
      && r.value.anonymous == d.anonymous
  {
    AcceptedPassesChecks(d);
    AcceptedBuilds(d, id, userId, propertyId);
  }

  lemma AcceptedPassesChecks(d: ReviewForm.ReviewData)
    requires ReviewForm.FirstError(d) == None
    requires ReviewForm.Rating(d, ReviewForm.Overall) >= 1
    requires InBmp(Trim(d.reviewText))
    ensures ReviewApi.CheckFields(ReviewForm.ToPayload(d)) == None
  {
    var p := ReviewForm.ToPayload(d);
    PayloadFields(d);
    ReviewForm.FirstErrorOrder(d);
    Utf16LengthInBmp(Trim(d.reviewText));
    assert |Trim(Get(p, "review_text").s)| >= ReviewApi.MinTextLength;
    assert PyInt(Get(p, "overall_rating")) == Some(ReviewForm.Rating(d, ReviewForm.Overall));
    ReviewApi.CheckFieldsPassIff(p);
  }

  lemma AcceptedBuilds(d: ReviewForm.ReviewData, id: int, userId: int, propertyId: int)
    requires d.recommend.Some?
    ensures var r := ReviewApi.BuildReview(id, userId, propertyId, ReviewForm.ToPayload(d));
      r.Some? && r.value.overallRating == ReviewForm.Rating(d, ReviewForm.Overall)
      && r.value.reviewText == Trim(d.reviewText) && r.value.recommend == d.recommend.value
      && r.value.anonymous == d.anonymous
  {
    var p := ReviewForm.ToPayload(d);
    PayloadFields(d);
    PayloadAllConvert(d);
    ReviewApi.BuildsWhenConvertible(id, userId, propertyId, p);
  }

  /** Every optional field of the payload converts. */
  lemma PayloadAllConvert(d: ReviewForm.ReviewData)
    ensures var p := ReviewForm.ToPayload(d);
      ReviewApi.OptionalRating(p, "value_rating").Some? && ReviewApi.OptionalRating(p, "location_rating").Some?
      && ReviewApi.OptionalRating(p, "safety_rating").Some? && ReviewApi.OptionalRating(p, "cleanliness_rating").Some?
      && ReviewApi.OptionalRating(p, "management_rating").Some? && ReviewApi.OptionalRating(p, "facilities_rating").Some?
      && ReviewApi.OptionalText(p, "pros").Some? && ReviewApi.OptionalText(p, "cons").Some?
  {
    PayloadConverts(d, "value_rating");
    PayloadConverts(d, "location_rating");
    PayloadConverts(d, "safety_rating");
    PayloadConverts(d, "cleanliness_rating");
    PayloadConverts(d, "management_rating");
    PayloadConverts(d, "facilities_rating");
  }

  /** Under the same conditions the whole route stores the review unless the
      property is unknown or the user has already reviewed it. */
  lemma AcceptedReviewStored(reviews: seq<Review>, properties: seq<Property>, d: ReviewForm.ReviewData,
                             id: int, userId: int, propertyId: int)
    requires ReviewForm.FirstError(d) == None
    requires ReviewForm.Rating(d, ReviewForm.Overall) >= 1
    requires InBmp(Trim(d.reviewText))
    requires FindProperty(properties, propertyId).Some? && !ReviewApi.HasReviewed(reviews, userId, propertyId)
    ensures ReviewApi.CreateReviewSpec(reviews, properties, userId, propertyId, id, Some(ReviewForm.ToPayload(d))).Stored?
  {
    PayloadFields(d);
    AcceptedReviewPassesRoute(d, id, userId, propertyId);
  }

  /** Twenty-five emoji: fifty UTF-16 code units, twenty-five characters. */
  const EmojiText: string := seq(25, i => '\U{1F600}')

  const EmojiReview := ReviewForm.InitialReview.(
    ratings := map[ReviewForm.Overall := 5], reviewText := EmojiText, recommend := Some(true))

  /** The page accepts the emoji review; the route refuses it as too short. */
  lemma EmojiTextDiverges()
    ensures ReviewForm.FirstError(EmojiReview) == None
    ensures ReviewApi.CheckFields(ReviewForm.ToPayload(EmojiReview)) == Some(ReviewApi.Refused(400, ReviewApi.TextTooShort))
  {
    TrimUnpadded(EmojiText);
    Utf16LengthAstral(EmojiText);
    PayloadFields(EmojiReview);
    assert ReviewForm.Rating(EmojiReview, ReviewForm.Overall) == 5;
  }
}

=== FILE: review_api.dfy ===
/** The review routes of the Flask backend: creating a review (checks in a
    fixed order, then normalisation), marking one helpful, listing reviews
    with their authors, and a user's review statistics. */
module ReviewApi {
  import opened Wrappers
  import opened Text
  import opened Records
  import opened Seqs

  const NoData := "No data provided"
  const AlreadyReviewed := "You have already reviewed this property"
  const OverallRequired := "Overall rating is required"
  const TextTooShort := "Review text must be at least 50 characters"
  const RecommendRequired := "Recommendation is required"
  const CreateFailed := "Failed to create review"
  const MinTextLength := 50

  datatype CreateResult = Refused(status: int, error: string) | Stored(review: Review)

  predicate UniqueIds(reviews: seq<Review>) {
    forall i, j :: 0 <= i < j < |reviews| ==> reviews[i].id != reviews[j].id
  }

  /** The user already has a review of the property. */
  predicate HasReviewed(reviews: seq<Review>, userId: int, propertyId: int) {
    exists i :: 0 <= i < |reviews| && reviews[i].userId == userId && reviews[i].propertyId == propertyId
  }

  /** The three field checks, in order: `None` when all pass, otherwise the
      refusal. A value `int()` cannot convert, or a review text that is not
      a string, raises inside the handler and becomes a 500. */
  function CheckFields(data: Payload): (r: Option<CreateResult>)
    ensures r.Some? ==> r.value.Refused?
    ensures r.None? ==> PyInt(Get(data, "overall_rating")).Some? && PyInt(Get(data, "overall_rating")).value >= 1
    ensures r.None? ==> Get(data, "review_text").JStr? && |Trim(Get(data, "review_text").s)| >= MinTextLength
    ensures r.None? ==> !Get(data, "recommend").JNull?
  {
    var overall := Get(data, "overall_rating");
    var text := Get(data, "review_text");
    if !Truthy(overall) then Some(Refused(400, OverallRequired))
    else if PyInt(overall).None? then Some(Refused(500, CreateFailed))
    else if PyInt(overall).value < 1 then Some(Refused(400, OverallRequired))
    else if !Truthy(text) then Some(Refused(400, TextTooShort))
    else if !text.JStr? then Some(Refused(500, CreateFailed))
    else if |Trim(text.s)| < MinTextLength then Some(Refused(400, TextTooShort))
    else if Get(data, "recommend").JNull? then Some(Refused(400, RecommendRequired))
    else None
  }

  /** The field checks pass exactly when the overall rating converts to an
      integer of at least 1 (there is no upper bound), the review text is a
      string of at least 50 characters once stripped, and `recommend` is
      present and not null. */
  lemma CheckFieldsPassIff(data: Payload)
    ensures CheckFields(data).None? <==>
      (PyInt(Get(data, "overall_rating")).Some? && PyInt(Get(data, "overall_rating")).value >= 1
       && Get(data, "review_text").JStr? && |Trim(Get(data, "review_text").s)| >= MinTextLength
       && !Get(data, "recommend").JNull?)
  {
    var overall := Get(data, "overall_rating");
    if PyInt(overall).Some? && PyInt(overall).value >= 1 {
      assert Truthy(overall) by {
        if overall.JStr? {
          assert Trim(overall.s) != [];
        }
      }
    }
  }

  /** `int(data.get(key, 0)) or None`: 0 and a missing key give `None`;
      the outer `None` is a value `int()` cannot convert. */
  function OptionalRating(data: Payload, key: string): (r: Option<Option<int>>)
    ensures key !in data ==> r == Some(None)
    ensures r.Some? && r.value.Some? ==> r.value.value != 0 && PyInt(Get(data, key)) == r.value
  {
    match PyInt(GetOr(data, key, JInt(0)))
    case None => None
    case Some(n) => Some(if n == 0 then None else Some(n))
  }

  /** `data.get(key, '').strip() or None`: blank text is stored as `None`;
      the outer `None` is a value that is not a string. */
  function OptionalText(data: Payload, key: string): (r: Option<Option<string>>)
    ensures key !in data ==> r == Some(None)
    ensures r.Some? && r.value.Some? ==> Get(data, key).JStr? && r.value.value == Trim(Get(data, key).s) && r.value.value != []
    ensures r.Some? && r.value.None? && key in data ==> data[key].JStr? && IsBlank(data[key].s)
  {
    match GetOr(data, key, JStr(""))
    case JStr(s) => Some(if Trim(s) == [] then None else Some(Trim(s)))
    case _ => None
  }

  /** The row `create_review` inserts, or `None` when building it raises. */
  function BuildReview(id: int, userId: int, propertyId: int, data: Payload): (r: Option<Review>)
    ensures r.Some? ==> r.value.id == id && r.value.userId == userId && r.value.propertyId == propertyId
    ensures r.Some? ==> Some(r.value.overallRating) == PyInt(Get(data, "overall_rating"))
    ensures r.Some? ==> Get(data, "review_text").JStr? && r.value.reviewText == Trim(Get(data, "review_text").s)
    ensures r.Some? ==> r.value.recommend == Truthy(Get(data, "recommend"))
    ensures r.Some? ==> r.value.anonymous == Truthy(GetOr(data, "anonymous", JBool(false)))
    ensures r.Some? ==> r.value.helpfulCount == Some(0)
    ensures r.Some? ==> r.value.pros != Some([]) && r.value.cons != Some([])
  {
    var overall := PyInt(Get(data, "overall_rating"));
    var text := Get(data, "review_text");
    var value := OptionalRating(data, "value_rating");
    var location := OptionalRating(data, "location_rating");
    var safety := OptionalRating(data, "safety_rating");
    var cleanliness := OptionalRating(data, "cleanliness_rating");
    var management := OptionalRating(data, "management_rating");
    var facilities := OptionalRating(data, "facilities_rating");
    var pros := OptionalText(data, "pros");
    var cons := OptionalText(data, "cons");
    if overall.None? || !text.JStr? || value.None? || location.None? || safety.None?
       || cleanliness.None? || management.None? || facilities.None? || pros.None? || cons.None?
    then None
    else
      Some(Review(id, userId, propertyId, overall.value,
        value.value, location.value, safety.value, cleanliness.value, management.value, facilities.value,
        Trim(text.s), pros.value, cons.value,
        Truthy(Get(data, "recommend")), Truthy(GetOr(data, "anonymous", JBool(false))), Some(0)))
  }

  /** The row is built exactly when every field converts. */
  lemma BuildsWhenConvertible(id: int, userId: int, propertyId: int, data: Payload)
    requires PyInt(Get(data, "overall_rating")).Some? && Get(data, "review_text").JStr?
    requires OptionalRating(data, "value_rating").Some? && OptionalRating(data, "location_rating").Some?
    requires OptionalRating(data, "safety_rating").Some? && OptionalRating(data, "cleanliness_rating").Some?
    requires OptionalRating(data, "management_rating").Some? && OptionalRating(data, "facilities_rating").Some?
    requires OptionalText(data, "pros").Some? && OptionalText(data, "cons").Some?
    ensures BuildReview(id, userId, propertyId, data).Some?
  {
  }

  /** `create_review`, from the empty-body test to the insert. A missing
      property raises a 404 inside the handler's `try`, which answers 500. */
  function CreateReviewSpec(reviews: seq<Review>, properties: seq<Property>, userId: int, propertyId: int,
                            id: int, body: Option<Payload>): (r: CreateResult)
    ensures r.Refused? ==> r.status == 400 || r.status == 500
    ensures body.None? || body.value == map[] ==> r == Refused(400, NoData)
    ensures body.Some? && body.value != map[] && FindProperty(properties, propertyId).None? ==>
      r == Refused(500, CreateFailed)
    ensures (body.Some? && body.value != map[] && FindProperty(properties, propertyId).Some?
             && !HasReviewed(reviews, userId, propertyId) && CheckFields(body.value).Some?)
            ==> r == CheckFields(body.value).value
    ensures r.Stored? ==> body.Some? && BuildReview(id, userId, propertyId, body.value) == Some(r.review)
    ensures r.Stored? ==> r.review.overallRating >= 1 && |r.review.reviewText| >= MinTextLength
    ensures r.Stored? ==> FindProperty(properties, propertyId).Some? && !HasReviewed(reviews, userId, propertyId)
  {
    if body.None? || body.value == map[] then Refused(400, NoData)
    else if FindProperty(properties, propertyId).None? then Refused(500, CreateFailed)
    else if HasReviewed(reviews, userId, propertyId) then Refused(400, AlreadyReviewed)
    else match CheckFields(body.value)
      case Some(refusal) => refusal
      case None =>
        match BuildReview(id, userId, propertyId, body.value)
        case None => Refused(500, CreateFailed)
        case Some(review) => Stored(review)
  }

  /** A second review of the same property is refused before any field is
      looked at. */
  lemma DuplicateRefusedFirst(reviews: seq<Review>, properties: seq<Property>, userId: int, propertyId: int,
                              id: int, data: Payload)
    requires data != map[] && FindProperty(properties, propertyId).Some?
    requires HasReviewed(reviews, userId, propertyId)
    ensures CreateReviewSpec(reviews, properties, userId, propertyId, id, Some(data)) == Refused(400, AlreadyReviewed)
  {
  }

  /** Inserting a review makes any later attempt by the same user on the
      same property a duplicate. */
  lemma StoredThenDuplicate(reviews: seq<Review>, properties: seq<Property>, userId: int, propertyId: int,
                            id: int, id': int, body: Option<Payload>, data: Payload)
    requires CreateReviewSpec(reviews, properties, userId, propertyId, id, body).Stored?
    requires data != map[]
    ensures var stored := CreateReviewSpec(reviews, properties, userId, propertyId, id, body).review;
      CreateReviewSpec(reviews + [stored], properties, userId, propertyId, id', Some(data)) == Refused(400, AlreadyReviewed)
  {
    var stored := CreateReviewSpec(reviews, properties, userId, propertyId, id, body).review;
    var after := reviews + [stored];
    assert after[|reviews|] == stored;
  }

  /** Sub-ratings sent as 0 are stored as `None`. */
  lemma ZeroRatingsStoredAsNone(id: int, userId: int, propertyId: int, data: Payload)
    requires "value_rating" in data && data["value_rating"] == JInt(0)
    requires BuildReview(id, userId, propertyId, data).Some?
    ensures BuildReview(id, userId, propertyId, data).value.valueRating == None
  {
  }

  // ---------------------------------------------------------------------
  // Marking a review helpful

  function HelpfulOf(r: Review): int {
    if r.helpfulCount.Some? then r.helpfulCount.value else 0
  }

  /** `(review.helpful_count or 0) + 1`. */
  function Bumped(r: Review): (b: Review)
    ensures HelpfulOf(b) == HelpfulOf(r) + 1
    ensures b.(helpfulCount := r.helpfulCount) == r
  {
    r.(helpfulCount := Some(HelpfulOf(r) + 1))
  }

  /** The table after `mark_helpful(id)`: the row with that id is bumped. */
  function BumpHelpful(reviews: seq<Review>, id: int): (r: seq<Review>)
    ensures |r| == |reviews|
    ensures forall i :: 0 <= i < |r| ==> r[i] == if reviews[i].id == id then Bumped(reviews[i]) else reviews[i]
  {
    seq(|reviews|, i requires 0 <= i < |reviews| => if reviews[i].id == id then Bumped(reviews[i]) else reviews[i])
  }

  /** Appending a review under the next id keeps ids unique and below the
      id after it. */
  lemma AppendKeepsIds(reviews: seq<Review>, bound: int, review: Review)
    requires UniqueIds(reviews) && forall i :: 0 <= i < |reviews| ==> reviews[i].id < bound
    requires review.id == bound
    ensures UniqueIds(reviews + [review])
    ensures forall i :: 0 <= i < |reviews + [review]| ==> (reviews + [review])[i].id < bound + 1
  {
    var t := reviews + [review];
    forall i, j | 0 <= i < j < |t| ensures t[i].id != t[j].id {
      assert t[i] == reviews[i];
    }
  }

  /** Bumping a count changes no id, so unique ids below a bound stay so. */
  lemma BumpKeepsIds(reviews: seq<Review>, id: int, bound: int)
    requires UniqueIds(reviews) && forall i :: 0 <= i < |reviews| ==> reviews[i].id < bound
    ensures UniqueIds(BumpHelpful(reviews, id))
    ensures forall i :: 0 <= i < |BumpHelpful(reviews, id)| ==> BumpHelpful(reviews, id)[i].id < bound
  {
    var r := BumpHelpful(reviews, id);
    assert forall i :: 0 <= i < |r| ==> r[i].id == reviews[i].id;
  }

  // ---------------------------------------------------------------------
  // Listing reviews

  /** Who wrote a review, as the listing shows it. */
  datatype Author = Author(name: Json, university: Option<string>, year: Json)

  const AnonymousAuthor := Author(JStr("Anonymous"), None, JNull)

  /** The author block of `get_all_reviews` as written: an anonymous review
      still carries its author's university. */
  function AuthorViewAsWritten(review: Review, user: User): Author {
    if !review.anonymous then Author(user.name, Some(user.university), user.yearOfStudy)
    else Author(JStr("Anonymous"), if user.university != "" then Some(user.university) else None, JNull)
  }

  /** The author block as the review model's own serialisation gives it: an
      anonymous review reveals nothing about its author. */
  function AuthorView(review: Review, user: User): (a: Author)
    ensures review.anonymous ==> a == AnonymousAuthor
    ensures !review.anonymous ==> a == Author(user.name, Some(user.university), user.yearOfStudy)
  {
    if review.anonymous then AnonymousAuthor
    else Author(user.name, Some(user.university), user.yearOfStudy)
  }

  /** The listing as written exposes the university of an anonymous author,
      which the corrected view hides; the two agree everywhere else. */
  lemma AnonymousUniversityExposed(review: Review, user: User)
    requires review.anonymous && user.university != ""
    ensures AuthorViewAsWritten(review, user).university == Some(user.university)
    ensures AuthorView(review, user).university == None
  {
  }

  lemma AuthorViewsAgreeElsewhere(review: Review, user: User)
    ensures AuthorViewAsWritten(review, user).name == AuthorView(review, user).name
    ensures AuthorViewAsWritten(review, user).year == AuthorView(review, user).year
    ensures !review.anonymous ==> AuthorViewAsWritten(review, user) == AuthorView(review, user)
  {
  }

  /** The query-string filters of `get_all_reviews`, after Flask's
      conversion (`min_rating` that is not an integer reads as absent). */
  datatype ListingFilters = ListingFilters(university: Option<string>, minRating: Option<int>, search: Option<string>)

  /** A joined row passes the listing's `WHERE` clause. */
  predicate Listed(f: ListingFilters, review: Review, property: Property, user: User) {
    property.approved
    && (f.university.Some? && f.university.value != "" && f.university.value != "all" ==> user.university == f.university.value)
    && (f.minRating.Some? && f.minRating.value != 0 ==> review.overallRating >= f.minRating.value)
    && (f.search.Some? && f.search.value != "" ==>
          ContainsIgnoreCase(property.name, f.search.value) || ContainsIgnoreCase(review.reviewText, f.search.value))
  }

  datatype Row = Row(review: Review, property: Property, user: User)

  /** The inner join of reviews with their property and author, filtered. */
  function Joined(reviews: seq<Review>, properties: seq<Property>, users: seq<User>, f: ListingFilters): (rows: seq<Row>)
    ensures |rows| <= |reviews|
    ensures forall i :: 0 <= i < |rows| ==>
      rows[i].review in reviews && rows[i].property.approved && Listed(f, rows[i].review, rows[i].property, rows[i].user)
      && rows[i].property.id == rows[i].review.propertyId && rows[i].user.id == rows[i].review.userId
  {
    if reviews == [] then []
    else
      var rest := Joined(reviews[1..], properties, users, f);
      var r := reviews[0];
      match (FindProperty(properties, r.propertyId), FindUser(users, r.userId))
      case (Some(p), Some(u)) => if Listed(f, r, p, u) then [Row(r, p, u)] + rest else rest
      case _ => rest
  }

  /** A row is listed exactly when its review is in the table, its property
      and its author are the ones found by id, and it passes the filters. */
  lemma {:induction false} JoinedIff(reviews: seq<Review>, properties: seq<Property>, users: seq<User>,
                                     f: ListingFilters, row: Row)
    ensures row in Joined(reviews, properties, users, f) <==>
      (row.review in reviews
       && FindProperty(properties, row.review.propertyId) == Some(row.property)
       && FindUser(users, row.review.userId) == Some(row.user)
       && Listed(f, row.review, row.property, row.user))
  {
    if reviews != [] {
      JoinedIff(reviews[1..], properties, users, f, row);
      assert row.review in reviews <==> row.review == reviews[0] || row.review in reviews[1..] by {
        assert reviews == [reviews[0]] + reviews[1..];
      }
    }
  }

  /** The listing follows table order: the rows of two stretches of the
      table are listed one stretch after the other. */
  lemma {:induction false} JoinedAppend(a: seq<Review>, b: seq<Review>, properties: seq<Property>,
                                        users: seq<User>, f: ListingFilters)
    ensures Joined(a + b, properties, users, f) == Joined(a, properties, users, f) + Joined(b, properties, users, f)
  {
    if a == [] {
      assert a + b == b;
    } else {
      assert (a + b)[1..] == a[1..] + b;
      JoinedAppend(a[1..], b, properties, users, f);
    }
  }

  /** One element of the `reviews` array in the listing. */
  datatype ReviewEntry = ReviewEntry(review: Review, helpfulCount: int, propertyName: string, author: Author)

  /** One entry as `get_all_reviews` builds it: an anonymous review hides
      the name and year, but the university stays when the author has one. */
  function FormatEntry(row: Row): (e: ReviewEntry)
    ensures e.review == row.review && e.helpfulCount == HelpfulOf(row.review) && e.propertyName == row.property.name
    ensures !row.review.anonymous ==> e.author == Author(row.user.name, Some(row.user.university), row.user.yearOfStudy)
    ensures row.review.anonymous ==> e.author.name == JStr("Anonymous") && e.author.year == JNull
    ensures row.review.anonymous ==> (e.author.university.Some? <==> row.user.university != "")
    ensures row.review.anonymous && row.user.university != "" ==> e.author.university == Some(row.user.university)
  {
    ReviewEntry(row.review, HelpfulOf(row.review), row.property.name, AuthorViewAsWritten(row.review, row.user))
  }

  /** The formatting loop of `get_all_reviews`: one entry per joined row, in
      order; an anonymous entry shows "Anonymous" and no year. */
  method FormatReviews(rows: seq<Row>) returns (entries: seq<ReviewEntry>)
    ensures |entries| == |rows|
    ensures forall i :: 0 <= i < |rows| ==> entries[i] == FormatEntry(rows[i])
    ensures forall i :: 0 <= i < |rows| && rows[i].review.anonymous ==>
      entries[i].author.name == JStr("Anonymous") && entries[i].author.year == JNull
  {
    entries := [];
    for i := 0 to |rows|
      invariant |entries| == i
      invariant forall j :: 0 <= j < i ==> entries[j] == FormatEntry(rows[j])
    {
      entries := entries + [FormatEntry(rows[i])];
    }
  }

  /** The entry as intended: the written entry with the corrected author
      block, so an anonymous entry names, places and dates nobody. */
  function IntendedEntry(row: Row): (e: ReviewEntry)
    ensures row.review.anonymous ==> e.author == AnonymousAuthor
    ensures e.review == FormatEntry(row).review && e.helpfulCount == FormatEntry(row).helpfulCount
    ensures e.propertyName == FormatEntry(row).propertyName
    ensures !row.review.anonymous ==> e == FormatEntry(row)
  {
    ReviewEntry(row.review, HelpfulOf(row.review), row.property.name, AuthorView(row.review, row.user))
  }

  /** The intended listing: the written one, except that no anonymous entry
      carries its author's university. */
  function IntendedListing(rows: seq<Row>): (entries: seq<ReviewEntry>)
    ensures |entries| == |rows|
    ensures forall i :: 0 <= i < |rows| && rows[i].review.anonymous ==> entries[i].author == AnonymousAuthor
    ensures forall i :: 0 <= i < |rows| && !rows[i].review.anonymous ==> entries[i] == FormatEntry(rows[i])
  {
    seq(|rows|, i requires 0 <= i < |rows| => IntendedEntry(rows[i]))
  }

  /** The written and the intended listing differ exactly in the entries of
      anonymous reviews whose author has a university. */
  lemma ListingsDiffer(rows: seq<Row>, i: int)
    requires 0 <= i < |rows|
    ensures IntendedListing(rows)[i] != FormatEntry(rows[i]) <==>
      rows[i].review.anonymous && rows[i].user.university != ""
  {
    if rows[i].review.anonymous && rows[i].user.university != "" {
      assert IntendedListing(rows)[i].author.university == None;
    } else if rows[i].review.anonymous {
      assert IntendedListing(rows)[i] == FormatEntry(rows[i]);
    }
  }

  // ---------------------------------------------------------------------
  // A user's statistics

  function Owner(userId: int): Review -> bool {
    (r: Review) => r.userId == userId
  }

  /** `sum(review.helpful_count or 0 for review in reviews)`. */
  function SumHelpful(reviews: seq<Review>): int {
    if reviews == [] then 0 else HelpfulOf(reviews[0]) + SumHelpful(reviews[1..])
  }

  /** Rows whose id is not `id` are left alone by `mark_helpful(id)`. */
  lemma BumpAbsent(reviews: seq<Review>, id: int)
    requires forall i :: 0 <= i < |reviews| ==> reviews[i].id != id
    ensures BumpHelpful(reviews, id) == reviews
  {
  }

  /** Marking one of a user's reviews helpful raises that user's helpful
      votes by exactly one; marking someone else's leaves them unchanged. */
  lemma {:induction false} MarkHelpfulAddsOneVote(reviews: seq<Review>, id: int, userId: int, k: int)
    requires UniqueIds(reviews) && 0 <= k < |reviews| && reviews[k].id == id
    ensures SumHelpful(Filter(BumpHelpful(reviews, id), Owner(userId)))
         == SumHelpful(Filter(reviews, Owner(userId))) + (if reviews[k].userId == userId then 1 else 0)
    decreases |reviews|
  {
    var head, tail := reviews[0], reviews[1..];
    var bumped := BumpHelpful(reviews, id);
    assert bumped == [bumped[0]] + BumpHelpful(tail, id);
    if k == 0 {
      BumpAbsent(tail, id);
      assert bumped == [Bumped(head)] + tail;
    } else {
      assert head.id != id by {
        assert reviews[0].id != reviews[k].id;
      }
      MarkHelpfulAddsOneVote(tail, id, userId, k - 1);
      assert bumped == [head] + BumpHelpful(tail, id);
    }
  }

  /** `review_text[:100] + '...'` when longer than 100 characters. */
  function Truncate(text: string): (r: string)
    ensures |text| <= 100 ==> r == text
    ensures |text| > 100 ==> |r| == 103 && r[..100] == text[..100] && r[100..] == "..."
  {
    if |text| > 100 then text[..100] + "..." else text
  }

  /** Cutting an already cut text changes nothing. */
  lemma TruncateIdempotent(text: string)
    ensures Truncate(Truncate(text)) == Truncate(text)
  {
    if |text| > 100 {
      var t := Truncate(text);
      assert t[..100] + "..." == t;
    }
  }

  datatype RecentEntry = RecentEntry(id: int, propertyName: string, propertyId: int, overallRating: int,
                                     reviewText: string, helpfulCount: int)

  function RecentOf(review: Review, properties: seq<Property>): (e: RecentEntry)
    ensures e.id == review.id && e.propertyId == review.propertyId && e.overallRating == review.overallRating
    ensures e.reviewText == Truncate(review.reviewText) && e.helpfulCount == HelpfulOf(review)
    ensures FindProperty(properties, review.propertyId).None? ==> e.propertyName == "Unknown Property"
    ensures FindProperty(properties, review.propertyId).Some? ==> e.propertyName == FindProperty(properties, review.propertyId).value.name
  {
    var name := match FindProperty(properties, review.propertyId)
      case Some(p) => p.name
      case None => "Unknown Property";
    RecentEntry(review.id, name, review.propertyId, review.overallRating, Truncate(review.reviewText), HelpfulOf(review))
  }

  /** Python's `s[-n:]`: the last `n` elements, or all of a shorter list. */
  function LastN(s: seq<Review>, n: nat): (r: seq<Review>)
    ensures |r| == if |s| < n then |s| else n
    ensures r == s[|s| - |r|..]
  {
    if |s| < n then s else s[|s| - n..]
  }

  datatype UserStats = UserStats(reviewsCount: nat, helpfulVotes: int, recent: seq<RecentEntry>)

  /** `get_user_review_stats`: the count and helpful votes of the user's
      reviews, and their last three, each with its property's name and its
      text cut to 100 characters. */
  method UserReviewStats(reviews: seq<Review>, properties: seq<Property>, userId: int) returns (stats: UserStats)
    ensures stats.reviewsCount == |Filter(reviews, Owner(userId))|
    ensures stats.helpfulVotes == SumHelpful(Filter(reviews, Owner(userId)))
    ensures |stats.recent| == if stats.reviewsCount < 3 then stats.reviewsCount else 3
    ensures forall i :: 0 <= i < |stats.recent| ==>
      stats.recent[i] == RecentOf(LastN(Filter(reviews, Owner(userId)), 3)[i], properties)
  {
    var mine := Filter(reviews, Owner(userId));
    var total := 0;
    if |mine| > 0 {
      total := SumHelpful(mine);
    }
    var recent := RecentEntries(LastN(mine, 3), properties);
    stats := UserStats(|mine|, total, recent);
  }

  /** The loop over the last reviews: one entry appended per review, in
      order. */
  method RecentEntries(last: seq<Review>, properties: seq<Property>) returns (recent: seq<RecentEntry>)
    ensures |recent| == |last|
    ensures forall i :: 0 <= i < |last| ==> recent[i] == RecentOf(last[i], properties)
  {
    recent := [];
    for i := 0 to |last|
      invariant |recent| == i
      invariant forall j {:trigger recent[j]} :: 0 <= j < i ==> recent[j] == RecentOf(last[j], properties)
    {
      recent := recent + [RecentOf(last[i], properties)];
    }
  }

  // ---------------------------------------------------------------------
  // The review table

  class ReviewTable {
    var reviews: seq<Review>
    var nextId: int

    ghost predicate Valid()
      reads this
    {
      UniqueIds(reviews) && forall i :: 0 <= i < |reviews| ==> reviews[i].id < nextId
    }

    constructor ()
      ensures reviews == [] && Valid()
    {
      reviews := [];
      nextId := 1;
    }

    /** `create_review`: the answer of `CreateReviewSpec`; a stored review
        is appended under the next id. */
    method CreateReview(properties: seq<Property>, userId: int, propertyId: int, body: Option<Payload>)
      returns (status: int, result: CreateResult)
      requires Valid()
      modifies this
      ensures Valid()
      ensures result == CreateReviewSpec(old(reviews), properties, userId, propertyId, old(nextId), body)
      ensures result.Stored? ==> status == 201 && reviews == old(reviews) + [result.review] && nextId == old(nextId) + 1
      ensures result.Refused? ==> status == result.status && reviews == old(reviews) && nextId == old(nextId)
    {
      result := CreateReviewSpec(reviews, properties, userId, propertyId, nextId, body);
      if result.Stored? {
        AppendKeepsIds(reviews, nextId, result.review);
        reviews := reviews + [result.review];
        nextId := nextId + 1;
        status := 201;
      } else {
        status := result.status;
      }
    }

    /** `mark_helpful`: the review's count goes up by one (a missing count
        counting as 0) and is returned; a missing review answers 500. */
    method MarkHelpful(id: int) returns (status: int, count: Option<int>)
      requires Valid()
      modifies this
      ensures Valid() && nextId == old(nextId)
      ensures FindReview(old(reviews), id).None? ==> status == 500 && count == None && reviews == old(reviews)
      ensures FindReview(old(reviews), id).Some? ==>
        status == 200 && reviews == BumpHelpful(old(reviews), id)
        && count == Some(HelpfulOf(FindReview(old(reviews), id).value) + 1)
    {
      var found := FindReview(reviews, id);
      if found.None? {
        return 500, None;
      }
      status, count := 200, Some(HelpfulOf(found.value) + 1);
      BumpKeepsIds(reviews, id, nextId);
      reviews := BumpHelpful(reviews, id);
    }
  }
}

=== FILE: review_form.dfy ===
/** The "write a review" page: seven star ratings, three text areas, a
    recommendation choice and an anonymity checkbox, validated in a fixed
    order before the review is posted. */
module ReviewForm {
  import opened Wrappers
  import opened Text
  import opened Records
  import opened Seqs

  datatype RatingKind = Overall | ValueForMoney | Location | Safety | Cleanliness | Management | Facilities

  datatype ReviewData = ReviewData(
    ratings: map<RatingKind, int>,
    reviewText: string,
    pros: string,
    cons: string,
    recommend: Option<bool>,
    anonymous: bool,
    subject: string)

  /** Every rating starts at 0 ("not given"). */
  const InitialReview := ReviewData(map[], "", "", "", None, false, "")

  function Rating(d: ReviewData, k: RatingKind): int {
    if k in d.ratings then d.ratings[k] else 0
  }

  /** Clicking a star: that rating takes the star's number, nothing else changes. */
  function WithRating(d: ReviewData, k: RatingKind, value: int): (r: ReviewData)
    ensures Rating(r, k) == value
    ensures forall j :: j != k ==> Rating(r, j) == Rating(d, j)
    ensures r.reviewText == d.reviewText && r.pros == d.pros && r.cons == d.cons
    ensures r.recommend == d.recommend && r.anonymous == d.anonymous && r.subject == d.subject
  {
    d.(ratings := d.ratings[k := value])
  }

  datatype TextName = ReviewText | Pros | Cons

  /** A change event from a text area or from the anonymity checkbox. */
  datatype InputEvent = TextChanged(name: TextName, value: string) | AnonymousChecked(checked: bool)

  /** `handleInputChange`: a checkbox writes its checked state, a text area
      its value, into the named field only. */
  function ApplyInput(d: ReviewData, e: InputEvent): (r: ReviewData)
    ensures r.ratings == d.ratings && r.recommend == d.recommend && r.subject == d.subject
    ensures e.AnonymousChecked? ==> r == d.(anonymous := e.checked)
    ensures e.TextChanged? ==> r.anonymous == d.anonymous
    ensures e.TextChanged? && e.name == ReviewText ==> r.reviewText == e.value && r.pros == d.pros && r.cons == d.cons
    ensures e.TextChanged? && e.name == Pros ==> r.pros == e.value && r.reviewText == d.reviewText && r.cons == d.cons
    ensures e.TextChanged? && e.name == Cons ==> r.cons == e.value && r.reviewText == d.reviewText && r.pros == d.pros
  {
    match e
    case AnonymousChecked(checked) => d.(anonymous := checked)
    case TextChanged(name, value) =>
      match name
      case ReviewText => d.(reviewText := value)
      case Pros => d.(pros := value)
      case Cons => d.(cons := value)
  }

  const MinReviewLength := 50

  datatype ReviewError = NoOverallRating | ReviewTooShort | NoRecommendation

  function Message(e: ReviewError): string {
    match e
    case NoOverallRating => "Please provide an overall rating"
    case ReviewTooShort => "Please write at least 50 characters in your review"
    case NoRecommendation => "Please indicate if you would recommend this property"
  }

  /** `validateForm`: the first of the three checks that fails. */
  function FirstError(d: ReviewData): Option<ReviewError> {
    if Rating(d, Overall) == 0 then Some(NoOverallRating)
    else if Utf16Length(Trim(d.reviewText)) < MinReviewLength then Some(ReviewTooShort)
    else if d.recommend.None? then Some(NoRecommendation)
    else None
  }

  /** The form is accepted exactly when an overall rating is given, the
      trimmed text has 50 code units, and a recommendation is chosen; each
      error is reported only when the checks before it pass. */
  lemma FirstErrorOrder(d: ReviewData)
    ensures FirstError(d) == None <==>
      (Rating(d, Overall) != 0 && Utf16Length(Trim(d.reviewText)) >= MinReviewLength && d.recommend.Some?)
    ensures FirstError(d) == Some(NoOverallRating) <==> Rating(d, Overall) == 0
    ensures FirstError(d) == Some(ReviewTooShort) <==>
      Rating(d, Overall) != 0 && Utf16Length(Trim(d.reviewText)) < MinReviewLength
    ensures FirstError(d) == Some(NoRecommendation) <==>
      Rating(d, Overall) != 0 && Utf16Length(Trim(d.reviewText)) >= MinReviewLength && d.recommend.None?
  {
  }

  /** The subject line added on submit. A missing or empty property name
      falls back to a generic subject. */
  function Subject(propertyName: Option<string>): (r: string)
    ensures propertyName.Some? && propertyName.value != "" ==> r == "Review for " + propertyName.value
    ensures propertyName.None? || propertyName.value == "" ==> r == "Property Review"
  {
    if propertyName.Some? && propertyName.value != "" then "Review for " + propertyName.value
    else "Property Review"
  }

  /** The data posted: the form as it is, with only the subject replaced. */
  function SubmitData(d: ReviewData, propertyName: Option<string>): (r: ReviewData)
    ensures r.subject == Subject(propertyName) && r.(subject := d.subject) == d
    ensures FirstError(r) == FirstError(d)
  {
    d.(subject := Subject(propertyName))
  }

  /** The JSON key of each rating. */
  function RatingKey(k: RatingKind): string {
    match k
    case Overall => "overall_rating"
    case ValueForMoney => "value_rating"
    case Location => "location_rating"
    case Safety => "safety_rating"
    case Cleanliness => "cleanliness_rating"
    case Management => "management_rating"
    case Facilities => "facilities_rating"
  }

  /** The JSON body the page sends. */
  function ToPayload(d: ReviewData): (p: Payload)
    ensures forall k :: RatingKey(k) in p && p[RatingKey(k)] == JInt(Rating(d, k))
    ensures "review_text" in p && p["review_text"] == JStr(d.reviewText)
    ensures "pros" in p && p["pros"] == JStr(d.pros) && "cons" in p && p["cons"] == JStr(d.cons)
    ensures "recommend" in p && p["recommend"] == (if d.recommend.Some? then JBool(d.recommend.value) else JNull)
    ensures "anonymous" in p && p["anonymous"] == JBool(d.anonymous)
    ensures "subject" in p && p["subject"] == JStr(d.subject)
  {
    map["overall_rating" := JInt(Rating(d, Overall)), "value_rating" := JInt(Rating(d, ValueForMoney)),
        "location_rating" := JInt(Rating(d, Location)), "safety_rating" := JInt(Rating(d, Safety)),
        "cleanliness_rating" := JInt(Rating(d, Cleanliness)), "management_rating" := JInt(Rating(d, Management)),
        "facilities_rating" := JInt(Rating(d, Facilities)),
        "review_text" := JStr(d.reviewText), "pros" := JStr(d.pros), "cons" := JStr(d.cons),
        "recommend" := (if d.recommend.Some? then JBool(d.recommend.value) else JNull),
        "anonymous" := JBool(d.anonymous), "subject" := JStr(d.subject)]
  }

  // ---------------------------------------------------------------------
  // Star rows

  const Stars: seq<int> := [1, 2, 3, 4, 5]

  /** Star `star` of a row showing `rating` is lit. */
  predicate Lit(star: int, rating: int) {
    star <= rating
  }

  function LitUnder(rating: int): int -> bool {
    star => Lit(star, rating)
  }

  /** The lit stars of a row are exactly the first `rating` of them, clamped
      to the five stars. */
  lemma LitStarsArePrefix(rating: int)
    ensures Filter(Stars, LitUnder(rating)) == Stars[..if rating < 0 then 0 else if rating > 5 then 5 else rating]
  {
    var n := if rating < 0 then 0 else if rating > 5 then 5 else rating;
    assert Stars == Stars[..n] + Stars[n..];
    FilterKeepsAll(Stars[..n], LitUnder(rating));
    FilterDropsAll(Stars[n..], rating);
    FilterAppend(Stars[..n], Stars[n..], LitUnder(rating));
  }

  lemma {:induction false} FilterDropsAll(s: seq<int>, rating: int)
    requires forall i :: 0 <= i < |s| ==> s[i] > rating
    ensures Filter(s, LitUnder(rating)) == []
    decreases |s|
  {
    if s != [] {
      FilterDropsAll(s[1..], rating);
    }
  }

  // ---------------------------------------------------------------------
  // The page

  /** The three checks of `validateForm` in order, stopping at the first
      that fails. */
  method FailedCheck(d: ReviewData) returns (failed: Option<ReviewError>)
    ensures failed == FirstError(d)
  {
    failed := None;
    if Rating(d, Overall) == 0 {
      failed := Some(NoOverallRating);
    } else if Utf16Length(Trim(d.reviewText)) < MinReviewLength {
      failed := Some(ReviewTooShort);
    } else if d.recommend.None? {
      failed := Some(NoRecommendation);
    }
  }

  class CreateReviewPage {
    var reviewData: ReviewData
    var error: string
    var submitting: bool
    var success: bool

    constructor ()
      ensures reviewData == InitialReview && error == "" && !submitting && !success
    {
      reviewData := InitialReview;
      error := "";
      submitting := false;
      success := false;
    }

    method HandleRatingChange(k: RatingKind, value: int)
      modifies this
      ensures reviewData == WithRating(old(reviewData), k, value)
      ensures error == old(error) && submitting == old(submitting) && success == old(success)
    {
      reviewData := WithRating(reviewData, k, value);
    }

    method HandleInputChange(e: InputEvent)
      modifies this
      ensures reviewData == ApplyInput(old(reviewData), e)
      ensures error == old(error) && submitting == old(submitting) && success == old(success)
    {
      reviewData := ApplyInput(reviewData, e);
    }

    /** The inline `onChange` of the two recommendation radio buttons. */
    method ChooseRecommend(choice: bool)
      modifies this
      ensures reviewData == old(reviewData).(recommend := Some(choice))
      ensures error == old(error) && submitting == old(submitting) && success == old(success)
    {
      reviewData := reviewData.(recommend := Some(choice));
    }

    /** `validateForm`: true when every check passes; otherwise the first
        failure's message becomes the error. */
    method ValidateForm() returns (ok: bool)
      modifies this
      ensures ok <==> FirstError(reviewData) == None
      ensures ok ==> error == old(error)
      ensures !ok ==> error == Message(FirstError(reviewData).value)
      ensures reviewData == old(reviewData) && submitting == old(submitting) && success == old(success)
    {
      var failed := FailedCheck(reviewData);
      if failed.Some? {
        error := Message(failed.value);
        return false;
      }
      return true;
    }

    /** Pressing "Submit": the error clears and validation runs; when it
        passes, the form with its subject is sent (as `ToPayload` of it)
        and `submitting` goes up. */
    method HandleSubmit(propertyName: Option<string>) returns (sent: Option<ReviewData>)
      modifies this
      ensures sent.Some? <==> FirstError(reviewData) == None
      ensures sent.Some? ==> sent.value == SubmitData(reviewData, propertyName) && error == "" && submitting
      ensures sent.None? ==> error == Message(FirstError(reviewData).value) && submitting == old(submitting)
      ensures reviewData == old(reviewData) && success == old(success)
    {
      error := "";
      var ok := ValidateForm();
      if !ok {
        return None;
      }
      sent := Some(SubmitData(reviewData, propertyName));
      submitting := true;
    }

    /** The request settles: success, or the backend's answer shown as the
        error; `submitting` comes down either way. */
    method SettleSubmit(failure: Option<string>)
      modifies this
      ensures !submitting
      ensures failure.None? ==> success && error == old(error)
      ensures failure.Some? ==> error == "Backend error: " + failure.value && success == old(success)
      ensures reviewData == old(reviewData)
    {
      if failure.Some? {
        error := "Backend error: " + failure.value;
      } else {
        success := true;
      }
      submitting := false;
    }
  }
}

=== FILE: reviews_page.dfy ===
/** The public reviews page: a filter record sent as query parameters, the
    colour and university badges of each card, the recommendation count,
    and marking a review helpful once per page visit: the marked set is
    read from storage when the page opens, replaced by the server's list
    after each listing fetch, and never written back. */
module ReviewsPage {
  import opened Wrappers
  import opened Text
  import opened Records
  import opened Seqs

  datatype ReviewFilters = ReviewFilters(university: string, rating: string, search: string, page: int)

  const DefaultFilters := ReviewFilters("all", "all", "", 1)

  /** One call of `handleFilterChange(key, value)`. */
  datatype FilterChange = SetUniversity(university: string) | SetRating(rating: string)
                        | SetSearch(search: string) | SetPage(page: int)

  /** `handleFilterChange` as written: the key takes its value and then the
      page is forced back to 1 — also when the key is `page` itself. */
  function ApplyFilterChange(f: ReviewFilters, c: FilterChange): (r: ReviewFilters)
    ensures r.page == 1
    ensures c.SetUniversity? ==> r == f.(university := c.university, page := 1)
    ensures c.SetRating? ==> r == f.(rating := c.rating, page := 1)
    ensures c.SetSearch? ==> r == f.(search := c.search, page := 1)
    ensures c.SetPage? ==> r == f.(page := 1)
  {
    var updated := match c
      case SetUniversity(u) => f.(university := u)
      case SetRating(x) => f.(rating := x)
      case SetSearch(s) => f.(search := s)
      case SetPage(p) => f.(page := p);
    updated.(page := 1)
  }

  /** The Previous and Next buttons. */
  function PreviousPage(f: ReviewFilters): FilterChange {
    SetPage(if f.page - 1 < 1 then 1 else f.page - 1)
  }

  function NextPage(f: ReviewFilters, totalPages: int): FilterChange {
    SetPage(if totalPages < f.page + 1 then totalPages else f.page + 1)
  }

  function ApplyAll(f: ReviewFilters, changes: seq<FilterChange>): ReviewFilters
    decreases |changes|
  {
    if changes == [] then f else ApplyAll(ApplyFilterChange(f, changes[0]), changes[1..])
  }

  /** Whatever the user clicks, Previous and Next included, the page
      requested stays 1: the listing never shows a second page. */
  lemma {:induction false} PageStaysFirst(f: ReviewFilters, changes: seq<FilterChange>)
    requires f.page == 1
    ensures ApplyAll(f, changes).page == 1
    decreases |changes|
  {
    if changes != [] {
      PageStaysFirst(ApplyFilterChange(f, changes[0]), changes[1..]);
    }
  }

  /** Next on page 1 of several pages leaves the filters exactly as they were. */
  lemma NextDoesNotMove(f: ReviewFilters, totalPages: int)
    requires f.page == 1 && totalPages > 1
    ensures NextPage(f, totalPages) == SetPage(2)
    ensures ApplyFilterChange(f, NextPage(f, totalPages)) == f
  {
  }

  /** The query string of `fetchReviews`, as key/value pairs in order. */
  function QueryParams(f: ReviewFilters): (r: seq<(string, string)>)
    ensures |r| >= 2 && r[|r| - 2] == ("page", IntString(f.page)) && r[|r| - 1] == ("per_page", "12")
    ensures ("university", f.university) in r <==> f.university != "all"
    ensures ("min_rating", f.rating) in r <==> f.rating != "all"
    ensures ("search", f.search) in r <==> f.search != ""
  {
    (if f.university != "all" then [("university", f.university)] else [])
    + (if f.rating != "all" then [("min_rating", f.rating)] else [])
    + (if f.search != "" then [("search", f.search)] else [])
    + [("page", IntString(f.page)), ("per_page", "12")]
  }

  /** With the default filters only the page and page size are sent. */
  lemma DefaultQuery()
    ensures QueryParams(DefaultFilters) == [("page", "1"), ("per_page", "12")]
  {
  }

  datatype Badge = Green | Yellow | Red

  /** `getRatingColor`. */
  function RatingColor(rating: int): (b: Badge)
    ensures b == Green <==> rating >= 4
    ensures b == Yellow <==> 3 <= rating < 4
    ensures b == Red <==> rating < 3
  {
    if rating >= 4 then Green else if rating >= 3 then Yellow else Red
  }

  /** A higher rating never gets a worse badge. */
  lemma RatingColorMonotone(a: int, b: int)
    requires a <= b
    ensures RatingColor(a) == Green ==> RatingColor(b) == Green
    ensures RatingColor(b) == Red ==> RatingColor(a) == Red
  {
  }

  /** `getUniversityDisplay`: `''` for a missing or empty name, the two
      known universities by name, anything else upper-cased. */
  function UniversityDisplay(university: Option<string>): (r: string)
    ensures university.None? || university.value == "" ==> r == ""
  {
    if university.None? || university.value == "" then ""
    else if ToLower(university.value) == "wits" then "WITS"
    else if ToLower(university.value) == "uj" then "UJ"
    else ToUpper(university.value)
  }

  lemma UpperOfLowered(c: char, l: char)
    requires LowerChar(c) == l && 'a' <= l <= 'z'
    ensures UpperChar(c) == UpperChar(l)
  {
  }

  /** Two strings with the same lower-case form have the same upper-case form. */
  lemma SameUpper(s: string, t: string)
    requires ToLower(s) == t && forall i :: 0 <= i < |t| ==> 'a' <= t[i] <= 'z'
    ensures ToUpper(s) == ToUpper(t)
  {
    forall i | 0 <= i < |s|
      ensures ToUpper(s)[i] == ToUpper(t)[i]
    {
      UpperOfLowered(s[i], t[i]);
    }
  }

  /** The two special cases are what upper-casing gives anyway: the badge is
      always the upper-cased name. */
  lemma UniversityDisplayIsUpper(university: string)
    ensures UniversityDisplay(Some(university)) == ToUpper(university)
  {
    if ToLower(university) == "wits" {
      SameUpper(university, "wits");
    } else if ToLower(university) == "uj" {
      SameUpper(university, "uj");
    }
  }

  /** A review card as the page holds it, from the listing's JSON. */
  datatype ReviewItem = ReviewItem(id: int, helpfulCount: Json, recommend: Json, wouldRecommend: Json)

  /** `r.recommend || r.would_recommend`, with JavaScript's truthiness. */
  function Recommends(r: ReviewItem): bool {
    JsTruthy(r.recommend) || JsTruthy(r.wouldRecommend)
  }

  function NotRecommends(r: ReviewItem): bool {
    !Recommends(r)
  }

  /** `recommendationCount`. */
  function RecommendationCount(reviews: seq<ReviewItem>): (n: nat)
    ensures n <= |reviews|
  {
    |Filter(reviews, Recommends)|
  }

  /** Every card either counts as recommending or not. */
  lemma RecommendationPartition(reviews: seq<ReviewItem>)
    ensures RecommendationCount(reviews) + |Filter(reviews, NotRecommends)| == |reviews|
  {
    FilterSplit(reviews, Recommends, NotRecommends);
  }

  /** `prevReviews.map(...)`: the card with `id` takes the new count. */
  function WithHelpfulCount(reviews: seq<ReviewItem>, id: int, count: Json): (r: seq<ReviewItem>)
    ensures |r| == |reviews|
    ensures forall i :: 0 <= i < |r| && reviews[i].id == id ==> r[i] == reviews[i].(helpfulCount := count)
    ensures forall i :: 0 <= i < |r| && reviews[i].id != id ==> r[i] == reviews[i]
  {
    seq(|reviews|, i requires 0 <= i < |reviews| =>
      if reviews[i].id == id then reviews[i].(helpfulCount := count) else reviews[i])
  }

  /** Updating one card's count leaves the recommendation count alone. */
  lemma HelpfulKeepsRecommendations(reviews: seq<ReviewItem>, id: int, count: Json)
    ensures RecommendationCount(WithHelpfulCount(reviews, id, count)) == RecommendationCount(reviews)
  {
    var updated := WithHelpfulCount(reviews, id, count);
    SameRecommendCount(reviews, updated);
  }

  lemma {:induction false} SameRecommendCount(a: seq<ReviewItem>, b: seq<ReviewItem>)
    requires |a| == |b| && forall i :: 0 <= i < |a| ==> Recommends(a[i]) == Recommends(b[i])
    ensures |Filter(a, Recommends)| == |Filter(b, Recommends)|
    decreases |a|
  {
    if a != [] {
      SameRecommendCount(a[1..], b[1..]);
    }
  }

  const NotLoggedIn := "Please login to mark reviews as helpful"
  const AlreadyMarked := "You have already marked this review as helpful"
  const MarkFailed := "Failed to mark as helpful"

  /** How the helpful request ended: the server's answer, or a request that
      threw before one arrived. */
  datatype HelpfulResponse = HelpfulOk(count: Json) | HelpfulRefused(error: string) | RequestThrew(message: string)

  /** The alert shown when marking fails. */
  function FailureAlert(response: HelpfulResponse): string
    requires !response.HelpfulOk?
  {
    match response
    case HelpfulRefused(error) => if error != "" then error else MarkFailed
    case RequestThrew(message) => if message != "" then message else "Failed to mark review as helpful"
  }

  class ReviewsView {
    var reviews: seq<ReviewItem>
    var filters: ReviewFilters
    var markedHelpful: set<int>

    constructor (reviews: seq<ReviewItem>, markedHelpful: set<int>)
      ensures this.reviews == reviews && this.markedHelpful == markedHelpful && filters == DefaultFilters
    {
      this.reviews := reviews;
      this.markedHelpful := markedHelpful;
      filters := DefaultFilters;
    }

    method HandleFilterChange(c: FilterChange)
      modifies this
      ensures filters == ApplyFilterChange(old(filters), c)
      ensures reviews == old(reviews) && markedHelpful == old(markedHelpful)
    {
      filters := ApplyFilterChange(filters, c);
    }

    /** "Clear all filters". */
    method ClearFilters()
      modifies this
      ensures filters == DefaultFilters
      ensures reviews == old(reviews) && markedHelpful == old(markedHelpful)
    {
      filters := DefaultFilters;
    }

    /** The answer of `fetchReviews`: the fetched cards, or none when the
        request failed or the answer had neither shape the page knows. */
    method ReceiveReviews(fetched: Option<seq<ReviewItem>>)
      modifies this
      ensures reviews == (if fetched.Some? then fetched.value else [])
      ensures filters == old(filters) && markedHelpful == old(markedHelpful)
    {
      reviews := if fetched.Some? then fetched.value else [];
    }

    /** `checkHelpfulStatus`: with a token and at least one card, a
        successful answer replaces the marked set with the server's list;
        otherwise the set is kept. */
    method ReceiveHelpfulStatus(token: Option<string>, requested: seq<int>, answer: Option<seq<int>>)
      modifies this
      ensures token.Some? && token.value != "" && requested != [] && answer.Some? ==>
        markedHelpful == set i | i in answer.value
      ensures !(token.Some? && token.value != "" && requested != [] && answer.Some?) ==>
        markedHelpful == old(markedHelpful)
      ensures reviews == old(reviews) && filters == old(filters)
    {
      if token.Some? && token.value != "" && requested != [] && answer.Some? {
        markedHelpful := set i | i in answer.value;
      }
    }

    /** The first half of `handleMarkHelpful`: without a token, or for a
        review already marked during this visit (or in the set read at
        start), nothing is sent and an
        alert explains why. */
    method RequestMarkHelpful(id: int, token: Option<string>) returns (send: bool, alert: Option<string>)
      ensures send <==> token.Some? && token.value != "" && id !in markedHelpful
      ensures (token.None? || token.value == "") ==> alert == Some(NotLoggedIn)
      ensures token.Some? && token.value != "" && id in markedHelpful ==> alert == Some(AlreadyMarked)
      ensures send ==> alert.None?
    {
      if token.None? || token.value == "" {
        return false, Some(NotLoggedIn);
      }
      if id in markedHelpful {
        return false, Some(AlreadyMarked);
      }
      return true, None;
    }

    /** The second half: on success only the target card's count changes
        and the id joins `markedHelpful`; on failure nothing changes. */
    method SettleMarkHelpful(id: int, response: HelpfulResponse) returns (alert: Option<string>)
      modifies this
      ensures response.HelpfulOk? ==>
        reviews == WithHelpfulCount(old(reviews), id, response.count)
        && markedHelpful == old(markedHelpful) + {id} && alert.None?
      ensures !response.HelpfulOk? ==>
        reviews == old(reviews) && markedHelpful == old(markedHelpful) && alert == Some(FailureAlert(response))
      ensures filters == old(filters)
    {
      if response.HelpfulOk? {
        reviews := WithHelpfulCount(reviews, id, response.count);
        markedHelpful := markedHelpful + {id};
        alert := None;
      } else {
        alert := Some(FailureAlert(response));
      }
    }
  }
}

=== FILE: seqs.dfy ===
/** `Array.prototype.filter` and the SQL `WHERE` clause, as a function on
    sequences, with the facts the rest of the model uses about it. */
module Seqs {

  /** The elements of `s` satisfying `p`, in their original order. */
  function Filter<T(==)>(s: seq<T>, p: T -> bool): (r: seq<T>)
    ensures |r| <= |s|
    ensures forall i :: 0 <= i < |r| ==> p(r[i]) && r[i] in s
  {
    if s == [] then []
    else if p(s[0]) then [s[0]] + Filter(s[1..], p)
    else Filter(s[1..], p)
  }

  /** Every element that satisfies `p` survives the filter. */
  lemma {:induction false} FilterKeepsMatches<T>(s: seq<T>, p: T -> bool)
    ensures forall i :: 0 <= i < |s| && p(s[i]) ==> s[i] in Filter(s, p)
    decreases |s|
  {
    if s != [] {
      FilterKeepsMatches(s[1..], p);
      forall i | 1 <= i < |s| && p(s[i]) ensures s[i] in Filter(s, p) {
        assert s[i] == s[1..][i - 1];
      }
    }
  }

  /** `a` can be obtained from `b` by deleting elements (order is kept). */
  predicate IsSubsequence<T(==)>(a: seq<T>, b: seq<T>)
    decreases |b|
  {
    a == [] || (b != [] && if a[0] == b[0] then IsSubsequence(a[1..], b[1..]) else IsSubsequence(a, b[1..]))
  }

  /** Filtering only deletes: what remains keeps its relative order. */
  lemma {:induction false} FilterIsSubsequence<T>(s: seq<T>, p: T -> bool)
    ensures IsSubsequence(Filter(s, p), s)
    decreases |s|
  {
    if s != [] {
      FilterIsSubsequence(s[1..], p);
      var r := Filter(s[1..], p);
      if !p(s[0]) {
        SubsequenceDropHead(r, s);
      }
    }
  }

  lemma {:induction false} SubsequenceDropHead<T>(a: seq<T>, b: seq<T>)
    requires b != [] && IsSubsequence(a, b[1..])
    ensures IsSubsequence(a, b)
    decreases |b|, 0
  {
    if a != [] && a[0] == b[0] {
      SubsequenceTail(a, b[1..]);
    }
  }

  lemma {:induction false} SubsequenceTail<T>(a: seq<T>, b: seq<T>)
    requires a != [] && IsSubsequence(a, b)
    ensures IsSubsequence(a[1..], b)
    decreases |b|, 1
  {
    if a[0] != b[0] {
      SubsequenceTail(a, b[1..]);
    }
    SubsequenceDropHead(a[1..], b);
  }

  /** A filter that every element passes changes nothing. */
  lemma {:induction false} FilterKeepsAll<T>(s: seq<T>, p: T -> bool)
    requires forall i :: 0 <= i < |s| ==> p(s[i])
    ensures Filter(s, p) == s
    decreases |s|
  {
    if s != [] {
      FilterKeepsAll(s[1..], p);
    }
  }

  /** Two filters that agree on every element of `s` select the same elements. */
  lemma {:induction false} FilterAgree<T>(s: seq<T>, p: T -> bool, q: T -> bool)
    requires forall i :: 0 <= i < |s| ==> p(s[i]) == q(s[i])
    ensures Filter(s, p) == Filter(s, q)
    decreases |s|
  {
    if s != [] {
      FilterAgree(s[1..], p, q);
    }
  }

  /** Filtering twice is filtering once by the conjunction. */
  lemma {:induction false} FilterThen<T>(s: seq<T>, p: T -> bool, q: T -> bool, both: T -> bool)
    requires forall x :: both(x) == (p(x) && q(x))
    ensures Filter(Filter(s, p), q) == Filter(s, both)
    decreases |s|
  {
    if s != [] {
      FilterThen(s[1..], p, q, both);
    }
  }

  lemma {:induction false} FilterAppend<T>(a: seq<T>, b: seq<T>, p: T -> bool)
    ensures Filter(a + b, p) == Filter(a, p) + Filter(b, p)
    decreases |a|
  {
    if a != [] {
      assert (a + b)[1..] == a[1..] + b;
      FilterAppend(a[1..], b, p);
    } else {
      assert a + b == b;
    }
  }

  /** Every element passes exactly one of `p` and its negation. */
  lemma {:induction false} FilterSplit<T>(s: seq<T>, p: T -> bool, notP: T -> bool)
    requires forall x :: notP(x) == !p(x)
    ensures |Filter(s, p)| + |Filter(s, notP)| == |s|
    decreases |s|
  {
    if s != [] {
      FilterSplit(s[1..], p, notP);
    }
  }

  /** `s` is what comes before position `i`, the element there, and what follows. */
  lemma SplitAround<T>(s: seq<T>, i: int)
    requires 0 <= i < |s|
    ensures s == s[..i] + ([s[i]] + s[i+1..])
  {
  }

  /** A head that fails `p` is dropped. */
  lemma FilterDropsHead<T>(x: T, rest: seq<T>, p: T -> bool)
    requires !p(x)
    ensures Filter([x] + rest, p) == Filter(rest, p)
  {
    assert ([x] + rest)[1..] == rest;
  }

  /** When exactly the element at `i` fails `p`, filtering removes just that position. */
  lemma FilterRemovesOne<T>(s: seq<T>, p: T -> bool, i: int)
    requires 0 <= i < |s| && !p(s[i])
    requires forall j :: 0 <= j < |s| && j != i ==> p(s[j])
    ensures Filter(s, p) == s[..i] + s[i+1..]
  {
    var pre, post := s[..i], s[i+1..];
    SplitAround(s, i);
    forall j | 0 <= j < |pre| ensures p(pre[j]) {
      assert pre[j] == s[j];
    }
    forall j | 0 <= j < |post| ensures p(post[j]) {
      assert post[j] == s[i + 1 + j];
    }
    FilterKeepsAll(pre, p);
    FilterKeepsAll(post, p);
    FilterDropsHead(s[i], post, p);
    FilterAppend(pre, [s[i]] + post, p);
  }
}

=== FILE: text.dfy ===
/** String helpers shared by the JavaScript pages and the Python routes:
    trimming, ASCII case mapping, prefix/suffix/substring tests, digit strings.
    Case mapping and whitespace cover ASCII only. */
module Text {
  import opened Wrappers

  /** The whitespace that both `String.prototype.trim` and `str.strip`
      remove, restricted to ASCII. */
  predicate IsSpace(c: char) {
    c == ' ' || c == '\t' || c == '\n' || c == '\r' || c == '\U{0B}' || c == '\U{0C}'
  }

  predicate IsBlank(s: string) {
    forall i :: 0 <= i < |s| ==> IsSpace(s[i])
  }

  function TrimStart(s: string): (r: string)
    ensures |r| <= |s| && r == s[|s| - |r|..]
    ensures forall i :: 0 <= i < |s| - |r| ==> IsSpace(s[i])
    ensures r == [] || !IsSpace(r[0])
  {
    if s != [] && IsSpace(s[0]) then TrimStart(s[1..]) else s
  }

  function TrimEnd(s: string): (r: string)
    ensures |r| <= |s| && r == s[..|r|]
    ensures forall i :: |r| <= i < |s| ==> IsSpace(s[i])
    ensures r == [] || !IsSpace(r[|r| - 1])
  {
    if s != [] && IsSpace(s[|s| - 1]) then TrimEnd(s[..|s| - 1]) else s
  }

  /** `s.trim()` in JavaScript, `s.strip()` in Python: the result is empty
      exactly when the input is blank, and otherwise starts and ends with a
      non-space character. */
  function Trim(s: string): (r: string)
    ensures |r| <= |s|
    ensures r == [] <==> IsBlank(s)
    ensures r != [] ==> !IsSpace(r[0]) && !IsSpace(r[|r| - 1])
  {
    TrimEnd(TrimStart(s))
  }

  /** A string that neither starts nor ends with a space trims to itself. */
  lemma TrimUnpadded(s: string)
    requires s == [] || (!IsSpace(s[0]) && !IsSpace(s[|s| - 1]))
    ensures Trim(s) == s
  {
  }

  function LowerChar(c: char): char {
    if 'A' <= c <= 'Z' then (c as int + 32) as char else c
  }

  function UpperChar(c: char): char {
    if 'a' <= c <= 'z' then (c as int - 32) as char else c
  }

  /** `toLowerCase()` / `lower()`, on ASCII letters. */
  function ToLower(s: string): (r: string)
    ensures |r| == |s|
    ensures forall i :: 0 <= i < |s| ==> r[i] == LowerChar(s[i])
  {
    seq(|s|, i requires 0 <= i < |s| => LowerChar(s[i]))
  }

  /** `toUpperCase()`, on ASCII letters. */
  function ToUpper(s: string): (r: string)
    ensures |r| == |s|
    ensures forall i :: 0 <= i < |s| ==> r[i] == UpperChar(s[i])
  {
    seq(|s|, i requires 0 <= i < |s| => UpperChar(s[i]))
  }

  lemma ToLowerIdempotent(s: string)
    ensures ToLower(ToLower(s)) == ToLower(s)
  {
  }

  lemma ToLowerAppend(a: string, b: string)
    ensures ToLower(a + b) == ToLower(a) + ToLower(b)
  {
  }

  /** Trimming then lower-casing, the normal form both sides give an email. */
  function TrimLower(s: string): (r: string)
    ensures |r| <= |s|
  {
    ToLower(Trim(s))
  }

  /** Lower-casing neither makes nor unmakes a space. */
  lemma LowerKeepsSpace(c: char)
    ensures IsSpace(LowerChar(c)) == IsSpace(c)
  {
  }

  /** Lower-casing a string that is not padded leaves it unpadded. */
  lemma LowerUnpadded(t: string)
    requires t == [] || (!IsSpace(t[0]) && !IsSpace(t[|t| - 1]))
    ensures Trim(ToLower(t)) == ToLower(t)
  {
    var l := ToLower(t);
    if t != [] {
      LowerKeepsSpace(t[0]);
      LowerKeepsSpace(t[|t| - 1]);
      assert l[0] == LowerChar(t[0]) && l[|l| - 1] == LowerChar(t[|t| - 1]);
    }
    TrimUnpadded(l);
  }

  /** Normalising an already normalised string changes nothing. */
  lemma TrimLowerIdempotent(s: string)
    ensures TrimLower(TrimLower(s)) == TrimLower(s)
  {
    var t := Trim(s);
    LowerUnpadded(t);
    ToLowerIdempotent(t);
  }

  predicate IsPrefix(p: string, s: string) {
    |p| <= |s| && s[..|p|] == p
  }

  /** `s.endsWith(suffix)` */
  predicate EndsWith(s: string, suffix: string) {
    |suffix| <= |s| && s[|s| - |suffix|..] == suffix
  }

  /** `s.includes(sub)` / Python's `sub in s`. */
  predicate Contains(s: string, sub: string)
    decreases |s|
  {
    IsPrefix(sub, s) || (s != [] && Contains(s[1..], sub))
  }

  /** SQL `column ILIKE '%sub%'` for a `sub` free of wildcards: a
      case-insensitive substring test. */
  predicate ContainsIgnoreCase(s: string, sub: string) {
    Contains(ToLower(s), ToLower(sub))
  }

  /** `sub` occurs in `s` at index `i`. */
  predicate OccursAt(s: string, sub: string, i: int) {
    0 <= i && i + |sub| <= |s| && s[i..i + |sub|] == sub
  }

  /** A slice of the tail is the slice one further along. */
  lemma SliceOfTail(s: string, i: int, n: int)
    requires 0 <= i && 0 <= n && i + n < |s|
    ensures s[1..][i..i + n] == s[i + 1..i + 1 + n]
  {
    var left, right := s[1..][i..i + n], s[i + 1..i + 1 + n];
    forall k | 0 <= k < n ensures left[k] == right[k] {
    }
    assert left == right;
  }

  /** An occurrence in the tail is an occurrence one further along. */
  lemma OccursFromTail(s: string, sub: string, i: int)
    requires s != [] && OccursAt(s[1..], sub, i)
    ensures OccursAt(s, sub, i + 1)
  {
    SliceOfTail(s, i, |sub|);
  }

  /** An occurrence past the start is an occurrence in the tail. */
  lemma OccursInTail(s: string, sub: string, i: int)
    requires OccursAt(s, sub, i) && i > 0
    ensures OccursAt(s[1..], sub, i - 1)
  {
    SliceOfTail(s, i - 1, |sub|);
  }

  /** `Contains` holds exactly when `sub` occurs at some index. */
  lemma {:induction false} ContainsIffOccurs(s: string, sub: string)
    ensures Contains(s, sub) <==> exists i :: OccursAt(s, sub, i)
    decreases |s|
  {
    if IsPrefix(sub, s) {
      assert OccursAt(s, sub, 0);
    }
    if exists i :: OccursAt(s, sub, i) {
      var i :| OccursAt(s, sub, i);
      if i > 0 {
        OccursInTail(s, sub, i);
      } else {
        assert IsPrefix(sub, s);
      }
    }
    if s != [] {
      ContainsIffOccurs(s[1..], sub);
      if exists i :: OccursAt(s[1..], sub, i) {
        var i :| OccursAt(s[1..], sub, i);
        OccursFromTail(s, sub, i);
      }
    }
  }

  /** Index of the first occurrence of `c`, if any. */
  function IndexOf(s: string, c: char): (r: Option<nat>)
    ensures r.None? <==> c !in s
    ensures r.Some? ==> r.value < |s| && s[r.value] == c && c !in s[..r.value]
  {
    if s == [] then None
    else if s[0] == c then Some(0)
    else
      var rest := IndexOf(s[1..], c);
      assert s[1..] == s[1..];
      if rest.None? then None
      else
        assert s[..rest.value + 1] == [s[0]] + s[1..][..rest.value];
        Some(rest.value + 1)
  }

  /** The first `c` after a `c`-free prefix is at the end of that prefix. */
  lemma {:induction false} IndexOfAfter(p: string, c: char, rest: string)
    requires c !in p
    ensures IndexOf(p + [c] + rest, c) == Some(|p|)
    decreases |p|
  {
    if p != [] {
      assert (p + [c] + rest)[1..] == p[1..] + [c] + rest;
      IndexOfAfter(p[1..], c, rest);
    }
  }

  /** `s.split(c)[0]`: the text before the first `c`, or all of `s`. */
  function BeforeFirst(s: string, c: char): (r: string)
    ensures IsPrefix(r, s) && c !in r
    ensures |r| < |s| ==> s[|r|] == c
  {
    match IndexOf(s, c)
    case None => s
    case Some(i) => s[..i]
  }

  /** `String.prototype.length`: UTF-16 code units, two for each character
      outside the Basic Multilingual Plane. */
  function Utf16Length(s: string): (n: nat)
    ensures |s| <= n <= 2 * |s|
  {
    if s == [] then 0 else (if s[0] as int > 0xFFFF then 2 else 1) + Utf16Length(s[1..])
  }

  predicate InBmp(s: string) {
    forall i :: 0 <= i < |s| ==> s[i] as int <= 0xFFFF
  }

  /** Within the Basic Multilingual Plane the two lengths agree. */
  lemma {:induction false} Utf16LengthInBmp(s: string)
    requires InBmp(s)
    ensures Utf16Length(s) == |s|
    decreases |s|
  {
    if s != [] {
      Utf16LengthInBmp(s[1..]);
    }
  }

  predicate IsDigit(c: char) {
    '0' <= c <= '9'
  }

  predicate AllDigits(s: string) {
    forall i :: 0 <= i < |s| ==> IsDigit(s[i])
  }

  /** Six to ten decimal digits, the student-number pattern `^\d{6,10}$`
      read with `$` as end of input. */
  predicate IsStudentNumber(s: string) {
    6 <= |s| <= 10 && AllDigits(s)
  }

  function DigitChar(d: nat): (c: char)
    requires d < 10
    ensures IsDigit(c)
  {
    ('0' as int + d) as char
  }

  /** The number a string of decimal digits denotes. */
  function DigitsValue(s: string): nat
    requires AllDigits(s)
  {
    if s == [] then 0
    else DigitsValue(s[..|s| - 1]) * 10 + (s[|s| - 1] as int - '0' as int)
  }

  /** Decimal rendering of a natural number, as `Number.prototype.toString`
      gives it. */
  function NatString(n: nat): (r: string)
    ensures |r| >= 1 && AllDigits(r)
    decreases n
  {
    if n < 10 then [DigitChar(n)] else NatString(n / 10) + [DigitChar(n % 10)]
  }

  /** Decimal rendering of an integer, with a leading `-` when negative. */
  function IntString(n: int): string {
    if n < 0 then "-" + NatString(-n) else NatString(n)
  }

  /** Rendering a number and reading it back gives the number. */
  lemma {:induction false} NatStringRoundTrip(n: nat)
    ensures DigitsValue(NatString(n)) == n
    decreases n
  {
    if n >= 10 {
      NatStringRoundTrip(n / 10);
      var s := NatString(n);
      assert s[..|s| - 1] == NatString(n / 10);
    }
  }
}

=== FILE: wrappers.dfy ===
/** The optional-value type used wherever the source has `null`, `None`,
    `undefined` or a missing key. */
module Wrappers {

  datatype Option<+T> = None | Some(value: T) {

    /** The wrapped value, or `default` when there is none. */
    function GetOr(default: T): T {
      match this
      case Some(v) => v
      case None => default
    }
  }
}
